=== FILE: README.md ===
# Cultural-Inclusion backend core in Dafny

This project models the server core of the Cultural-Inclusion platform. That
platform is an Express/Mongoose backend that registers vulnerable beneficiaries,
officers and admins, scores how trustworthy each account is, and publishes
analytics and exports to administrators. The model covers:

- **The user document** (`user_model.dfy`, `backend/models/User.js`):
  - the fields the core reads and their schema defaults;
  - the trust-score computation and the risk tier derived from it;
  - the pre-save timestamp.

  `UserModel.User` is the document object whose methods update it in place.
  `UserModel.UserDoc` is its value snapshot, which the controllers count over.
- **The access gate and role guards** (`auth_gate.dfy`, `backend/middleware/auth.js`):
  - the bearer token is read from the `Authorization` header;
  - the token must resolve to a stored user;
  - a non-admin must be approved;
  - the three role guards;
  - the inline admin check every admin-only handler repeats.
- **The legacy-role migration script** (`migrate_roles.dfy`, `backend/scripts/migrateRoles.js`):
  - `data_entry`, `admin_user` and `user` are rewritten to officer, admin and beneficiary;
  - each migrated document gets the approval status that fits its new role;
  - the script runs as a loop over an array of stored documents.
- **The integration controller** (`integration.dfy`, `backend/controllers/integrationController.js`):
  - the handlers: data export (CSV / JSON / "Excel"), report generation, the external-API catalogue, mobile sync and data validation;
  - the helpers they rely on: CSV conversion, vulnerability distribution, geographic spread, impact score, risk assessment, priority areas and user engagement.
- **The analytics controller** (`analytics.dfy`, `backend/controllers/analyticsController.js`):
  - the analytics document built from all users: role totals, approval and appeal metrics, vulnerability counts, trust analysis, and per-location regions;
  - reading the latest stored document;
  - real-time metrics and vulnerability insights.

Supporting modules:

- `wrappers.dfy`: `Option` and `Result`.
- `text.dfy`: join, split, ASCII lower-casing, first-occurrence replace and integer printing. These stand for the JavaScript string built-ins.
- `dict.dfy`: a plain JavaScript object used as a dictionary. Its slots are kept in insertion order, which is how assignments build it. `Dict.Entries` is the order `Object.entries` lists them in: array-index keys (such as "254") first, in ascending numeric order, then every other key in insertion order.
- `population.dfy`: the counting expressions shared by both controllers.

Conventions:

- **Percentages and means** are kept exact rather than as floating point:
  - `Analytics.Rate` is either the 0 a guard substitutes, or `part / whole` with a non-zero `whole`;
  - `Analytics.Average` is either the default 50, or `total / count` with a non-zero `count`.
- **Database queries** are parameters: each handler receives the sequence of documents its query returns.
- **Token verification** is a parameter: the function from a token to the user id it names, if any.
- **Time** is a parameter: the save time `now`, and the ISO 8601 timestamp `isoTime` the export's date is cut from.
- **Save outcomes** are a parameter of the migration: `rejectedSave` is the position of the first document whose save the database rejects, if any.
- **Inherited member names** (`Dict.InheritedNames`) are the names every plain object answers to without holding them, the members of `Object.prototype`. Two handlers look up a name taken from the request or from a stored document in a plain object, and for those names they go wrong. Each is modelled twice: as written, and corrected to look up own keys only (see Findings). The rest of the model uses the corrected one.
- **Uploaded documents** are modelled twice. As the schema declares them they are strings (`UserModel.StoredVerification`), and they never add to the trust score. Corrected, each is a record with a `verified` flag (`UserModel.Attestation`), worth 3 points when verified (see Findings). The rest of the model uses the corrected form.

## Model

| member | source | states |
|---|---|---|
| UserModel.VerifiedCount | backend/models/User.js:115-120 | the number of verified references (or documents) never exceeds the number listed |
| UserModel.EvidencePoints | backend/models/User.js:102-120 | without any evidence the verification earns nothing; the points never exceed 40 plus 5 per reference and 3 per document (each document a record with a `verified` flag, the corrected schema; see Findings) |
| UserModel.RoleBonus | backend/models/User.js:122-124 | the role adjustment is at most 20, and it is zero exactly for roles other than officer and admin |
| UserModel.RawScore | backend/models/User.js:100-124 | the accumulated score is at least the base 50, and it is exactly 50 iff there are no evidence points and no role bonus |
| UserModel.SettingAFlag | backend/models/User.js:102-112 | setting the email, phone, location or ID-document flag raises the raw score by 10, 10, 5 or 15 respectively |
| UserModel.TrustScore | backend/models/User.js:99-127 | the computed trust score always lies in 50..100 |
| UserModel.TrustScoreIsCappedRawScore | backend/models/User.js:100-126 | the accumulated score is never below the base 50, so the lower clamp never applies and the result is the raw score capped at 100 |
| UserModel.BaselineScores | backend/models/User.js:100-124 | without verified evidence a beneficiary scores 50, an officer 60, an admin 70; any other role string scores 50 |
| UserModel.EmailPhoneIdBeneficiaryScores85 | backend/models/User.js:100-112 | a beneficiary with email, phone and ID document verified scores 85 and is low risk |
| UserModel.VerifiedCountConcat | backend/models/User.js:115-120 | counting verified entries distributes over concatenation |
| UserModel.UnverifiedCountZero | backend/models/User.js:115-120 | a list with no verified entry counts zero |
| UserModel.AddingReference | backend/models/User.js:115-116 | appending a reference raises the raw score by exactly 5 if it is verified, by 0 otherwise |
| UserModel.AddingDocument | backend/models/User.js:119-120 | with each document a record carrying a `verified` flag (the corrected schema; see Findings), appending a document raises the raw score by exactly 3 if it is verified, by 0 otherwise |
| UserModel.UnverifiedEntriesAddNothing | backend/models/User.js:115-120 | any number of unverified references and documents leaves the trust score unchanged |
| UserModel.StoredVerifiedCount | backend/models/User.js:119 | as written: the number of stored documents passing the `verified` filter never exceeds the number stored |
| UserModel.StoredDocumentsNeverVerified | backend/models/User.js:69-74 | as written: documents are stored as strings, so no stored document passes the `verified` filter, whatever is stored |
| UserModel.RawScoreAsWritten | backend/models/User.js:100-124 | as written: the accumulated score is never below the base 50 |
| UserModel.TrustScoreAsWritten | backend/models/User.js:99-127 | as written: the computed trust score lies in 50..100 |
| UserModel.AsWrittenIgnoresDocuments | backend/models/User.js:118-120 | as written: the raw and trust scores equal the corrected scores of the same data with no documents at all |
| UserModel.StoredDocumentAddsNothing | backend/models/User.js:118-120 | as written: uploading any document leaves the trust score unchanged |
| UserModel.VerifiedDocumentUnscored | backend/models/User.js:69-74 | a beneficiary with one verified document and no other evidence scores 53 with the corrected schema and 50 as written |
| UserModel.RiskTier | backend/models/User.js:130-135 | low iff score ≥ 80, medium iff 50 ≤ score < 80, high iff score < 50 (all three directions) |
| UserModel.RiskTierAntitone | backend/models/User.js:130-135 | a higher score never yields a riskier tier |
| UserModel.ComputedScoreNeverHighRisk | backend/models/User.js:99-135 | a score produced by calculateTrustScore never falls in the high-risk band |
| UserModel.NewDoc | backend/models/User.js:3-90 | a fresh document is unapproved with status pending, trust score 50 and risk level medium (consistent with each other), and appeal status none; its role is the requested one, or beneficiary when none is given; the verification data, location and factors are the given ones; both timestamps are the creation time |
| UserModel.DefaultScoreMatchesComputedIff | backend/models/User.js:78-127 | the default score 50 of a fresh document equals its computed score exactly when its raw score is 50 (both directions) |
| UserModel.Touched | backend/models/User.js:92-96 | the pre-save hook sets `updatedAt` to the save time and changes no other field |
| UserModel.User.constructor | backend/models/User.js:3-90 | the new object's fields are exactly the schema-defaulted document |
| UserModel.User.CalculateTrustScore | backend/models/User.js:99-127 | the method returns the score of its own role and verification data, in 50..100, and writes nothing |
| UserModel.User.UpdateRiskLevel | backend/models/User.js:130-135 | sets the risk level to the tier of the stored trust score, leaves every other field unchanged, and leaves the document risk-consistent |
| UserModel.User.Save | backend/models/User.js:92-96 | the pre-save hook changes only `updatedAt`, to the save time |
| AuthGate.ExtractToken | backend/middleware/auth.js:7 | a token exists iff the header does; a header starting with "Bearer " gives the rest of it; a header without the prefix is the token as it stands |
| AuthGate.SessionUser | backend/middleware/auth.js:7-18 | a request names a user iff the token is non-empty, verifies, and its user id is in the store; a missing header names nobody |
| AuthGate.Authenticate | backend/middleware/auth.js:5-39 | a pass carries the credential-free view of the stored user the token names, and that user is an admin or approved; refusal is 401 iff no stored user is named, and 403 iff the named user is an unapproved non-admin, in which case the approval status is attached; there is no other outcome. A missing or empty token is refused with "Access denied. No token provided."; any other 401 carries "Invalid token."; a 403 carries "Account pending approval. Please contact an administrator." |
| AuthGate.MissingTokenRefused | backend/middleware/auth.js:7-11 | a missing header, or a header holding only the prefix, is refused with 401 "Access denied. No token provided." |
| AuthGate.PrefixRemovedAnywhere | backend/middleware/auth.js:7 | the first occurrence of the prefix is removed even when it is not at the start of the header |
| AuthGate.AdminAlwaysPasses | backend/middleware/auth.js:20-35 | an admin with a valid token passes whatever its approval fields hold |
| AuthGate.UnapprovedRefused | backend/middleware/auth.js:20-26 | a valid token of an unapproved non-admin yields 403 with the pending-approval message and its approval status |
| AuthGate.ApprovalTakesEffectImmediately | backend/middleware/auth.js:14-35 | the gate re-reads the store on every request: approving the user turns the same token's 403 into a pass |
| AuthGate.PassImpliesApproved | backend/middleware/auth.js:20-33 | over a store whose approval flag and status agree, a non-admin that passes has status approved |
| AuthGate.RequireAdmin | backend/middleware/auth.js:42-49 | proceeds iff the role is admin; otherwise 403 with the admin message |
| AuthGate.RequireOfficer | backend/middleware/auth.js:52-59 | proceeds iff the role is admin or officer; otherwise 403 with the officer message |
| AuthGate.RequireBeneficiary | backend/middleware/auth.js:62-69 | proceeds iff the role is beneficiary; otherwise 403 with the beneficiary message |
| AuthGate.GuardsNest | backend/middleware/auth.js:42-69 | whoever passes the admin guard passes the officer guard; nobody passes both the admin and the beneficiary guard |
| AuthGate.BeneficiaryRouteImpliesApproved | backend/middleware/auth.js:20-69 | behind the gate, a request the beneficiary guard admits comes from an approved user |
| AuthGate.AdminOnly | backend/controllers/integrationController.js:13-15 | the handler proceeds iff the caller is an admin; anyone else gets 403 "Access denied" |
| MigrateRoles.IsLegacy | backend/scripts/migrateRoles.js:17-19 | a legacy role is none of admin, officer and beneficiary |
| MigrateRoles.RoleMapping | backend/scripts/migrateRoles.js:17-33 | a role has a mapping iff it is one of the three legacy roles, and every mapping targets admin, officer or beneficiary |
| MigrateRoles.MappingTable | backend/scripts/migrateRoles.js:29-33 | data_entry maps to officer, admin_user to admin, user to beneficiary |
| MigrateRoles.MigrateDoc | backend/scripts/migrateRoles.js:37-58 | a non-legacy document is untouched; a legacy one gets the role its mapping names, ends approval-consistent and stamped with the save time; it is approved iff its new role is admin or officer, and pending iff it is beneficiary; no other field changes |
| MigrateRoles.MigrateAll | backend/scripts/migrateRoles.js:17-62 | the store keeps its size and order |
| MigrateRoles.CountLegacy | backend/scripts/migrateRoles.js:17-21 | the number of selected documents never exceeds the store size |
| MigrateRoles.LegacyIndices | backend/scripts/migrateRoles.js:17-19 | the query returns exactly the legacy documents, in store order, each once |
| MigrateRoles.NoLegacyLeft | backend/scripts/migrateRoles.js:37-62 | after the migration no legacy role remains |
| MigrateRoles.NothingToMigrate | backend/scripts/migrateRoles.js:23-26 | a store with no legacy role is left exactly as it was |
| MigrateRoles.MigrationIdempotent | backend/scripts/migrateRoles.js:17-62 | running the script again, at any later time, changes nothing |
| MigrateRoles.MigrateAt | backend/scripts/migrateRoles.js:37-58 | migrating chosen positions keeps the store's size; MigrateRoles.MigrateAtSnoc states what one more position changes |
| MigrateRoles.MigrateFirst | backend/scripts/migrateRoles.js:37-58 | the store after the first saves keeps its size; MigrateRoles.MigratedPrefix states which documents are migrated |
| MigrateRoles.MigrateAtSnoc | backend/scripts/migrateRoles.js:37-58 | migrating one more position updates exactly that document |
| MigrateRoles.MigratedPrefix | backend/scripts/migrateRoles.js:37-62 | after m saves the first m selected documents carry their migration; the selected documents after them and every unselected document are unchanged |
| MigrateRoles.MigrateFirstNone | backend/scripts/migrateRoles.js:35-37 | before any save the store is as the query found it |
| MigrateRoles.MigrateFirstStep | backend/scripts/migrateRoles.js:37-58 | saving the next selected document, which is legacy and still untouched, updates that document and nothing else |
| MigrateRoles.MigrateFirstAll | backend/scripts/migrateRoles.js:37-62 | once every selected document is saved, the store is the fully migrated one |
| MigrateRoles.Reassign | backend/scripts/migrateRoles.js:38-58 | one selected document comes out exactly as the migration of that document: its mapped role, approved iff admin or officer, pending iff beneficiary, stamped with the save time |
| MigrateRoles.Migrate | backend/scripts/migrateRoles.js:35-62 | the loop completes iff no save is rejected before the last selected document; the count is the number of legacy documents when it completes, and otherwise the number saved before the rejected one; the array holds the store with exactly that many selected documents migrated, and the fully migrated store when the loop completes |
| Dict.FindPresent | backend/controllers/integrationController.js:433 | a value is found exactly when the key is present |
| Dict.Find | backend/controllers/integrationController.js:433 | reading `d[k]`; no contract of its own: Dict.FindPresent states when it finds a value, Dict.FindPut what it finds after an assignment |
| Dict.Put | backend/controllers/integrationController.js:433 | assigning `d[k] = v`; no contract of its own: Dict.FindPut states what each key reads back, Dict.KeysPut the key order, Dict.SumByPut the total |
| Dict.FindPut | backend/controllers/integrationController.js:433 | after an assignment the key reads back the new value and every other key its old one |
| Dict.KeysPut | backend/controllers/integrationController.js:433 | an assignment keeps the slots in first-insertion order, appends a new key at the end, and keeps keys distinct (the order `Object.entries` reports is `Dict.Entries`) |
| Dict.FirstMet | backend/controllers/integrationController.js:431-434 | the keys an object holds after assignments under a list of keys: exactly the listed keys, none twice |
| Dict.FirstMetSnoc | backend/controllers/integrationController.js:433 | meeting one more key appends it iff it is new |
| Dict.FirstMetOfDistinct | backend/controllers/integrationController.js:431-434 | a list of keys without repetition is held in its own order |
| Dict.FirstMetKeysDistinct | backend/controllers/integrationController.js:431-434 | slots whose keys are in first-met order have distinct keys |
| Dict.PutFirstMet | backend/controllers/analyticsController.js:86-91 | assigning under the next key met keeps the slots in first-met order |
| Dict.NamedKeys | backend/controllers/analyticsController.js:101 | the keys other than array indices, in their order, are all taken from the given keys |
| Dict.KeysOfNamed | backend/controllers/analyticsController.js:101 | the keys of the slots that are not array indices are the non-index keys, in the same order |
| Dict.SumByPut | backend/controllers/integrationController.js:433 | an assignment changes the sum of the values by exactly the new value minus the old one |
| Dict.KeyRank | backend/controllers/analyticsController.js:101 | a key ranks below every named key iff it is an array index, and array indices rank by their numeric value |
| Dict.Entries | backend/controllers/analyticsController.js:101 | the listing holds exactly the dictionary's slots, ordered by key rank, with the keys that are not array indices in their insertion order |
| Dict.EntriesWithoutIndices | backend/controllers/integrationController.js:506 | when no key is an array index, the listing is the insertion order |
| Dict.IndexKeyListedFirst | backend/controllers/analyticsController.js:101 | a dictionary built with "Nairobi" and then "254" lists "254" first |
| Dict.IndexKeysFirst | backend/controllers/analyticsController.js:101 | in every listing, each array-index key comes before each other key, and the array-index keys ascend by numeric value |
| Dict.SameSlotsSameKeys | backend/controllers/analyticsController.js:101 | two lists holding the same slots in any order hold the same keys |
| Dict.PermutedDict | backend/controllers/analyticsController.js:101 | a listing of a dictionary with distinct keys has distinct keys and the same key set, and each listed slot holds what the dictionary holds under that key |
| Population.Occurrences | backend/controllers/analyticsController.js:16-18 | the count of elements equal to a value never exceeds the length of the list |
| Population.CountOther | backend/controllers/analyticsController.js:37-39 | the count of elements different from a value never exceeds the length; Population.OthersComplement states that it and the count of equal elements add up to the length |
| Population.OthersComplement | backend/controllers/analyticsController.js:37-39 | the elements different from a value and those equal to it together make up the whole list |
| Population.PartitionOfThree | backend/controllers/integrationController.js:478-486 | the counts of the three risk levels sum to the number of users |
| Population.PartitionOfFour | backend/controllers/analyticsController.js:22-26 | the counts of the four approval statuses sum to the number of users |
| Population.ThreeAtMost | backend/controllers/analyticsController.js:15-19 | the counts of three distinct values together never exceed the length of the list |
| Population.LocationKey | backend/controllers/integrationController.js:432 | a missing or empty location is grouped under 'Unknown', and any other location under itself |
| Population.ScoreOr50 | backend/controllers/integrationController.js:441 | the score collected is never zero, and a non-zero stored score is collected as itself |
| Population.Beneficiaries | backend/controllers/analyticsController.js:61 | as many users as there are beneficiary roles, each a stored user whose role is beneficiary |
| Population.ApprovedUsers | backend/controllers/analyticsController.js:327 | as many users as there are approved statuses, each approved and taken from the input |
| Population.BeneficiaryPositions | backend/controllers/analyticsController.js:61 | the positions are valid and strictly increasing, and a position is listed iff the user there is a beneficiary |
| Population.BeneficiariesIsFilter | backend/controllers/analyticsController.js:61 | the beneficiaries are the users at those positions, in the same order: the order-preserving filter |
| Population.FactorCount | backend/controllers/integrationController.js:421-423 | the number of users listing a factor never exceeds the number of users |
| Population.Distribution | backend/controllers/integrationController.js:412-427 | one slot per known factor, in the factor-list order, each holding the count of users who list that factor |
| Population.VulnerabilityDistribution | backend/controllers/integrationController.js:412-427 | the loop builds exactly the factor distribution |
| Population.HighTrustCount | backend/controllers/integrationController.js:441 | the users whose score (50 when missing) is at least 80 number at most all users |
| Population.ActiveCount | backend/controllers/integrationController.js:549-557 | the approved users number at most all users |
| Population.ContactVerifiedCount | backend/controllers/analyticsController.js:363-366 | the users with email or phone verified number at most all users |
| Population.AllContactVerified | backend/controllers/analyticsController.js:477-484 | every user is counted as email- or phone-verified exactly when each of them has a verified email or phone |
| Population.EmailVerifiedCount | backend/controllers/integrationController.js:500 | the users with a verified email never outnumber the users, nor those with a verified email or phone |
| Population.ScoreSum | backend/controllers/analyticsController.js:62-64 | the sum of the collected scores (a missing or zero score read as 50); no contract of its own: Population.ScoreSumBounds bounds it |
| Population.AnyVerifiedCount | backend/controllers/analyticsController.js:74-78 | the users with email, phone or ID verified are at least as many as those with email or phone verified, and at most all users |
| Population.RiskTotalsOf | backend/controllers/integrationController.js:478-486 | the low, medium and high counts partition the users |
| Text.Join | backend/controllers/integrationController.js:233-243 | joining nothing gives the empty text; otherwise the text is as long as the parts plus one separator between each two, and starts with the first part followed by the separator |
| Text.JoinOneOrTwo | backend/controllers/integrationController.js:233-243 | one part joins to itself; two parts join with the separator between them |
| Text.Split | backend/controllers/integrationController.js:25 | splitting always yields at least one part; the first part holds no separator and is a prefix of the text |
| Text.SplitJoin | backend/controllers/integrationController.js:233-243 | joining parts that avoid the separator is undone by splitting |
| Text.ToLower | backend/controllers/integrationController.js:43 | lower-casing keeps the length and maps each character through the ASCII lower-case table |
| Text.ToLowerIdempotent | backend/controllers/integrationController.js:43 | lower-casing twice is lower-casing once |
| Text.ReplaceFirst | backend/middleware/auth.js:7 | without an occurrence the text is unchanged; otherwise only the first occurrence is replaced, the text before and after it kept; a pattern at the start is replaced there |
| Text.NatToString | backend/controllers/integrationController.js:238 | a number prints as a non-empty string of decimal digits that denotes it, with no leading zero |
| Text.IntToString | backend/controllers/integrationController.js:238 | a non-negative number prints as digits denoting it; a negative one as a minus sign followed by the digits of its magnitude |
| Integration.Render | backend/controllers/integrationController.js:238 | a cell is empty iff the field is missing; a string is put between two double quotes with nothing in it changed; a number prints as digits denoting it, with a minus sign when negative; a boolean prints as "true" or "false" |
| Integration.RowKeys | backend/controllers/integrationController.js:233 | the header names, the record's own field names in order; no contract of its own: Integration.CsvReadsBack reads them back from the header line |
| Integration.Lookup | backend/controllers/integrationController.js:237 | a header the record lacks reads as missing; otherwise the value is that of the first field of that name |
| Integration.Cells | backend/controllers/integrationController.js:236-239 | the cells of one line, in header order; no contract of its own: Integration.LineReadsBack states that they read back |
| Integration.RowLines | backend/controllers/integrationController.js:235-241 | one line per row, in order; no contract of its own: Integration.ConvertToCSV and Integration.CsvReadsBack state the lines |
| Integration.CsvText | backend/controllers/integrationController.js:229-244 | the text is empty iff there is no data or an empty list; otherwise it starts with the first row's field names joined by commas and a line break |
| Integration.ConvertToCSV | backend/controllers/integrationController.js:229-244 | the loop produces the CSV text: empty for missing or empty data, otherwise the header line followed by one line per record |
| Integration.ConvertToExcel | backend/controllers/integrationController.js:246-249 | the "Excel" export is the CSV text |
| Integration.LineReadsBack | backend/controllers/integrationController.js:236-240 | a line whose cells contain no comma or line break splits back into exactly its cells |
| Integration.CsvReadsBack | backend/controllers/integrationController.js:229-244 | when no value holds a comma or line break, the text has one line per record plus the header; the header splits back into the field names, and each line into its record's cells |
| Integration.QuotesNotEscaped | backend/controllers/integrationController.js:238 | for every string value, a one-field export is the field name, a line break, and the value between double quotes exactly as given: a double quote inside it is not doubled |
| Integration.CommaInValueSplitsCell | backend/controllers/integrationController.js:238-240 | a string value holding one comma produces a line that splits at it into two cells |
| Integration.ParseDataType | backend/controllers/integrationController.js:22-37 | a data type is accepted iff it is users, analytics or beneficiaries |
| Integration.DataTypeName | backend/controllers/integrationController.js:22-34 | each data type's name parses back to that data type |
| Integration.ParsedDataTypeName | backend/controllers/integrationController.js:22-34 | an accepted data type string is the name of the type it parses to |
| Integration.Fetch | backend/controllers/integrationController.js:22-34 | the users and beneficiaries exports fetch their query's list, the analytics export the latest document if any; no contract of its own: Integration.ExportData states the outcomes |
| Integration.DatePart | backend/controllers/integrationController.js:25 | the date holds no 'T' and is a prefix of the timestamp |
| Integration.DatePartOfTimestamp | backend/controllers/integrationController.js:25 | the date part of `<date>T<time>` is `<date>` |
| Integration.BaseName | backend/controllers/integrationController.js:25-33 | the file name is the data type's name, "_export_", and the timestamp's date part |
| Integration.ParseFormat | backend/controllers/integrationController.js:43-61 | the format is csv, json or excel iff its lower-cased text is that word |
| Integration.ContentType | backend/controllers/integrationController.js:46-56 | the content type is text/csv iff the format is csv, and application/json iff it is json |
| Integration.Extension | backend/controllers/integrationController.js:47-57 | the csv and json extensions name their own format; the excel extension "xlsx" names none |
| Integration.CsvOf | backend/controllers/integrationController.js:45 | a list converts to its CSV text; a single stored analytics document makes the conversion throw, so it yields the 500 error; a missing one yields the empty text |
| Integration.ExportData | backend/controllers/integrationController.js:11-73 | non-admins get 403; an unknown data type gives 400 "Invalid data type"; a missing format throws, giving 500; an unknown format gives 400 "Unsupported format"; a success carries the format's content type and the file name `<dataType>_export_<date>.<ext>`, the date being the timestamp's date part; its body is the CSV text for csv/excel and the fetched data for json |
| Integration.FormatCaseInsensitive | backend/controllers/integrationController.js:43 | two formats equal up to ASCII case produce the same response |
| Integration.UpperCaseFormats | backend/controllers/integrationController.js:43-58 | "CSV", "Excel" and "JSON" are accepted |
| Integration.ExcelCarriesCsvText | backend/controllers/integrationController.js:44-58 | an excel export carries the same text as a csv export of the same data |
| Integration.AnalyticsCsvExportFails | backend/controllers/integrationController.js:27-45 | a CSV export of analytics, when a stored analytics document exists, answers 500 "Server error" |
| Integration.CountStep | backend/controllers/integrationController.js:432-433 | counting one more key keeps the counter's keys in first-met order, every key reading as its number of occurrences, and the total equal to the number of keys counted |
| Integration.CountStepOrder | backend/controllers/integrationController.js:433 | incrementing the count of the next key keeps the keys in first-met order |
| Integration.CountStepEvery | backend/controllers/integrationController.js:433 | incrementing the count of the next key keeps every key's reading equal to its number of occurrences |
| Integration.GeographicSpread | backend/controllers/integrationController.js:429-437 | the counter has distinct keys, exactly the users' location keys, in the order they are first met, each holding its number of occurrences, and the counts sum to the number of users |
| Integration.InsertByCount | backend/controllers/integrationController.js:506-507 | inserting keeps every entry and adds exactly the new one |
| Integration.InsertKeepsOrder | backend/controllers/integrationController.js:506-507 | inserting into a list sorted by descending count keeps it sorted |
| Integration.SortByCount | backend/controllers/integrationController.js:506-507 | the sort result is a permutation of its input, in descending count order |
| Integration.DistributionEntries | backend/controllers/integrationController.js:505-506 | no factor name is an array index, so the distribution is listed in factor order |
| Integration.DistributionDistinct | backend/controllers/integrationController.js:412-427 | the distribution names each factor once |
| Integration.ListedFactorsCounted | backend/controllers/integrationController.js:505-507 | every slot of a reordering of the distribution is a known factor with its count |
| Integration.ListingHasEveryFactor | backend/controllers/integrationController.js:505-507 | every factor with its count is in any reordering of the distribution |
| Integration.SortedDistribution | backend/controllers/integrationController.js:505-507 | the sorted listing of the distribution holds each factor once, with its own count, and nothing else |
| Integration.RankedFactors | backend/controllers/integrationController.js:505-507 | nine entries with distinct factors, in descending count order, each a factor with its count; every factor appears |
| Integration.OutsideTopThree | backend/controllers/integrationController.js:506-508 | a factor not among the first three has a count no larger than the third |
| Integration.TopThreeCover | backend/controllers/integrationController.js:506-508 | every factor is among the first three or counts no more than the third |
| Integration.TopThree | backend/controllers/integrationController.js:508-510 | exactly three areas, the first three entries with their counts |
| Integration.PriorityAreasOfRanking | backend/controllers/integrationController.js:504-511 | the first three entries of the ranking are three different known factors with their true counts, in non-increasing order, and every other factor counts no more than the third |
| Integration.IdentifyPriorityAreas | backend/controllers/integrationController.js:504-511 | exactly three different areas, each a known factor with its true count (at most the number of users), non-increasing; every factor not chosen counts no more than the last one chosen |
| Integration.FundingAllocationOf | backend/controllers/integrationController.js:513-521 | the four amounts are 40% of the users at 1000, 30% at 1500, 20% at 800 and 10% at 2000; they total 1210 per user, and are all zero iff there are no users |
| Integration.QuotientOf | backend/controllers/integrationController.js:496-502 | a division without a zero guard is not a number exactly when the divisor is 0, and otherwise keeps its numerator and divisor |
| Integration.SuccessMetricsOf | backend/controllers/integrationController.js:496-502 | the approval rate, mean score and email-verification rate are each not a number exactly when there are no users; otherwise both rates are shares of all the users, never above them, and the mean is over all the users |
| Integration.MeanScoreWithinRange | backend/controllers/integrationController.js:499 | with every stored score within the schema's 0..100, the success metrics' mean score lies within 1..100 |
| Integration.GenerateReport | backend/controllers/integrationController.js:76-112 | non-admins get 403; an admin succeeds iff the report type is one of the four, otherwise 400 "Invalid report type". Impact: the beneficiary total and approved count, the factor distribution, a location counter with distinct keys that are exactly the location keys in first-met order, each holding its count, summing to the total, the impact score's counts with its approved share (not a number for no beneficiaries), and the mean score (not a number for no beneficiaries). Vulnerability: the distribution, the risk totals, the fixed intervention list, and the success metrics of Integration.SuccessMetricsOf. Funding: the priority areas and the funding allocation for the number of beneficiaries. Operational: total and approved users |
| Integration.ExternalAPIAsWritten | backend/controllers/integrationController.js:115-158 | as written: non-admins get 403; an admin's endpoint passes iff it is a listed integration or an inherited object member; a pass returns whatever the table holds under it; otherwise 404 |
| Integration.ExternalAPI | backend/controllers/integrationController.js:115-158 | as intended: non-admins get 403; an admin's endpoint is found iff it is one of the four listed integrations, and the answer is that entry; otherwise 404 "Integration not found" |
| Integration.InheritedNameReachesIntegration | backend/controllers/integrationController.js:147-156 | "toString" passes the as-written check with no integration to report, and the intended check refuses it with 404 |
| Integration.AsWrittenAgreesElsewhere | backend/controllers/integrationController.js:147-149 | for every endpoint that is not an inherited object member, the two checks agree |
| Integration.MobileSync | backend/controllers/integrationController.js:167-204 | no signed-in user gives 401; an unknown sync type gives 400; download answers for the id the body names, or for none when it names none, and gives 500 when the store's id cast refuses that id; upload and conflict resolution without offline data throw, giving 500; otherwise they report the number of offline records (processed and new, or merged) with zero conflicts |
| Integration.GatedSyncAuthenticated | backend/controllers/integrationController.js:171-173 | behind the gate the 401 branch of mobile sync is unreachable |
| Integration.ValidateData | backend/controllers/integrationController.js:207-226 | non-admins get 403; otherwise the total is the number of users; valid plus invalid equals the total; the valid count is negative iff there are fewer than five users |
| Integration.AdminOnlyHandlers | backend/controllers/integrationController.js:13-14 | a non-admin is refused with 403 "Access denied" by export, external API and validation alike |
| Analytics.RateOf | backend/controllers/analyticsController.js:32-33 | the rate is the guarded 0 iff the divisor is 0; otherwise it is exactly part over whole |
| Analytics.AverageOf | backend/controllers/analyticsController.js:63-64 | the average is the default 50 iff the list is empty; otherwise it is exactly total over count |
| Population.ScoreSumBounds | backend/controllers/analyticsController.js:62-64 | with stored scores in 0..100, the sum of the scores (0 read as 50) lies between the count and 100 times the count |
| Analytics.RoleTotalsOf | backend/controllers/analyticsController.js:15-19 | the three role counts sum to at most the number of users, to exactly that number when every role is one of the three, and the beneficiary count is the number of beneficiaries |
| Analytics.MigratedRolesPartition | backend/controllers/analyticsController.js:15-19 | after the role migration, the three role counts account for every user whose role was an enumerated or legacy one |
| Analytics.ApprovalMetricsOf | backend/controllers/analyticsController.js:22-33 | the four status counts sum to the number of users; the rate is the guarded 0 iff none were approved or rejected, otherwise approved over approved-plus-rejected |
| Analytics.AppealMetricsOf | backend/controllers/analyticsController.js:36-45 | the appeals are the users whose appeal status is not none; granted plus denied is at most that number; the success rate is the guarded 0 iff there are no appeals, otherwise granted over appeals |
| Analytics.VulnerabilityCountsOf | backend/controllers/analyticsController.js:48-58 | each of the nine named counts equals the number of users listing the matching factor |
| Analytics.TrustAnalysisOf | backend/controllers/analyticsController.js:61-80 | the risk counts partition the beneficiaries; the average is their score mean (50 when there are none); the verification rate is the share with any verified contact or ID, never above 100% |
| Analytics.Bump | backend/controllers/analyticsController.js:92-97 | adding a user to a group adds one member, adds one approval iff the user is approved, and appends the user's score (50 for a zero) |
| Analytics.StatsAt | backend/controllers/analyticsController.js:84-98 | a location's group counts its beneficiaries; the approvals never exceed the count; there is one collected score per member, and none is zero |
| Analytics.GroupStep | backend/controllers/analyticsController.js:84-97 | grouping one more user keeps the slots in first-met order, each location's group exact, and the group sizes summing to the number of users grouped |
| Analytics.GroupStepEvery | backend/controllers/analyticsController.js:92-97 | adding a user to its location's group, created empty if missing, keeps every location's group exact |
| Analytics.GroupedExactly | backend/controllers/analyticsController.js:83-98 | a grouping of every beneficiary is exact: distinct keys in first-met order, exactly the location keys, each holding its group, sizes summing to the number of beneficiaries |
| Analytics.GroupByLocation | backend/controllers/analyticsController.js:83-98 | with own keys only: the grouping has distinct keys, exactly the beneficiaries' location keys in the order they are first met, each holding that location's group; the group counts sum to the number of beneficiaries |
| Analytics.OwnLocationsSnoc | backend/controllers/analyticsController.js:84-86 | appending a user whose location is not an inherited member's name keeps every location an own one |
| Analytics.GroupByLocationAsWritten | backend/controllers/analyticsController.js:83-98 | as written: the loop throws iff some beneficiary's location is the name of an inherited object member; otherwise the grouping is exact, as above |
| Analytics.RegionOf | backend/controllers/analyticsController.js:101-107 | a region carries its location's name and count; its approval rate is the guarded 0 iff the group is empty, otherwise approvals over count; its mean score is the default 50 iff there are no scores, otherwise their sum over their number |
| Analytics.Sum | backend/controllers/analyticsController.js:106 | the sum of a region's scores; no contract of its own: Analytics.RegionOf states that a region's mean is over that sum |
| Analytics.Regions | backend/controllers/analyticsController.js:100-108 | one region per location, each named by a location key; Analytics.RegionsFromGroups states the order and the contents |
| Analytics.RegionNames | backend/controllers/analyticsController.js:100-108 | the regions of a grouping have distinct names, exactly its keys, listed array-index names first in ascending order and the other names in slot order |
| Analytics.RegionsFromGroups | backend/controllers/analyticsController.js:100-108 | each location appears as exactly one region, in `Object.entries` order: array-index names first in ascending order, the others in the order first met; each region reports its own group, has at least one member, and so has a real approval rate |
| Analytics.AssembleAnalytics | backend/controllers/analyticsController.js:5-80 | with some user past pending, the document holds the role totals, approval and appeal metrics, vulnerability counts and beneficiary trust analysis stated above; the predicted approval rate, approved over non-pending users; the risk-level counts of all users as risk trends; ten times the approved beneficiaries as impact score; the digital inclusion rate of the approved beneficiaries; and the regions given |
| Analytics.DigitalInclusionRate | backend/controllers/analyticsController.js:477-484 | the rate is the guarded 0 exactly when there are no approved beneficiaries; otherwise it is a share of all of them, never above it, and it is the full share exactly when each has a verified email or phone |
| Analytics.AnalyticsOf | backend/controllers/analyticsController.js:99-146 | from an exact grouping: success iff some user is past pending, otherwise 500 "Server error" (the predicted approval rate is 0/0 and the save refuses it); a success carries the counts above and regions that report the beneficiaries' locations |
| Analytics.GenerateAnalytics | backend/controllers/analyticsController.js:5-147 | with the grouping looking up own keys only: non-admins get 403; an admin succeeds iff some user is no longer pending, and otherwise gets 500 "Server error" (the predicted approval rate is 0/0 and the save refuses it). The document holds the role totals, approval and appeal metrics, vulnerability counts and beneficiary trust analysis stated above; the predicted approval rate, approved over non-pending users; the risk-level counts of all users as risk trends; ten times the approved beneficiaries as impact score; the share of approved beneficiaries with a verified email or phone (0 when there are none) as digital inclusion rate; and regions that name each beneficiary location once, in `Object.entries` order, each reporting its own group |
| Analytics.GenerateAnalyticsAsWritten | backend/controllers/analyticsController.js:5-147 | as written: non-admins get 403; an admin succeeds iff some user is no longer pending and no beneficiary's location is the name of an inherited object member, and otherwise gets 500 "Server error"; a success carries the same document, digital inclusion rate included |
| Analytics.ConstructorLocation | backend/controllers/analyticsController.js:84-97 | one approved beneficiary located at "constructor" is past pending, and its location is an inherited member's name |
| Analytics.InheritedLocationFailsAnalytics | backend/controllers/analyticsController.js:84-97 | for one approved beneficiary located at "constructor", the handler as written answers 500 "Server error", while the own-key handler succeeds and reports a region named "constructor" |
| Analytics.GetAnalytics | backend/controllers/analyticsController.js:150-168 | non-admins get 403; an admin gets the latest document iff one exists, otherwise 404 "No analytics data found" |
| Analytics.GetRealTimeMetrics | backend/controllers/analyticsController.js:171-197 | non-admins get 403; otherwise: the user and beneficiary totals; the pending approvals and pending appeals, each at most the total; the beneficiaries' mean score (50 when there are none); the approved share and the email-or-phone-verified share of all users |
| Analytics.GetVulnerabilityInsights | backend/controllers/analyticsController.js:200-221 | non-admins get 403; otherwise: the factor distribution; risk levels that partition the beneficiaries; their mean score (50 when there are none); the approved share and the high-trust share, each guarded to 0 for no beneficiaries |

## Left out

- **Floating point:** floating-point arithmetic and `toFixed(2)` rounding are not modelled. Every percentage and mean is kept as an exact fraction: `Analytics.Rate` and `Analytics.Average` where the source guards a zero divisor, `Integration.Quotient` (with its not-a-number case) where it does not. This has three consequences:
  - a rate's string-versus-number type is not modelled;
  - the impact score's rounding to a whole percentage is not modelled; the score is kept as the unrounded share;
  - the KPI `systemEfficiency` is not modelled; it is a float combination of the approval and appeal rates.
- **Fixed mock figures:** recommendations, expected impact, the constant KPI scores, system performance, data-quality constants and the predictive funding recommendations are not modelled. They do not depend on the users.
- **Time-dependent parts:** temporal trends and the expected registrations are not modelled. They depend on the clock and on date arithmetic.
- **Persistence and I/O:** database access, `mongoose.connect`, console logging and HTTP header writing are not modelled:
  - each query result is a parameter;
  - JWT verification is a parameter function;
  - the save time and the export timestamp are parameters;
  - whether a migration save succeeds is a parameter.
- **MigrateRoles.Migrate:** uses one save time for every document, although each save in the source reads the clock afresh.
- **Query filters:** the request's `filters` are not modelled. Every query result is a parameter, so a filter that widens the beneficiary query to other roles is not represented.
- **JSON serialisation:** `JSON.stringify` is not modelled. A JSON export carries the fetched data itself.
- **CSV rows:** rows are plain records of strings, integers, booleans and missing values. `Object.keys` on a Mongoose document, which lists internal properties rather than the schema fields, is not modelled; nor are nested objects, arrays or dates as cell values. A row may repeat a field name, and the first one is read; a JavaScript object cannot hold a name twice.
- **Integration.QuotesNotEscaped:** states the text the writer produces; no CSV reader (such as one following RFC 4180) is modelled, so the misreading it causes is described, not derived.
- **Integration.ExportData:** the user and beneficiary exports are given as row lists already stripped of the password field.
- **Integration.GeographicSpread:** the counter's slots are stated in the order the location keys are first met. The report's serialised key order, which puts array-index location names first, is not stated for it (the analytics regions do use `Dict.Entries`). Location names that collide with inherited object members (such as "constructor") are treated as ordinary keys. In the source, `(locations[location] || 0) + 1` starts from the inherited member instead of 0, giving a string rather than a count, and an assignment under "__proto__" is not stored as a key.
- **Analytics.GroupByLocation:** models the grouping that looks up own keys only. The loop as written is `Analytics.GroupByLocationAsWritten`: a location that names an inherited object member makes it throw (see Findings). The writes to the inherited member before the throw are not modelled, including the change that "__proto__" makes to every object's prototype. The grouping's slots are in first-met order; the order in which `Object.entries` lists them, array-index location names first, is applied where the regions are built (`Dict.Entries`).
- **Dict.KeysPut:** states the order of the dictionary's slots, which is the insertion order; JavaScript's enumeration order, which puts array-index keys first, is `Dict.Entries` and is not what this lemma states.
- **Integration.IdentifyPriorityAreas:** the relative order of factors with equal counts is not stated, although the source's sort is stable.
- **Integration.FundingAllocationOf:** the products `n * 0.4 * 1000` and the like are computed exactly; the floating-point error that `Math.round` absorbs is not modelled.
- **Integration.GenerateReport:**
  - the impact and funding reports omit their recommendation, expected-impact and risk-mitigation lists, which are fixed;
  - the operational report omits the float rates and mock figures.
- **Integration.MobileSync:** the download branch does not model the profile it looks up or the recent-activity list; it reports only the id it was asked for. Whether the store's id cast accepts an id is the parameter `isObjectId`.
- **Analytics.GetRealTimeMetrics:** omits the recent-activity list, which is a date-sorted query.
- **Analytics.GenerateAnalytics:** of the impact metrics it keeps the impact score and the digital inclusion rate; the social-inclusion, economic-empowerment and community-engagement figures are fixed and left out. It does not model storing the analytics document, apart from the save failing on the not-a-number predicted approval rate.
- **Mock external responses:** `generateMockAPIResponse` is not modelled; the external API returns only the integration entry.
- **Lower-casing:** `toLowerCase` on non-ASCII letters is not modelled. Only A-Z are lowered.
- **Concurrency:** concurrent requests and the interleaving of asynchronous database calls are not modelled.

## Findings

| source | as written | input that shows it | evidently intended | confidence | as-written member | corrected member |
|---|---|---|---|---|---|---|
| backend/controllers/integrationController.js:147 | the lookup in the integrations table also answers for names every object inherits, so they pass the not-found check | endpoint "toString" (likewise "constructor", "hasOwnProperty", ...) passes, and the handler reports success for an integration that does not exist | only the four listed endpoints are found; every other endpoint gets 404 "Integration not found" | not executed | Integration.ExternalAPIAsWritten | Integration.ExternalAPI |
| backend/controllers/analyticsController.js:84-97 | `locationData[location]` also finds the members every object inherits; they are truthy, so no group is created, and `trustScores.push` on the inherited member throws; the catch block answers 500 | one approved beneficiary whose location is "constructor" (likewise "toString", "__proto__", "valueOf", ...) | every location, whatever its name, is grouped and reported as a region | not executed | Analytics.GenerateAnalyticsAsWritten, Analytics.InheritedLocationFailsAnalytics | Analytics.GenerateAnalytics |
| backend/models/User.js:69-74 | the element of `documents` has a key named `type` whose value is `String`, so the schema reads the whole element as that type: `documents` is an array of strings, a stored document has no `verified` flag, and the filter at :119 never keeps one | a beneficiary with one uploaded, verified document and no other evidence scores 50 | each verified document adds 3 points, as :118-120 and the element's `verified` field intend, so that beneficiary scores 53 | not executed | UserModel.StoredDocumentsNeverVerified, UserModel.StoredDocumentAddsNothing, UserModel.VerifiedDocumentUnscored | UserModel.AddingDocument |

=== FILE: analytics.dfy ===
/** The analytics controller, backend/controllers/analyticsController.js: four
    admin-only handlers counting over the stored users. Each rate and average
    the source computes in floating point and rounds to two decimals is kept
    exact, as the fraction it divides, together with the fallback its zero
    guard substitutes. The query results are parameters. */
module Analytics {
  import opened Wrappers
  import opened UserModel
  import opened AuthGate
  import opened Dict
  import opened Population
  import opened MigrateRoles

  /** A percentage `part / whole * 100` with a non-zero `whole`, or the 0 the guard substitutes when the divisor is 0. */
  datatype Rate = GuardedZero | Percent(part: nat, whole: nat)

  function RateOf(part: nat, whole: nat): (r: Rate)
    ensures r.GuardedZero? <==> whole == 0
    ensures r.Percent? ==> r.part == part && r.whole == whole
  {
    if whole > 0 then Percent(part, whole) else GuardedZero
  }

  /** A mean `total / count` with a non-zero `count`, or the 50 the guard substitutes for an empty list. */
  datatype Average = Default50 | Mean(total: int, count: nat)

  function AverageOf(total: int, count: nat): (a: Average)
    ensures a.Default50? <==> count == 0
    ensures a.Mean? ==> a.total == total && a.count == count
  {
    if count > 0 then Mean(total, count) else Default50
  }

  function Sum(xs: seq<int>): int
  {
    if xs == [] then 0 else Sum(xs[..|xs| - 1]) + xs[|xs| - 1]
  }

  // ---------------------------------------------------------------------
  // The counts of generateAnalytics

  /** `totalUsers`: users per role. */
  datatype RoleTotals = RoleTotals(admin: nat, officer: nat, beneficiary: nat)

  function RoleTotalsOf(users: seq<UserDoc>): (t: RoleTotals)
    ensures t.admin + t.officer + t.beneficiary <= |users|
    ensures (forall i :: 0 <= i < |users| ==>
               users[i].role == AdminRole || users[i].role == OfficerRole || users[i].role == BeneficiaryRole) ==>
              t.admin + t.officer + t.beneficiary == |users|
    ensures t.beneficiary == |Beneficiaries(users)|
  {
    var roles := Roles(users);
    ThreeAtMost(roles, AdminRole, OfficerRole, BeneficiaryRole);
    assert (forall i :: 0 <= i < |users| ==>
              users[i].role == AdminRole || users[i].role == OfficerRole || users[i].role == BeneficiaryRole) ==>
             Occurrences(roles, AdminRole) + Occurrences(roles, OfficerRole) + Occurrences(roles, BeneficiaryRole) == |users| by {
      if forall i :: 0 <= i < |users| ==>
           users[i].role == AdminRole || users[i].role == OfficerRole || users[i].role == BeneficiaryRole {
        PartitionOfThree(roles, AdminRole, OfficerRole, BeneficiaryRole);
      }
    }
    RoleTotals(Occurrences(roles, AdminRole), Occurrences(roles, OfficerRole), Occurrences(roles, BeneficiaryRole))
  }

  /** After the role migration, a store whose roles were each either current or legacy has its role counts add up to its size. */
  lemma MigratedRolesPartition(users: seq<UserDoc>, now: int)
    requires forall i :: 0 <= i < |users| ==>
               users[i].role == AdminRole || users[i].role == OfficerRole || users[i].role == BeneficiaryRole ||
               IsLegacy(users[i].role)
    ensures var t := RoleTotalsOf(MigrateAll(users, now));
            t.admin + t.officer + t.beneficiary == |users|
  {
    var migrated := MigrateAll(users, now);
    forall i | 0 <= i < |migrated|
      ensures migrated[i].role == AdminRole || migrated[i].role == OfficerRole || migrated[i].role == BeneficiaryRole
    {
      assert migrated[i] == MigrateDoc(users[i], now);
      assert IsLegacy(users[i].role) ==> RoleMapping(users[i].role).Some?;
    }
  }

  datatype ApprovalMetrics = ApprovalMetrics(totalPending: nat, totalApproved: nat, totalRejected: nat,
                                             totalUnderReview: nat, approvalRate: Rate)

  /** `approvalMetrics`: users per approval status, and the approved share of the decided ones. */
  function ApprovalMetricsOf(users: seq<UserDoc>): (m: ApprovalMetrics)
    ensures m.totalPending + m.totalApproved + m.totalRejected + m.totalUnderReview == |users|
    ensures m.approvalRate.GuardedZero? <==> m.totalApproved + m.totalRejected == 0
    ensures m.approvalRate.Percent? ==>
              m.approvalRate.part == m.totalApproved && m.approvalRate.whole == m.totalApproved + m.totalRejected
    ensures m.totalApproved == Occurrences(ApprovalStatuses(users), Approved)
  {
    var statuses := ApprovalStatuses(users);
    PartitionOfFour(statuses, Pending, Approved, Rejected, UnderReview);
    var approved := Occurrences(statuses, Approved);
    var rejected := Occurrences(statuses, Rejected);
    ApprovalMetrics(Occurrences(statuses, Pending), approved, rejected, Occurrences(statuses, UnderReview),
                    RateOf(approved, approved + rejected))
  }

  datatype AppealMetrics = AppealMetrics(totalAppeals: nat, appealsGranted: nat, appealsDenied: nat, appealSuccessRate: Rate)

  /** `appealMetrics`: users who have appealed, how many appeals were granted and denied, and the granted share. */
  function AppealMetricsOf(users: seq<UserDoc>): (m: AppealMetrics)
    ensures m.appealsGranted + m.appealsDenied <= m.totalAppeals <= |users|
    ensures m.appealSuccessRate.GuardedZero? <==> m.totalAppeals == 0
    ensures m.appealSuccessRate.Percent? ==>
              m.appealSuccessRate.part == m.appealsGranted && m.appealSuccessRate.whole == m.totalAppeals
    ensures m.totalAppeals == |users| - Occurrences(AppealStatuses(users), AppealNone)
  {
    var statuses := AppealStatuses(users);
    TwoAmongOthers(statuses, AppealNone, AppealApproved, AppealRejected);
    OthersComplement(statuses, AppealNone);
    var total := CountOther(statuses, AppealNone);
    var granted := Occurrences(statuses, AppealApproved);
    AppealMetrics(total, granted, Occurrences(statuses, AppealRejected), RateOf(granted, total))
  }

  /** `vulnerabilityAnalysis`: the nine factor counts under their short names. */
  datatype VulnerabilityCounts = VulnerabilityCounts(refugees: nat, lgbtq: nat, disabled: nat, lowIncome: nat,
                                                     creatives: nat, rural: nat, youth: nat, singleParent: nat,
                                                     unemployed: nat)

  /** The counts in factor order: `refugees` counts the first factor of the list, `unemployed` the last. */
  function CountsInOrder(v: VulnerabilityCounts): seq<nat>
  {
    [v.refugees, v.lgbtq, v.disabled, v.lowIncome, v.creatives, v.rural, v.youth, v.singleParent, v.unemployed]
  }

  function VulnerabilityCountsOf(users: seq<UserDoc>): (v: VulnerabilityCounts)
    ensures forall i :: 0 <= i < |VulnerabilityFactors| ==>
              CountsInOrder(v)[i] == Distribution(users)[i].val <= |users|
  {
    var c := (i: nat) requires i < |VulnerabilityFactors| => FactorCount(users, VulnerabilityFactors[i]);
    VulnerabilityCounts(c(0), c(1), c(2), c(3), c(4), c(5), c(6), c(7), c(8))
  }

  datatype TrustAnalysis = TrustAnalysis(averageTrustScore: Average, lowRiskUsers: nat, mediumRiskUsers: nat,
                                         highRiskUsers: nat, verificationRate: Rate)

  /** `trustAnalysis` over the beneficiaries: their mean score, their risk levels, and the share with any verified contact or identity document. */
  function TrustAnalysisOf(beneficiaries: seq<UserDoc>): (t: TrustAnalysis)
    ensures t.lowRiskUsers + t.mediumRiskUsers + t.highRiskUsers == |beneficiaries|
    ensures t.averageTrustScore == AverageOf(ScoreSum(beneficiaries), |beneficiaries|)
    ensures t.verificationRate == RateOf(AnyVerifiedCount(beneficiaries), |beneficiaries|)
    ensures t.verificationRate.Percent? ==> t.verificationRate.part <= t.verificationRate.whole
  {
    var risk := RiskTotalsOf(beneficiaries);
    TrustAnalysis(AverageOf(ScoreSum(beneficiaries), |beneficiaries|), risk.low, risk.medium, risk.high,
                  RateOf(AnyVerifiedCount(beneficiaries), |beneficiaries|))
  }

  // ---------------------------------------------------------------------
  // The per-location grouping of generateAnalytics

  /** One location's group: how many users, how many of them approved, and their scores in order. */
  datatype LocationStats = LocationStats(count: nat, approvals: nat, trustScores: seq<int>)

  const EmptyGroup: LocationStats := LocationStats(0, 0, [])

  /** What adding one user does to a group: one more member, one more approval if the user is approved, and the user's score (a zero read as 50) appended. */
  function Bump(s: LocationStats, u: UserDoc): (t: LocationStats)
    ensures t.count == s.count + 1
    ensures t.approvals == s.approvals + 1 <==> u.approvalStatus == Approved
    ensures t.approvals == s.approvals <==> u.approvalStatus != Approved
    ensures t.trustScores == s.trustScores + [ScoreOr50(u)]
  {
    LocationStats(s.count + 1, s.approvals + (if u.approvalStatus == Approved then 1 else 0), s.trustScores + [ScoreOr50(u)])
  }

  /** The group of the users whose location key is `k`. */
  function StatsAt(users: seq<UserDoc>, k: string): (s: LocationStats)
    ensures s.count == Occurrences(LocationKeys(users), k)
    ensures s.approvals <= s.count && |s.trustScores| == s.count
    ensures forall j :: 0 <= j < |s.trustScores| ==> s.trustScores[j] != 0
  {
    if users == [] then EmptyGroup
    else
      var n := |users| - 1;
      var rest := StatsAt(users[..n], k);
      assert LocationKeys(users) == LocationKeys(users[..n]) + [LocationKey(users[n])];
      OccurrencesAppend(LocationKeys(users[..n]), LocationKey(users[n]), k);
      if LocationKey(users[n]) == k then Bump(rest, users[n]) else rest
  }

  function GroupCount(s: LocationStats): nat { s.count }

  /** Adding one user to the grouped prefix keeps each group exact. */
  lemma GroupStepAt(groups: seq<Slot<LocationStats>>, users: seq<UserDoc>, u: UserDoc, k: string)
    requires Find(groups, k).GetOr(EmptyGroup) == StatsAt(users, k)
    requires Find(groups, LocationKey(u)).GetOr(EmptyGroup) == StatsAt(users, LocationKey(u))
    ensures Find(Put(groups, LocationKey(u), Bump(Find(groups, LocationKey(u)).GetOr(EmptyGroup), u)), k).GetOr(EmptyGroup)
            == StatsAt(users + [u], k)
  {
    var location := LocationKey(u);
    var bumped := Bump(Find(groups, location).GetOr(EmptyGroup), u);
    var next := Put(groups, location, bumped);
    FindPut(groups, location, bumped, k);
    assert (users + [u])[..|users|] == users;
    var s := StatsAt(users + [u], k);
    var f := Find(next, k);
    if k == location {
      assert f == Some(bumped);
    } else {
      assert f == Find(groups, k);
    }
  }

  /** Adding one user to the grouped prefix adds one to the total count. */
  lemma GroupStepTotal(groups: seq<Slot<LocationStats>>, location: string, u: UserDoc)
    ensures SumBy(Put(groups, location, Bump(Find(groups, location).GetOr(EmptyGroup), u)), GroupCount)
            == SumBy(groups, GroupCount) + 1
  {
    var bumped := Bump(Find(groups, location).GetOr(EmptyGroup), u);
    SumByPut(groups, location, bumped, GroupCount);
    match Find(groups, location)
    case None =>
    case Some(w) => assert GroupCount(bumped) == GroupCount(w) + 1;
  }

  /** The grouping after `grouped` users: one slot per location key, in the
      order the keys are first met, each holding that location's group, the
      group sizes summing to the number of users grouped. */
  ghost predicate Grouped(grouped: seq<UserDoc>, locationData: seq<Slot<LocationStats>>)
  {
    Keys(locationData) == FirstMet(LocationKeys(grouped)) &&
    (forall k :: Find(locationData, k).GetOr(EmptyGroup) == StatsAt(grouped, k)) &&
    SumBy(locationData, GroupCount) == |grouped|
  }

  /** Adding one user to the grouped prefix keeps every group exact. */
  lemma GroupStepEvery(locationData: seq<Slot<LocationStats>>, grouped: seq<UserDoc>, u: UserDoc)
    requires forall k :: Find(locationData, k).GetOr(EmptyGroup) == StatsAt(grouped, k)
    ensures forall k :: Find(Put(locationData, LocationKey(u), Bump(Find(locationData, LocationKey(u)).GetOr(EmptyGroup), u)), k).GetOr(EmptyGroup)
                        == StatsAt(grouped + [u], k)
  {
    forall k ensures Find(Put(locationData, LocationKey(u), Bump(Find(locationData, LocationKey(u)).GetOr(EmptyGroup), u)), k).GetOr(EmptyGroup)
                     == StatsAt(grouped + [u], k) {
      GroupStepAt(locationData, grouped, u, k);
    }
  }

  /** Grouping one more user: its location's group, created empty when the location is new, gains the user. */
  lemma GroupStep(locationData: seq<Slot<LocationStats>>, grouped: seq<UserDoc>, u: UserDoc)
    requires Grouped(grouped, locationData)
    ensures Grouped(grouped + [u], Put(locationData, LocationKey(u), Bump(Find(locationData, LocationKey(u)).GetOr(EmptyGroup), u)))
  {
    var location := LocationKey(u);
    assert LocationKeys(grouped + [u]) == LocationKeys(grouped) + [location];
    var bumped := Bump(Find(locationData, location).GetOr(EmptyGroup), u);
    PutFirstMet(locationData, LocationKeys(grouped), location, bumped);
    GroupStepEvery(locationData, grouped, u);
    GroupStepTotal(locationData, location, u);
  }

  /** An exact grouping of the beneficiaries: distinct location keys in the
      order they are first met, exactly the beneficiaries' location keys,
      each holding its location's group, the group sizes summing to the
      number of beneficiaries. */
  ghost predicate ExactGrouping(beneficiaries: seq<UserDoc>, locationData: seq<Slot<LocationStats>>)
  {
    DistinctKeys(locationData) &&
    Keys(locationData) == FirstMet(LocationKeys(beneficiaries)) &&
    (forall k :: k in Keys(locationData) <==> k in LocationKeys(beneficiaries)) &&
    (forall k :: k in LocationKeys(beneficiaries) ==> Find(locationData, k) == Some(StatsAt(beneficiaries, k))) &&
    SumBy(locationData, GroupCount) == |beneficiaries|
  }

  /** Having grouped every beneficiary, the grouping is exact. */
  lemma GroupedExactly(beneficiaries: seq<UserDoc>, locationData: seq<Slot<LocationStats>>)
    requires Grouped(beneficiaries, locationData)
    ensures ExactGrouping(beneficiaries, locationData)
  {
    FirstMetKeysDistinct(locationData, LocationKeys(beneficiaries));
    forall k | k in LocationKeys(beneficiaries) ensures Find(locationData, k) == Some(StatsAt(beneficiaries, k)) {
      FindPresent(locationData, k);
    }
  }

  /** The `locationData` loop, looking up own keys only: groups the
      beneficiaries by location key, in the order the keys are first met. */
  method GroupByLocation(beneficiaries: seq<UserDoc>) returns (locationData: seq<Slot<LocationStats>>)
    ensures ExactGrouping(beneficiaries, locationData)
  {
    locationData := [];
    for i := 0 to |beneficiaries|
      invariant Grouped(beneficiaries[..i], locationData)
    {
      var user := beneficiaries[i];
      var location := LocationKey(user);
      assert beneficiaries[..i + 1] == beneficiaries[..i] + [user];
      GroupStep(locationData, beneficiaries[..i], user);
      // a location met for the first time starts from an empty group
      var stats := Find(locationData, location).GetOr(EmptyGroup);
      locationData := Put(locationData, location, Bump(stats, user));
    }
    assert beneficiaries[..|beneficiaries|] == beneficiaries;
    GroupedExactly(beneficiaries, locationData);
  }

  /** No beneficiary's location is the name of a member every object inherits. */
  predicate OwnLocations(beneficiaries: seq<UserDoc>)
  {
    forall i :: 0 <= i < |beneficiaries| ==> LocationKey(beneficiaries[i]) !in InheritedNames
  }

  /** Appending a user whose location is not inherited keeps every location an own one. */
  lemma OwnLocationsSnoc(grouped: seq<UserDoc>, u: UserDoc)
    requires OwnLocations(grouped) && LocationKey(u) !in InheritedNames
    ensures OwnLocations(grouped + [u])
  {
    forall i | 0 <= i < |grouped| + 1 ensures LocationKey((grouped + [u])[i]) !in InheritedNames {
      if i < |grouped| {
        assert (grouped + [u])[i] == grouped[i];
      }
    }
  }

  /** The `locationData` loop as written. `locationData[location]` also finds
      the members every object inherits, and those are truthy: for such a
      location no group is created, the inherited member is updated in its
      place, and pushing onto its missing `trustScores` throws. `None` is that
      throw, met at the first beneficiary with such a location. */
  method GroupByLocationAsWritten(beneficiaries: seq<UserDoc>) returns (locationData: Option<seq<Slot<LocationStats>>>)
    ensures locationData.None? <==> !OwnLocations(beneficiaries)
    ensures locationData.Some? ==> ExactGrouping(beneficiaries, locationData.value)
  {
    var groups := [];
    for i := 0 to |beneficiaries|
      invariant Grouped(beneficiaries[..i], groups)
      invariant OwnLocations(beneficiaries[..i])
    {
      var user := beneficiaries[i];
      var location := LocationKey(user);
      if location in InheritedNames {
        assert !OwnLocations(beneficiaries) by {
          assert LocationKey(beneficiaries[i]) in InheritedNames;
        }
        return None;
      }
      assert beneficiaries[..i + 1] == beneficiaries[..i] + [user];
      OwnLocationsSnoc(beneficiaries[..i], user);
      GroupStep(groups, beneficiaries[..i], user);
      var stats := Find(groups, location).GetOr(EmptyGroup);
      groups := Put(groups, location, Bump(stats, user));
    }
    assert beneficiaries[..|beneficiaries|] == beneficiaries;
    GroupedExactly(beneficiaries, groups);
    return Some(groups);
  }

  /** One entry of `geographicDistribution.regions`. */
  datatype Region = Region(name: string, count: nat, approvalRate: Rate, averageTrustScore: Average)

  /** A region reports its group's size, the approved share of it (0 for an empty group), and its mean score (50 for no scores). */
  function RegionOf(slot: Slot<LocationStats>): (region: Region)
    ensures region.name == slot.key && region.count == slot.val.count
    ensures region.approvalRate.GuardedZero? <==> slot.val.count == 0
    ensures region.approvalRate.Percent? ==>
              region.approvalRate.part == slot.val.approvals && region.approvalRate.whole == slot.val.count
    ensures region.averageTrustScore.Default50? <==> slot.val.trustScores == []
    ensures region.averageTrustScore.Mean? ==>
              region.averageTrustScore.total == Sum(slot.val.trustScores) &&
              region.averageTrustScore.count == |slot.val.trustScores|
  {
    var s := slot.val;
    Region(slot.key, s.count, RateOf(s.approvals, s.count), AverageOf(Sum(s.trustScores), |s.trustScores|))
  }

  /** `Object.entries(locationData).map(...)`: one region per entry, in listing order. */
  function Regions(locationData: seq<Slot<LocationStats>>): (regions: seq<Region>)
    ensures |regions| == |locationData|
    ensures forall i :: 0 <= i < |regions| ==> regions[i].name in Keys(locationData)
  {
    var entries := Entries(locationData);
    SameSlotsSameKeys(locationData, entries);
    assert |entries| == |multiset(entries)| == |multiset(locationData)| == |locationData|;
    assert forall i :: 0 <= i < |entries| ==> Keys(entries)[i] == entries[i].key;
    seq(|entries|, i requires 0 <= i < |entries| => RegionOf(entries[i]))
  }

  // ---------------------------------------------------------------------
  // The handlers

  /** The clock-free part of `predictiveMetrics`: the approved share of the
      users no longer pending, which has no zero guard, and the risk counts of
      all users (reported as increasing = high, decreasing = low, stable = medium). */
  datatype PredictiveMetrics = PredictiveMetrics(predictedApprovalRate: Rate, riskTrends: RiskTotals)

  /** The integer content of the stored analytics document. */
  datatype AnalyticsDoc = AnalyticsDoc(totalUsers: RoleTotals, approvalMetrics: ApprovalMetrics,
                                       appealMetrics: AppealMetrics, vulnerabilityAnalysis: VulnerabilityCounts,
                                       trustAnalysis: TrustAnalysis, regions: seq<Region>,
                                       predictiveMetrics: PredictiveMetrics, totalImpactScore: nat,
                                       digitalInclusionRate: Rate)

  /** `calculateDigitalInclusionRate` over the approved beneficiaries: the
      share of them with a verified email or phone, 0 when there are none,
      and the full share exactly when every one of them has one. */
  function DigitalInclusionRate(approved: seq<UserDoc>): (r: Rate)
    ensures r.GuardedZero? <==> approved == []
    ensures r.Percent? ==> r.whole == |approved| && r.part <= r.whole
    ensures r.Percent? ==> (r.part == r.whole <==>
              forall i :: 0 <= i < |approved| ==>
                approved[i].verificationData.emailVerified || approved[i].verificationData.phoneVerified)
  {
    AllContactVerified(approved);
    RateOf(ContactVerifiedCount(approved), |approved|)
  }

  function RegionNamesOf(regions: seq<Region>): (names: seq<string>)
    ensures |names| == |regions| && forall i :: 0 <= i < |regions| ==> names[i] == regions[i].name
  {
    seq(|regions|, i requires 0 <= i < |regions| => regions[i].name)
  }

  /** The regions reported for `beneficiaries`: every location key named
      once, array-index names first in ascending order and the other names in
      the order they are first met, each region reporting its own group,
      which is never empty. */
  ghost predicate RegionsReport(beneficiaries: seq<UserDoc>, regions: seq<Region>)
  {
    (forall i, j :: 0 <= i < j < |regions| ==> regions[i].name != regions[j].name) &&
    (forall i, j :: 0 <= i < j < |regions| ==> KeyRank(regions[i].name) <= KeyRank(regions[j].name)) &&
    (forall k :: k in RegionNamesOf(regions) <==> k in LocationKeys(beneficiaries)) &&
    NamedKeys(RegionNamesOf(regions)) == NamedKeys(FirstMet(LocationKeys(beneficiaries))) &&
    (forall i :: 0 <= i < |regions| ==>
       regions[i] == RegionOf(Slot(regions[i].name, StatsAt(beneficiaries, regions[i].name))) &&
       regions[i].count >= 1 && regions[i].approvalRate.Percent?)
  }

  /** The counts of the stored document describe `users`: the role,
      approval, appeal and vulnerability counts of all users, the trust
      analysis of the beneficiaries, the predicted approval rate over the
      users past pending, ten points per approved beneficiary, and the share
      of approved beneficiaries with a verified email or phone. */
  ghost predicate Describes(users: seq<UserDoc>, a: AnalyticsDoc)
  {
    var beneficiaries := Beneficiaries(users);
    a.totalUsers == RoleTotalsOf(users) &&
    a.approvalMetrics == ApprovalMetricsOf(users) &&
    a.appealMetrics == AppealMetricsOf(users) &&
    a.vulnerabilityAnalysis == VulnerabilityCountsOf(users) &&
    a.trustAnalysis == TrustAnalysisOf(beneficiaries) &&
    a.predictiveMetrics.riskTrends == RiskTotalsOf(users) &&
    a.predictiveMetrics.predictedApprovalRate ==
      Percent(Occurrences(ApprovalStatuses(users), Approved), CountOther(ApprovalStatuses(users), Pending)) &&
    a.predictiveMetrics.predictedApprovalRate.part <= a.predictiveMetrics.predictedApprovalRate.whole &&
    a.totalImpactScore == 10 * Occurrences(ApprovalStatuses(beneficiaries), Approved) &&
    a.digitalInclusionRate == DigitalInclusionRate(ApprovedUsers(beneficiaries))
  }

  /** The counts of the stored document, once its regions are built and
      some user is past pending. */
  method AssembleAnalytics(users: seq<UserDoc>, regions: seq<Region>) returns (a: AnalyticsDoc)
    requires CountOther(ApprovalStatuses(users), Pending) > 0
    ensures Describes(users, a) && a.regions == regions
  {
    var totalUsers := RoleTotalsOf(users);
    var statuses := ApprovalStatuses(users);
    var approvalMetrics := ApprovalMetrics(Occurrences(statuses, Pending), Occurrences(statuses, Approved),
                                           Occurrences(statuses, Rejected), Occurrences(statuses, UnderReview), GuardedZero);
    var totalProcessed := approvalMetrics.totalApproved + approvalMetrics.totalRejected;
    approvalMetrics := approvalMetrics.(approvalRate := RateOf(approvalMetrics.totalApproved, totalProcessed));
    var appeals := AppealStatuses(users);
    var appealMetrics := AppealMetrics(CountOther(appeals, AppealNone), Occurrences(appeals, AppealApproved),
                                       Occurrences(appeals, AppealRejected), GuardedZero);
    appealMetrics := appealMetrics.(appealSuccessRate := RateOf(appealMetrics.appealsGranted, appealMetrics.totalAppeals));
    var beneficiaries := Beneficiaries(users);
    var nonPending := CountOther(statuses, Pending);
    TwoAmongOthers(statuses, Pending, Approved, Rejected);
    var predictive := PredictiveMetrics(Percent(approvalMetrics.totalApproved, nonPending), RiskTotalsOf(users));
    a := AnalyticsDoc(totalUsers, approvalMetrics, appealMetrics, VulnerabilityCountsOf(users),
                      TrustAnalysisOf(beneficiaries), regions, predictive,
                      10 * Occurrences(ApprovalStatuses(beneficiaries), Approved),
                      DigitalInclusionRate(ApprovedUsers(beneficiaries)));
    assert a.approvalMetrics == ApprovalMetricsOf(users);
    assert a.appealMetrics == AppealMetricsOf(users);
  }

  /** The rest of `generateAnalytics` once the beneficiaries are grouped.
      With no user past pending, the predicted approval rate is 0 / 0, not a
      number; the document's numeric field refuses it, the save throws and
      the handler answers 500. */
  method AnalyticsOf(users: seq<UserDoc>, locationData: seq<Slot<LocationStats>>) returns (r: Result<AnalyticsDoc, HttpError>)
    requires ExactGrouping(Beneficiaries(users), locationData)
    ensures r.Success? <==> CountOther(ApprovalStatuses(users), Pending) > 0
    ensures r.Failure? ==> r == Failure(ServerError)
    ensures r.Success? ==> Describes(users, r.value) && RegionsReport(Beneficiaries(users), r.value.regions)
  {
    var regions := Regions(locationData);
    RegionsFromGroups(Beneficiaries(users), locationData);
    if CountOther(ApprovalStatuses(users), Pending) == 0 {
      // the not-a-number rate fails the numeric cast on save
      return Failure(ServerError);
    }
    var a := AssembleAnalytics(users, regions);
    r := Success(a);
  }

  /** The `generateAnalytics` handler over all stored users, its grouping
      looking up own keys only: it succeeds for an admin exactly when some
      user is past pending. */
  method GenerateAnalytics(caller: RequestUser, users: seq<UserDoc>) returns (r: Result<AnalyticsDoc, HttpError>)
    ensures caller.role != AdminRole ==> r == Failure(AccessDenied)
    ensures caller.role == AdminRole ==> (r.Success? <==> CountOther(ApprovalStatuses(users), Pending) > 0)
    ensures caller.role == AdminRole && r.Failure? ==> r == Failure(ServerError)
    ensures r.Success? ==> Describes(users, r.value) && RegionsReport(Beneficiaries(users), r.value.regions)
  {
    if caller.role != AdminRole {
      return Failure(AccessDenied);
    }
    var locationData := GroupByLocation(Beneficiaries(users));
    r := AnalyticsOf(users, locationData);
  }

  /** The `generateAnalytics` handler as written: a beneficiary whose
      location is the name of an inherited object member makes the grouping
      throw, and the catch block answers 500. */
  method GenerateAnalyticsAsWritten(caller: RequestUser, users: seq<UserDoc>) returns (r: Result<AnalyticsDoc, HttpError>)
    ensures caller.role != AdminRole ==> r == Failure(AccessDenied)
    ensures caller.role == AdminRole ==>
              (r.Success? <==> CountOther(ApprovalStatuses(users), Pending) > 0 && OwnLocations(Beneficiaries(users)))
    ensures caller.role == AdminRole && r.Failure? ==> r == Failure(ServerError)
    ensures r.Success? ==> Describes(users, r.value) && RegionsReport(Beneficiaries(users), r.value.regions)
  {
    if caller.role != AdminRole {
      return Failure(AccessDenied);
    }
    var beneficiaries := Beneficiaries(users);
    var locationData := GroupByLocationAsWritten(beneficiaries);
    if locationData.None? {
      // the grouping threw; the catch block answers 500
      return Failure(ServerError);
    }
    r := AnalyticsOf(users, locationData.value);
  }

  /** A single approved beneficiary located at "constructor" is past pending, and its location is an inherited name. */
  lemma ConstructorLocation(u: UserDoc)
    requires u.role == BeneficiaryRole && u.approvalStatus == Approved && u.location == Some("constructor")
    ensures CountOther(ApprovalStatuses([u]), Pending) > 0
    ensures !OwnLocations(Beneficiaries([u]))
    ensures "constructor" in LocationKeys(Beneficiaries([u]))
  {
    assert Beneficiaries([u]) == [u];
    assert LocationKey(u) == InheritedNames[0];
    assert LocationKeys([u])[0] == LocationKey(u);
    assert ApprovalStatuses([u])[0] == Approved;
  }

  /** One approved beneficiary located at "constructor": the handler as
      written answers 500, where the one looking up own keys reports the
      location. */
  method InheritedLocationFailsAnalytics(caller: RequestUser, u: UserDoc)
      returns (asWritten: Result<AnalyticsDoc, HttpError>, ownKeys: Result<AnalyticsDoc, HttpError>)
    requires caller.role == AdminRole
    requires u.role == BeneficiaryRole && u.approvalStatus == Approved && u.location == Some("constructor")
    ensures asWritten == Failure(ServerError)
    ensures ownKeys.Success? && "constructor" in RegionNamesOf(ownKeys.value.regions)
  {
    ConstructorLocation(u);
    asWritten := GenerateAnalyticsAsWritten(caller, [u]);
    ownKeys := GenerateAnalytics(caller, [u]);
  }

  /** The regions of a grouping with distinct keys have distinct names,
      array-index names first in ascending order and the others in slot order. */
  lemma RegionNames(locationData: seq<Slot<LocationStats>>)
    requires DistinctKeys(locationData)
    ensures var names := RegionNamesOf(Regions(locationData));
            (forall i, j :: 0 <= i < j < |names| ==> names[i] != names[j]) &&
            (forall i, j :: 0 <= i < j < |names| ==> KeyRank(names[i]) <= KeyRank(names[j])) &&
            (forall k :: k in names <==> k in Keys(locationData)) &&
            NamedKeys(names) == NamedKeys(Keys(locationData))
  {
    var entries := Entries(locationData);
    var names := RegionNamesOf(Regions(locationData));
    assert names == Keys(entries);
    PermutedDict(locationData, entries);
    KeysOfNamed(entries);
    KeysOfNamed(locationData);
  }

  /** The regions built from an exact grouping report the beneficiaries' locations. */
  lemma RegionsFromGroups(beneficiaries: seq<UserDoc>, locationData: seq<Slot<LocationStats>>)
    requires ExactGrouping(beneficiaries, locationData)
    ensures RegionsReport(beneficiaries, Regions(locationData))
  {
    var regions := Regions(locationData);
    var entries := Entries(locationData);
    RegionNames(locationData);
    PermutedDict(locationData, entries);
    forall i | 0 <= i < |regions|
      ensures regions[i] == RegionOf(Slot(regions[i].name, StatsAt(beneficiaries, regions[i].name)))
      ensures regions[i].count >= 1 && regions[i].approvalRate.Percent?
    {
      var k := entries[i].key;
      assert Keys(entries)[i] == k;
      assert k in LocationKeys(beneficiaries);
      assert entries[i] == Slot(k, StatsAt(beneficiaries, k));
      OccursCounted(LocationKeys(beneficiaries), k);
    }
  }

  /** An element of a sequence occurs in it at least once. */
  lemma {:induction false} OccursCounted<T>(s: seq<T>, x: T)
    requires x in s
    ensures Occurrences(s, x) >= 1
  {
    var n := |s| - 1;
    if s[n] != x {
      assert x in s[..n];
      OccursCounted(s[..n], x);
    }
  }

  /** The `getAnalytics` handler: the latest stored analytics document, if any. */
  function GetAnalytics(caller: RequestUser, latest: Option<AnalyticsDoc>): (r: Result<AnalyticsDoc, HttpError>)
    ensures caller.role != AdminRole ==> r == Failure(AccessDenied)
    ensures caller.role == AdminRole ==> (r.Success? <==> latest.Some?)
    ensures r.Success? ==> r.value == latest.value
    ensures caller.role == AdminRole && latest.None? ==> r == Failure(HttpError(404, "No analytics data found"))
  {
    if caller.role != AdminRole then Failure(AccessDenied)
    else match latest
      case None => Failure(HttpError(404, "No analytics data found"))
      case Some(a) => Success(a)
  }

  /** The integer content of `getRealTimeMetrics`, without the recent-activity list. */
  datatype RealTimeMetrics = RealTimeMetrics(totalUsers: nat, totalBeneficiaries: nat, pendingApprovals: nat,
                                             pendingAppeals: nat, averageTrustScore: Average,
                                             userActivity: Rate, dataQuality: Rate)

  /** The `getRealTimeMetrics` handler over all stored users. */
  function GetRealTimeMetrics(caller: RequestUser, users: seq<UserDoc>): (r: Result<RealTimeMetrics, HttpError>)
    ensures caller.role != AdminRole ==> r == Failure(AccessDenied)
    ensures caller.role == AdminRole ==> r.Success?
    ensures r.Success? ==>
              var m := r.value;
              m.totalUsers == |users| &&
              m.totalBeneficiaries == |Beneficiaries(users)| <= |users| &&
              m.pendingApprovals == Occurrences(ApprovalStatuses(users), Pending) <= |users| &&
              m.pendingAppeals == Occurrences(AppealStatuses(users), AppealPending) <= |users| &&
              m.averageTrustScore == AverageOf(ScoreSum(Beneficiaries(users)), |Beneficiaries(users)|) &&
              m.userActivity == RateOf(ActiveCount(users), |users|) &&
              m.dataQuality == RateOf(ContactVerifiedCount(users), |users|)
  {
    if caller.role != AdminRole then Failure(AccessDenied)
    else
      var beneficiaries := Beneficiaries(users);
      Success(RealTimeMetrics(|users|, |beneficiaries|, Occurrences(ApprovalStatuses(users), Pending),
                              Occurrences(AppealStatuses(users), AppealPending),
                              AverageOf(ScoreSum(beneficiaries), |beneficiaries|),
                              RateOf(ActiveCount(users), |users|), RateOf(ContactVerifiedCount(users), |users|)))
  }

  /** The integer content of `getVulnerabilityInsights`, without the fixed recommendations. */
  datatype Insights = Insights(vulnerabilityDistribution: seq<Slot<nat>>, riskLevels: RiskTotals,
                               averageTrustScore: Average, approvalSuccessRate: Rate, highTrustRate: Rate)

  /** The `getVulnerabilityInsights` handler over the stored beneficiaries. */
  method GetVulnerabilityInsights(caller: RequestUser, beneficiaries: seq<UserDoc>) returns (r: Result<Insights, HttpError>)
    ensures caller.role != AdminRole ==> r == Failure(AccessDenied)
    ensures caller.role == AdminRole ==> r.Success?
    ensures r.Success? ==>
              var v := r.value;
              v.vulnerabilityDistribution == Distribution(beneficiaries) &&
              v.riskLevels == RiskTotalsOf(beneficiaries) &&
              v.riskLevels.low + v.riskLevels.medium + v.riskLevels.high == |beneficiaries| &&
              v.averageTrustScore == AverageOf(ScoreSum(beneficiaries), |beneficiaries|) &&
              v.approvalSuccessRate == RateOf(Occurrences(ApprovalStatuses(beneficiaries), Approved), |beneficiaries|) &&
              v.highTrustRate == RateOf(HighTrustCount(beneficiaries), |beneficiaries|)
  {
    if caller.role != AdminRole {
      return Failure(AccessDenied);
    }
    var distribution := VulnerabilityDistribution(beneficiaries);
    r := Success(Insights(distribution, RiskTotalsOf(beneficiaries), AverageOf(ScoreSum(beneficiaries), |beneficiaries|),
                          RateOf(Occurrences(ApprovalStatuses(beneficiaries), Approved), |beneficiaries|),
                          RateOf(HighTrustCount(beneficiaries), |beneficiaries|)));
  }
}

=== FILE: auth_gate.dfy ===
/** The access gate and role guards of backend/middleware/auth.js. The gate is
    a decision procedure: it returns either the `req.user` projection handed to
    `next` or the error response it sends. Token verification (a JSON Web
    Token checked by a library) is a parameter `verify` mapping a token to the
    `userId` claim it carries, or to nothing when verification throws; the
    store lookup `User.findById` is the map `store`. */
module AuthGate {
  import opened Wrappers
  import opened Text
  import opened UserModel

  type UserId = string

  /** The request's user as the gate sets it: the stored user without credentials. */
  datatype RequestUser = RequestUser(userId: UserId, role: string, isApproved: bool, approvalStatus: ApprovalStatus)

  /** Either the request passes on with its user attached, or it is answered with a JSON error. */
  datatype GateResult =
    | Pass(user: RequestUser)
    | Refuse(status: nat, message: string, approvalStatus: Option<ApprovalStatus>)

  const NoTokenMessage: string := "Access denied. No token provided."
  const InvalidTokenMessage: string := "Invalid token."
  const PendingApprovalMessage: string := "Account pending approval. Please contact an administrator."
  const BearerPrefix: string := "Bearer "

  /** The token read from the Authorization header: the header with the first occurrence of the prefix removed, wherever it is. */
  function ExtractToken(header: Option<string>): (token: Option<string>)
    ensures token.None? <==> header.None?
    ensures header.Some? && OccursAt(header.value, BearerPrefix, 0) ==> token == Some(header.value[|BearerPrefix|..])
    ensures header.Some? && FirstOccurrence(header.value, BearerPrefix, 0).None? ==> token == header
  {
    match header
    case None => None
    case Some(h) => Some(ReplaceFirst(h, BearerPrefix, ""))
  }

  /** The user a request authenticates as: a non-empty token that verifies and names a stored user. */
  function SessionUser(header: Option<string>, verify: string -> Option<UserId>, store: map<UserId, UserDoc>): (id: Option<UserId>)
    ensures header.None? ==> id.None?
    ensures id.Some? <==>
              ExtractToken(header).Some? && ExtractToken(header).value != "" &&
              verify(ExtractToken(header).value).Some? && verify(ExtractToken(header).value).value in store
    ensures id.Some? ==> id == verify(ExtractToken(header).value) && id.value in store
  {
    var token := ExtractToken(header);
    if token.None? || token.value == "" then None
    else match verify(token.value)
      case None => None
      case Some(id) => if id in store then Some(id) else None
  }

  function View(id: UserId, u: UserDoc): RequestUser
  {
    RequestUser(id, u.role, u.isApproved, u.approvalStatus)
  }

  /** The `auth` middleware. */
  function Authenticate(header: Option<string>, verify: string -> Option<UserId>, store: map<UserId, UserDoc>): (r: GateResult)
    ensures r.Pass? ==> SessionUser(header, verify, store) == Some(r.user.userId)
    ensures r.Pass? ==> r.user == View(r.user.userId, store[r.user.userId])
    ensures r.Pass? ==> r.user.role == AdminRole || r.user.isApproved
    ensures r.Refuse? && r.status == 401 <==> SessionUser(header, verify, store).None?
    ensures r.Refuse? && r.status == 403 <==>
              (SessionUser(header, verify, store).Some? &&
               var u := store[SessionUser(header, verify, store).value];
               u.role != AdminRole && !u.isApproved)
    ensures r.Refuse? && r.status == 403 ==>
              r.approvalStatus == Some(store[SessionUser(header, verify, store).value].approvalStatus)
    ensures r.Refuse? ==> r.status == 401 || r.status == 403
    ensures ExtractToken(header).None? || ExtractToken(header).value == "" ==> r == Refuse(401, NoTokenMessage, None)
    ensures r.Refuse? && r.status == 401 && ExtractToken(header).Some? && ExtractToken(header).value != "" ==>
              r.message == InvalidTokenMessage && r.approvalStatus.None?
    ensures r.Refuse? && r.status == 403 ==> r.message == PendingApprovalMessage
  {
    var token := ExtractToken(header);
    if token.None? || token.value == "" then
      Refuse(401, NoTokenMessage, None)
    else match verify(token.value)
      case None =>
        // jwt.verify threw: the catch block answers 401
        Refuse(401, InvalidTokenMessage, None)
      case Some(id) =>
        if id !in store then
          Refuse(401, InvalidTokenMessage, None)
        else
          var u := store[id];
          if u.role != AdminRole && !u.isApproved then
            Refuse(403, PendingApprovalMessage, Some(u.approvalStatus))
          else
            Pass(View(id, u))
  }

  /** A request without a header, or whose header is only the prefix, is refused as carrying no token. */
  lemma MissingTokenRefused(verify: string -> Option<UserId>, store: map<UserId, UserDoc>)
    ensures Authenticate(None, verify, store) == Refuse(401, NoTokenMessage, None)
    ensures Authenticate(Some(BearerPrefix), verify, store) == Refuse(401, NoTokenMessage, None)
  {
    assert OccursAt(BearerPrefix, BearerPrefix, 0);
  }

  /** The prefix is removed wherever it first occurs, not only at the start of the header. */
  lemma PrefixRemovedAnywhere()
    ensures ExtractToken(Some("Token Bearer abc")) == Some("Token abc")
  {
    var h := "Token Bearer abc";
    assert OccursAt(h, BearerPrefix, 6);
    forall j | 0 <= j < 6 ensures !OccursAt(h, BearerPrefix, j) {
      assert h[j] != BearerPrefix[0];
    }
    var r := FirstOccurrence(h, BearerPrefix, 0);
    assert r == Some(6);
    assert ReplaceFirst(h, BearerPrefix, "") == h[..6] + "" + h[13..];
    assert h[..6] == "Token " && h[13..] == "abc";
    assert h[..6] + "" + h[13..] == "Token abc";
  }

  /** An admin with a valid token passes whatever its approval fields say. */
  lemma AdminAlwaysPasses(header: Option<string>, verify: string -> Option<UserId>, store: map<UserId, UserDoc>, id: UserId)
    requires SessionUser(header, verify, store) == Some(id)
    requires store[id].role == AdminRole
    ensures Authenticate(header, verify, store) == Pass(View(id, store[id]))
  {
  }

  /** A non-admin that is not approved is refused with 403 and its current approval status, however valid its token. */
  lemma UnapprovedRefused(header: Option<string>, verify: string -> Option<UserId>, store: map<UserId, UserDoc>, id: UserId)
    requires SessionUser(header, verify, store) == Some(id)
    requires store[id].role != AdminRole && !store[id].isApproved
    ensures Authenticate(header, verify, store) == Refuse(403, PendingApprovalMessage, Some(store[id].approvalStatus))
  {
  }

  /** The gate reads the store on every request: approving the user turns a 403 into a pass for the same token. */
  lemma ApprovalTakesEffectImmediately(header: Option<string>, verify: string -> Option<UserId>,
                                       store: map<UserId, UserDoc>, id: UserId)
    requires SessionUser(header, verify, store) == Some(id)
    requires store[id].role != AdminRole && !store[id].isApproved
    ensures var approved := store[id].(isApproved := true, approvalStatus := Approved);
            var store' := store[id := approved];
            Authenticate(header, verify, store') == Pass(View(id, approved))
  {
  }

  /** For a store whose documents keep `isApproved` in step with `approvalStatus`, a non-admin passes only when approved. */
  lemma PassImpliesApproved(header: Option<string>, verify: string -> Option<UserId>, store: map<UserId, UserDoc>)
    requires forall id :: id in store ==> ApprovalConsistent(store[id])
    ensures var r := Authenticate(header, verify, store);
            r.Pass? && r.user.role != AdminRole ==> r.user.approvalStatus == Approved
  {
  }

  // ---------------------------------------------------------------------
  // Role guards, run after the gate on the request's user

  /** `next()` or a 403 response with the given message. */
  datatype GuardResult = Proceed | Forbidden(message: string)

  const ForbiddenStatus: nat := 403

  function RequireAdmin(user: RequestUser): (r: GuardResult)
    ensures r.Proceed? <==> user.role == AdminRole
    ensures r.Forbidden? ==> r.message == "Access denied. Admin privileges required."
  {
    if user.role != AdminRole then Forbidden("Access denied. Admin privileges required.") else Proceed
  }

  function RequireOfficer(user: RequestUser): (r: GuardResult)
    ensures r.Proceed? <==> user.role == AdminRole || user.role == OfficerRole
    ensures r.Forbidden? ==> r.message == "Access denied. Officer privileges required."
  {
    if user.role != AdminRole && user.role != OfficerRole then Forbidden("Access denied. Officer privileges required.")
    else Proceed
  }

  function RequireBeneficiary(user: RequestUser): (r: GuardResult)
    ensures r.Proceed? <==> user.role == BeneficiaryRole
    ensures r.Forbidden? ==> r.message == "Access denied. Beneficiary privileges required."
  {
    if user.role != BeneficiaryRole then Forbidden("Access denied. Beneficiary privileges required.") else Proceed
  }

  /** Whoever passes the admin guard passes the officer guard; nobody passes both the admin and the beneficiary guard. */
  lemma GuardsNest(user: RequestUser)
    ensures RequireAdmin(user).Proceed? ==> RequireOfficer(user).Proceed?
    ensures !(RequireAdmin(user).Proceed? && RequireBeneficiary(user).Proceed?)
  {
  }

  /** Behind the gate, a request admitted by the beneficiary guard comes from an approved user. */
  lemma BeneficiaryRouteImpliesApproved(header: Option<string>, verify: string -> Option<UserId>, store: map<UserId, UserDoc>)
    ensures var r := Authenticate(header, verify, store);
            r.Pass? && RequireBeneficiary(r.user).Proceed? ==> r.user.isApproved
  {
  }

  // ---------------------------------------------------------------------
  // The inline check the controllers repeat before touching any data

  /** An error response: status code and `message`. */
  datatype HttpError = HttpError(status: nat, message: string)

  const AccessDenied: HttpError := HttpError(403, "Access denied")

  /** What every handler's catch block answers. */
  const ServerError: HttpError := HttpError(500, "Server error")

  /** The check each admin-only handler makes first: anyone but an admin is answered 403 "Access denied". */
  function AdminOnly(caller: RequestUser): (refusal: Option<HttpError>)
    ensures refusal.None? <==> caller.role == AdminRole
    ensures refusal.Some? ==> refusal.value == AccessDenied && refusal.value.status == 403
  {
    if caller.role != AdminRole then Some(AccessDenied) else None
  }
}

=== FILE: dict.dfy ===
/** A JavaScript plain object used as a dictionary: a list of key/value
    slots kept in insertion order, which is how assignments build it.
    `Object.entries` (and JSON serialisation) lists the slots in a different
    order when some keys are array indices: those first, in ascending numeric
    order, then every other key in insertion order. `Entries` models that
    listing. */
module Dict {
  import opened Wrappers
  import Text

  datatype Slot<V> = Slot(key: string, val: V)

  function Keys<V>(d: seq<Slot<V>>): (ks: seq<string>)
    ensures |ks| == |d|
    ensures forall i :: 0 <= i < |d| ==> ks[i] == d[i].key
  {
    seq(|d|, i requires 0 <= i < |d| => d[i].key)
  }

  predicate DistinctKeys<V>(d: seq<Slot<V>>)
  {
    forall i, j :: 0 <= i < j < |d| ==> d[i].key != d[j].key
  }

  /** `d[k]`: the value stored under `k`, if any. */
  function Find<V>(d: seq<Slot<V>>, k: string): Option<V>
  {
    if d == [] then None
    else if d[0].key == k then Some(d[0].val)
    else Find(d[1..], k)
  }

  /** A value is found exactly when the key is present. */
  lemma {:induction false} FindPresent<V>(d: seq<Slot<V>>, k: string)
    ensures Find(d, k).None? <==> k !in Keys(d)
  {
    if d != [] && d[0].key != k {
      assert Keys(d) == [d[0].key] + Keys(d[1..]);
      FindPresent(d[1..], k);
    }
  }

  /** Assigning `v` to key `k`: overwrites the value under `k` in place, or appends a new slot. */
  function Put<V>(d: seq<Slot<V>>, k: string, v: V): seq<Slot<V>>
  {
    if d == [] then [Slot(k, v)]
    else if d[0].key == k then [Slot(k, v)] + d[1..]
    else [d[0]] + Put(d[1..], k, v)
  }

  /** After assigning `v` to `k`, `k` maps to `v` and every other key keeps its value. */
  lemma {:induction false} FindPut<V>(d: seq<Slot<V>>, k: string, v: V, k': string)
    ensures Find(Put(d, k, v), k') == if k' == k then Some(v) else Find(d, k')
  {
    if d != [] && d[0].key != k {
      FindPut(d[1..], k, v, k');
    }
  }

  /** Reading with a default after an assignment: the new value under `k`, the old reading elsewhere. */
  lemma FindPutOr<V>(d: seq<Slot<V>>, k: string, v: V, k': string, default: V)
    ensures Find(Put(d, k, v), k').GetOr(default) == if k' == k then v else Find(d, k').GetOr(default)
  {
    FindPut(d, k, v, k');
  }

  /** Assigning to `k` keeps the key order, appending `k` only when it is new. */
  lemma {:induction false} KeysPutOrder<V>(d: seq<Slot<V>>, k: string, v: V)
    ensures k in Keys(d) ==> Keys(Put(d, k, v)) == Keys(d)
    ensures k !in Keys(d) ==> Keys(Put(d, k, v)) == Keys(d) + [k]
  {
    if d != [] && d[0].key != k {
      KeysPutOrder(d[1..], k, v);
      assert Keys(d) == [d[0].key] + Keys(d[1..]);
      assert Keys(Put(d, k, v)) == [d[0].key] + Keys(Put(d[1..], k, v));
    }
  }

  /** Assigning to `k` keeps the key order, appending `k` only when it is new, and keeps keys distinct. */
  lemma KeysPut<V>(d: seq<Slot<V>>, k: string, v: V)
    ensures k in Keys(d) ==> Keys(Put(d, k, v)) == Keys(d)
    ensures k !in Keys(d) ==> Keys(Put(d, k, v)) == Keys(d) + [k]
    ensures DistinctKeys(d) ==> DistinctKeys(Put(d, k, v))
  {
    KeysPutOrder(d, k, v);
    var p := Put(d, k, v);
    var ks := Keys(p);
    if DistinctKeys(d) {
      forall i, j | 0 <= i < j < |p| ensures p[i].key != p[j].key {
        assert p[i].key == ks[i] && p[j].key == ks[j];
        if j < |d| {
          assert ks[i] == Keys(d)[i] == d[i].key && ks[j] == Keys(d)[j] == d[j].key;
        } else {
          assert k !in Keys(d) && ks[j] == k && ks[i] == Keys(d)[i];
        }
      }
    }
  }

  /** The names every object literal answers to without holding them: the members of `Object.prototype`, all truthy. */
  const InheritedNames: seq<string> := [
    "constructor", "__proto__", "toString", "toLocaleString", "valueOf", "hasOwnProperty",
    "isPrototypeOf", "propertyIsEnumerable", "__defineGetter__", "__defineSetter__",
    "__lookupGetter__", "__lookupSetter__"]

  /** The distinct elements of `ks` in the order they first occur: the keys an
      object holds after assignments under `ks`, one after the other. */
  function FirstMet(ks: seq<string>): (r: seq<string>)
    ensures forall k :: k in r <==> k in ks
    ensures forall i, j :: 0 <= i < j < |r| ==> r[i] != r[j]
  {
    if ks == [] then []
    else
      var front := FirstMet(ks[..|ks| - 1]);
      var last := ks[|ks| - 1];
      assert ks == ks[..|ks| - 1] + [last];
      if last in front then front else front + [last]
  }

  /** Meeting one more key appends it only when it is new. */
  lemma FirstMetSnoc(ks: seq<string>, k: string)
    ensures FirstMet(ks + [k]) == if k in FirstMet(ks) then FirstMet(ks) else FirstMet(ks) + [k]
  {
    assert (ks + [k])[..|ks|] == ks;
  }

  /** A list without repetitions is its own first-met order. */
  lemma {:induction false} FirstMetOfDistinct(ks: seq<string>)
    requires forall i, j :: 0 <= i < j < |ks| ==> ks[i] != ks[j]
    ensures FirstMet(ks) == ks
  {
    if ks != [] {
      var front := ks[..|ks| - 1];
      FirstMetOfDistinct(front);
      assert ks[|ks| - 1] !in front by {
        forall i | 0 <= i < |front| ensures front[i] != ks[|ks| - 1] {
          assert front[i] == ks[i];
        }
      }
      assert front + [ks[|ks| - 1]] == ks;
    }
  }

  /** Slots whose keys are in first-met order have distinct keys. */
  lemma FirstMetKeysDistinct<V>(d: seq<Slot<V>>, ks: seq<string>)
    requires Keys(d) == FirstMet(ks)
    ensures DistinctKeys(d)
  {
    forall i, j | 0 <= i < j < |d| ensures d[i].key != d[j].key {
      assert d[i].key == Keys(d)[i] && d[j].key == Keys(d)[j];
    }
  }

  /** Writing the next key met keeps the slots in first-met order. */
  lemma PutFirstMet<V>(d: seq<Slot<V>>, ks: seq<string>, k: string, v: V)
    requires Keys(d) == FirstMet(ks)
    ensures Keys(Put(d, k, v)) == FirstMet(ks + [k])
  {
    KeysPutOrder(d, k, v);
    FirstMetSnoc(ks, k);
    if k in Keys(d) {
      assert Keys(Put(d, k, v)) == Keys(d);
    } else {
      assert Keys(Put(d, k, v)) == Keys(d) + [k];
    }
  }

  /** The sum of `f` over the values. */
  function SumBy<V>(d: seq<Slot<V>>, f: V -> nat): nat
  {
    if d == [] then 0 else f(d[0].val) + SumBy(d[1..], f)
  }

  /** Writing `v` under `k` changes the sum by the difference between `v` and the value it replaces. */
  lemma {:induction false} SumByPut<V>(d: seq<Slot<V>>, k: string, v: V, f: V -> nat)
    ensures SumBy(Put(d, k, v), f) == SumBy(d, f) + f(v) - (match Find(d, k) case None => 0 case Some(w) => f(w))
  {
    if d != [] && d[0].key != k {
      SumByPut(d[1..], k, v, f);
    }
  }

  function Identity(n: nat): nat { n }

  /** The sum of the counts of a counter dictionary. */
  function Total(d: seq<Slot<nat>>): nat
  {
    SumBy(d, Identity)
  }

  /** In a dictionary with distinct keys, looking up the key of a slot finds that slot's value. */
  lemma {:induction false} FindDistinct<V>(d: seq<Slot<V>>, i: nat)
    requires DistinctKeys(d) && i < |d|
    ensures Find(d, d[i].key) == Some(d[i].val)
  {
    if i > 0 {
      assert d[0].key != d[i].key;
      assert d[1..][i - 1] == d[i];
      FindDistinct(d[1..], i - 1);
    }
  }

  /** Writing a new key appends its slot at the end. */
  lemma {:induction false} PutNewKey<V>(d: seq<Slot<V>>, k: string, v: V)
    requires k !in Keys(d)
    ensures Put(d, k, v) == d + [Slot(k, v)]
  {
    if d != [] {
      assert Keys(d) == [d[0].key] + Keys(d[1..]);
      PutNewKey(d[1..], k, v);
      calc {
        Put(d, k, v);
        [d[0]] + Put(d[1..], k, v);
        [d[0]] + (d[1..] + [Slot(k, v)]);
        ([d[0]] + d[1..]) + [Slot(k, v)];
        { assert [d[0]] + d[1..] == d; }
        d + [Slot(k, v)];
      }
    }
  }

  // ---------------------------------------------------------------------
  // The order of Object.entries

  /** The rank every key that is not an array index shares: above every index. */
  const NamedRank: nat := 0xFFFF_FFFF

  /** A key JavaScript treats as an array index: "0", or decimal digits
      without a leading zero, denoting a number below 2^32 - 1. */
  predicate IsArrayIndex(k: string)
  {
    |k| >= 1 && Text.IsDigits(k) && (k[0] == '0' ==> k == "0") && Text.DigitsValue(k) < NamedRank
  }

  /** Where the listing puts a key: an array index by its numeric value, any other key after all of them. */
  function KeyRank(k: string): (r: nat)
    ensures r < NamedRank <==> IsArrayIndex(k)
    ensures r <= NamedRank
  {
    if IsArrayIndex(k) then Text.DigitsValue(k) else NamedRank
  }

  /** The ranks never decrease along the slots. */
  predicate RankOrdered<V>(s: seq<Slot<V>>)
  {
    forall i, j :: 0 <= i < j < |s| ==> KeyRank(s[i].key) <= KeyRank(s[j].key)
  }

  /** The slots whose key is not an array index, in their order. */
  function Named<V>(s: seq<Slot<V>>): seq<Slot<V>>
  {
    if s == [] then []
    else (if KeyRank(s[0].key) == NamedRank then [s[0]] else []) + Named(s[1..])
  }

  /** The keys that are not array indices, in their order. */
  function NamedKeys(ks: seq<string>): (r: seq<string>)
    ensures forall i :: 0 <= i < |r| ==> !IsArrayIndex(r[i]) && r[i] in ks
  {
    if ks == [] then []
    else (if KeyRank(ks[0]) == NamedRank then [ks[0]] else []) + NamedKeys(ks[1..])
  }

  /** The keys of two lists of slots joined are their keys joined. */
  lemma KeysConcat<V>(a: seq<Slot<V>>, b: seq<Slot<V>>)
    ensures Keys(a + b) == Keys(a) + Keys(b)
  {
  }

  /** The keys of the named slots are the named keys. */
  lemma {:induction false} KeysOfNamed<V>(d: seq<Slot<V>>)
    ensures Keys(Named(d)) == NamedKeys(Keys(d))
  {
    if d != [] {
      KeysOfNamed(d[1..]);
      var ks := Keys(d);
      assert ks[0] == d[0].key && ks[1..] == Keys(d[1..]);
      var head := if KeyRank(d[0].key) == NamedRank then [d[0]] else [];
      assert Named(d) == head + Named(d[1..]);
      KeysConcat(head, Named(d[1..]));
      assert NamedKeys(ks) == Keys(head) + NamedKeys(ks[1..]);
    }
  }

  /** Inserts `e` before the first slot whose key does not rank below it. */
  function InsertByRank<V>(e: Slot<V>, s: seq<Slot<V>>): (r: seq<Slot<V>>)
    ensures multiset(r) == multiset(s) + multiset{e}
  {
    if s == [] || KeyRank(e.key) <= KeyRank(s[0].key) then [e] + s
    else
      assert s == [s[0]] + s[1..];
      [s[0]] + InsertByRank(e, s[1..])
  }

  /** In rank order, the first slot ranks no higher than any slot after it. */
  lemma RankBelowTail<V>(s: seq<Slot<V>>, x: Slot<V>)
    requires RankOrdered(s) && |s| >= 1 && x in s[1..]
    ensures KeyRank(s[0].key) <= KeyRank(x.key)
  {
    var j :| 0 <= j < |s[1..]| && s[1..][j] == x;
    assert s[j + 1] == x;
  }

  /** A slot ranking no higher than every slot of a rank-ordered list can go in front of it. */
  lemma PrependRanked<V>(x: Slot<V>, rest: seq<Slot<V>>)
    requires RankOrdered(rest)
    requires forall k :: 0 <= k < |rest| ==> KeyRank(x.key) <= KeyRank(rest[k].key)
    ensures RankOrdered([x] + rest)
  {
    var s := [x] + rest;
    forall i, j | 0 <= i < j < |s| ensures KeyRank(s[i].key) <= KeyRank(s[j].key) {
      assert s[j] == rest[j - 1];
      if i > 0 {
        assert s[i] == rest[i - 1];
      }
    }
  }

  lemma {:induction false} InsertKeepsRankOrder<V>(e: Slot<V>, s: seq<Slot<V>>)
    requires RankOrdered(s)
    ensures RankOrdered(InsertByRank(e, s))
  {
    if s == [] || KeyRank(e.key) <= KeyRank(s[0].key) {
      forall k | 0 <= k < |s| ensures KeyRank(e.key) <= KeyRank(s[k].key) {
        if k > 0 {
          RankBelowTail(s, s[k]);
        }
      }
      PrependRanked(e, s);
    } else {
      var rest := InsertByRank(e, s[1..]);
      InsertKeepsRankOrder(e, s[1..]);
      forall k | 0 <= k < |rest| ensures KeyRank(s[0].key) <= KeyRank(rest[k].key) {
        assert rest[k] in multiset(rest);
        if rest[k] != e {
          assert rest[k] in multiset(s[1..]);
          RankBelowTail(s, rest[k]);
        }
      }
      PrependRanked(s[0], rest);
    }
  }

  /** Inserting into ordered slots puts a named slot before every other named slot and leaves the named slots otherwise alone. */
  lemma {:induction false} InsertNamed<V>(e: Slot<V>, s: seq<Slot<V>>)
    requires RankOrdered(s)
    ensures Named(InsertByRank(e, s)) == (if KeyRank(e.key) == NamedRank then [e] + Named(s) else Named(s))
  {
    if s == [] || KeyRank(e.key) <= KeyRank(s[0].key) {
      assert ([e] + s)[1..] == s;
      if s != [] && KeyRank(e.key) == NamedRank {
        assert KeyRank(s[0].key) == NamedRank;
      }
    } else {
      assert KeyRank(s[0].key) < NamedRank;
      InsertNamed(e, s[1..]);
      assert ([s[0]] + InsertByRank(e, s[1..]))[1..] == InsertByRank(e, s[1..]);
    }
  }

  /** `Object.entries(d)`: a stable sort of the slots by key rank, so the
      array-index keys come first in ascending numeric order and every other
      key follows in insertion order. */
  function Entries<V>(d: seq<Slot<V>>): (e: seq<Slot<V>>)
    ensures multiset(e) == multiset(d)
    ensures RankOrdered(e)
    ensures Named(e) == Named(d)
  {
    if d == [] then []
    else
      assert d == [d[0]] + d[1..];
      InsertKeepsRankOrder(d[0], Entries(d[1..]));
      InsertNamed(d[0], Entries(d[1..]));
      InsertByRank(d[0], Entries(d[1..]))
  }

  /** Without array-index keys the listing is the insertion order. */
  lemma {:induction false} EntriesWithoutIndices<V>(d: seq<Slot<V>>)
    requires forall i :: 0 <= i < |d| ==> !IsArrayIndex(d[i].key)
    ensures Entries(d) == d
  {
    if d != [] {
      EntriesWithoutIndices(d[1..]);
      assert Entries(d[1..]) == d[1..];
      assert d == [d[0]] + d[1..];
    }
  }

  /** A slot of a dictionary with distinct keys occurs in it once at most. */
  lemma {:induction false} DistinctOnce<V>(d: seq<Slot<V>>, x: Slot<V>)
    requires DistinctKeys(d)
    ensures multiset(d)[x] <= 1
  {
    if d != [] {
      assert d == [d[0]] + d[1..];
      DistinctOnce(d[1..], x);
      if x == d[0] {
        assert x !in d[1..] by {
          forall j | 0 <= j < |d[1..]| ensures d[1..][j] != x {
            assert d[1..][j] == d[j + 1];
          }
        }
      }
    }
  }

  /** A value at two positions occurs at least twice. */
  lemma TwiceCounted<T>(s: seq<T>, i: nat, j: nat)
    requires i < j < |s| && s[i] == s[j]
    ensures multiset(s)[s[i]] >= 2
  {
    assert s == s[..j] + [s[j]] + s[j + 1..];
    assert s[i] in multiset(s[..j]) by {
      assert s[..j][i] == s[i];
    }
  }

  /** A listing with the same slots as a dictionary with distinct keys has distinct keys,
      the same keys, and each slot holds what the dictionary holds under its key. */
  lemma PermutedDict<V>(d: seq<Slot<V>>, e: seq<Slot<V>>)
    requires DistinctKeys(d) && multiset(e) == multiset(d)
    ensures DistinctKeys(e)
    ensures forall k :: k in Keys(e) <==> k in Keys(d)
    ensures forall i :: 0 <= i < |e| ==> Find(d, e[i].key) == Some(e[i].val)
  {
    forall i | 0 <= i < |e| ensures Find(d, e[i].key) == Some(e[i].val) {
      assert e[i] in multiset(d);
      var p :| 0 <= p < |d| && d[p] == e[i];
      FindDistinct(d, p);
    }
    forall i, j | 0 <= i < j < |e| ensures e[i].key != e[j].key {
      if e[i] == e[j] {
        TwiceCounted(e, i, j);
        DistinctOnce(d, e[i]);
      }
    }
    SameSlotsSameKeys(d, e);
  }

  /** Two lists of the same slots, in whatever order, hold the same keys. */
  lemma SameSlotsSameKeys<V>(d: seq<Slot<V>>, e: seq<Slot<V>>)
    requires multiset(e) == multiset(d)
    ensures forall k :: k in Keys(e) <==> k in Keys(d)
  {
    forall k ensures k in Keys(e) <==> k in Keys(d) {
      if k in Keys(e) {
        var i :| 0 <= i < |e| && Keys(e)[i] == k;
        assert e[i] in multiset(d);
        var p :| 0 <= p < |d| && d[p] == e[i];
        assert Keys(d)[p] == k;
      }
      if k in Keys(d) {
        var p :| 0 <= p < |d| && Keys(d)[p] == k;
        assert d[p] in multiset(e);
        var i :| 0 <= i < |e| && e[i] == d[p];
        assert Keys(e)[i] == k;
      }
    }
  }

  /** In the listing every array-index key comes before every other key,
      and the array-index keys ascend by numeric value. */
  lemma IndexKeysFirst<V>(d: seq<Slot<V>>)
    ensures var e := Entries(d);
            forall i, j :: 0 <= i < |e| && 0 <= j < |e| && IsArrayIndex(e[i].key) && !IsArrayIndex(e[j].key) ==> i < j
    ensures var e := Entries(d);
            forall i, j :: 0 <= i < j < |e| && IsArrayIndex(e[i].key) && IsArrayIndex(e[j].key) ==>
              Text.DigitsValue(e[i].key) <= Text.DigitsValue(e[j].key)
  {
  }

  /** A location named by a number is listed before one inserted earlier:
      a dictionary built as "Nairobi" then "254" lists "254" first. */
  lemma IndexKeyListedFirst(a: nat, b: nat)
    ensures Entries([Slot("Nairobi", a), Slot("254", b)]) == [Slot("254", b), Slot("Nairobi", a)]
  {
    assert Text.DigitsValue("2") == 2;
    assert Text.DigitsValue("25") == 25 by {
      assert "25"[..1] == "2";
    }
    assert Text.DigitsValue("254") == 254 by {
      assert "254"[..2] == "25";
    }
    assert KeyRank("254") == 254;
    assert KeyRank("Nairobi") == NamedRank by {
      assert !('0' <= "Nairobi"[0] <= '9');
    }
    var x, y := Slot("Nairobi", a), Slot("254", b);
    assert Entries([y]) == [y] by {
      assert [y][1..] == [];
    }
    assert InsertByRank(x, [y]) == [y, x] by {
      assert [y][1..] == [];
    }
    assert [x, y][1..] == [y];
  }
}

=== FILE: integration.dfy ===
/** The integration controller, backend/controllers/integrationController.js:
    the admin-only export, report, external-API and validation handlers, the
    mobile sync handler, the CSV writer behind the export, and the counting
    helpers the reports are built from. Database queries are parameters
    holding what the query returned; the clock's reading, as an ISO 8601
    timestamp, is the parameter `isoTime`. */
module Integration {
  import opened Wrappers
  import opened Text
  import opened UserModel
  import opened AuthGate
  import opened Dict
  import opened Population

  // ---------------------------------------------------------------------
  // The CSV writer

  /** The field values the writer meets. */
  datatype Value = Str(s: string) | Num(n: int) | Bool(b: bool) | Nil

  /** A record, as its own enumerable fields in their order. */
  datatype Row = Row(fields: seq<(string, Value)>)

  /** The record's field names, in order (the header line comes from these). */
  function RowKeys(row: Row): seq<string>
  {
    seq(|row.fields|, i requires 0 <= i < |row.fields| => row.fields[i].0)
  }

  /** `row[header]`: the value of the first field of that name, or `Nil` when the record has no such field. */
  function Lookup(fields: seq<(string, Value)>, key: string): (v: Value)
    ensures (forall i :: 0 <= i < |fields| ==> fields[i].0 != key) ==> v == Nil
    ensures forall i :: 0 <= i < |fields| && fields[i].0 == key && (forall j :: 0 <= j < i ==> fields[j].0 != key) ==>
              v == fields[i].1
  {
    if fields == [] then Nil
    else if fields[0].0 == key then fields[0].1
    else Lookup(fields[1..], key)
  }

  /** How a value appears in a line. A string is put between double quotes
      with nothing inside it escaped; a number or boolean is written as
      JavaScript prints it; a missing field leaves the cell empty. */
  function Render(v: Value): (cell: string)
    ensures cell == "" <==> v.Nil?
    ensures v.Str? ==> |cell| == |v.s| + 2 && cell[0] == '"' && cell[|cell| - 1] == '"' && cell[1..|cell| - 1] == v.s
    ensures v.Num? && v.n >= 0 ==> IsDigits(cell) && DigitsValue(cell) == v.n
    ensures v.Num? && v.n < 0 ==> cell[0] == '-' && IsDigits(cell[1..]) && DigitsValue(cell[1..]) == -v.n
    ensures v.Bool? ==> (cell == "true" <==> v.b) && (cell == "false" <==> !v.b)
  {
    match v
    case Str(s) => "\"" + s + "\""
    case Num(n) => IntToString(n)
    case Bool(b) => if b then "true" else "false"
    case Nil => ""
  }

  /** The cells of one data line: the row's values under the header names, in header order. */
  function Cells(row: Row, headers: seq<string>): seq<string>
  {
    seq(|headers|, j requires 0 <= j < |headers| => Render(Lookup(row.fields, headers[j])))
  }

  /** One data line per row, in order. */
  function RowLines(rows: seq<Row>, headers: seq<string>): seq<string>
  {
    seq(|rows|, i requires 0 <= i < |rows| => Join(Cells(rows[i], headers), ','))
  }

  /** The text of `convertToCSV`: empty for no data or an empty list; otherwise
      the first row's field names, then one line per row, joined by line feeds. */
  function CsvText(data: Option<seq<Row>>): (text: string)
    ensures text == "" <==> data.None? || data.value == []
    ensures data.Some? && data.value != [] ==>
              var header := Join(RowKeys(data.value[0]), ',');
              |text| > |header| && text[..|header|] == header && text[|header|] == '\n'
  {
    if data.None? || data.value == [] then ""
    else
      var headers := RowKeys(data.value[0]);
      Join([Join(headers, ',')] + RowLines(data.value, headers), '\n')
  }

  /** The data lines of one more row are those of the rows before it and that row's line. */
  lemma RowLinesStep(rows: seq<Row>, headers: seq<string>, i: nat)
    requires i < |rows|
    ensures RowLines(rows[..i + 1], headers) == RowLines(rows[..i], headers) + [Join(Cells(rows[i], headers), ',')]
  {
    var longer, shorter := RowLines(rows[..i + 1], headers), RowLines(rows[..i], headers);
    forall k | 0 <= k < i ensures longer[k] == shorter[k] {
      assert rows[..i + 1][k] == rows[..i][k];
    }
    assert longer[i] == Join(Cells(rows[i], headers), ',') by {
      assert rows[..i + 1][i] == rows[i];
    }
  }

  method ConvertToCSV(data: Option<seq<Row>>) returns (csv: string)
    ensures csv == CsvText(data)
  {
    if data.None? || |data.value| == 0 {
      return "";
    }
    var rows := data.value;
    var headers := RowKeys(rows[0]);
    var csvRows := [Join(headers, ',')];
    for i := 0 to |rows|
      invariant csvRows == [Join(headers, ',')] + RowLines(rows[..i], headers)
    {
      var values := seq(|headers|, j requires 0 <= j < |headers| => Render(Lookup(rows[i].fields, headers[j])));
      assert values == Cells(rows[i], headers);
      RowLinesStep(rows, headers, i);
      csvRows := csvRows + [Join(values, ',')];
    }
    assert rows[..|rows|] == rows;
    csv := Join(csvRows, '\n');
  }

  /** The spreadsheet export writes the CSV text. */
  method ConvertToExcel(data: Option<seq<Row>>) returns (sheet: string)
    ensures sheet == CsvText(data)
  {
    sheet := ConvertToCSV(data);
  }

  /** No part contains `c`. */
  predicate PartsAvoid(parts: seq<string>, c: char)
  {
    forall j :: 0 <= j < |parts| ==> c !in parts[j]
  }

  /** No field name and no rendered cell of the rows contains a comma or a line feed. */
  predicate Unbroken(rows: seq<Row>, headers: seq<string>)
  {
    PartsAvoid(headers, ',') && PartsAvoid(headers, '\n') &&
    forall i :: 0 <= i < |rows| ==> PartsAvoid(Cells(rows[i], headers), ',') && PartsAvoid(Cells(rows[i], headers), '\n')
  }

  /** A line joined from parts free of commas and line feeds has no line feed and splits back into the parts. */
  lemma LineReadsBack(parts: seq<string>)
    requires |parts| >= 1 && PartsAvoid(parts, ',') && PartsAvoid(parts, '\n')
    ensures '\n' !in Join(parts, ',')
    ensures Split(Join(parts, ','), ',') == parts
  {
    JoinAvoids(parts, ',', '\n');
    SplitJoin(parts, ',');
  }

  /** When no field name or value holds a comma or a line feed, the text reads
      back: one line for the header and one per row, in order, the header line
      splits into the first row's field names, and each data line splits into
      that row's values under those names. */
  lemma CsvReadsBack(rows: seq<Row>)
    requires rows != [] && |RowKeys(rows[0])| >= 1
    requires Unbroken(rows, RowKeys(rows[0]))
    ensures var headers := RowKeys(rows[0]);
            var lines := Split(CsvText(Some(rows)), '\n');
            |lines| == |rows| + 1 &&
            Split(lines[0], ',') == headers &&
            forall i :: 0 <= i < |rows| ==> Split(lines[i + 1], ',') == Cells(rows[i], headers)
  {
    var headers := RowKeys(rows[0]);
    var lines := [Join(headers, ',')] + RowLines(rows, headers);
    assert CsvText(Some(rows)) == Join(lines, '\n');
    LineReadsBack(headers);
    forall i | 0 <= i < |rows|
      ensures lines[i + 1] == Join(Cells(rows[i], headers), ',')
      ensures '\n' !in lines[i + 1] && Split(lines[i + 1], ',') == Cells(rows[i], headers)
    {
      LineReadsBack(Cells(rows[i], headers));
    }
    assert PartsAvoid(lines, '\n') by {
      forall j | 0 <= j < |lines| ensures '\n' !in lines[j] {
        if j > 0 {
          assert lines[(j - 1) + 1] == lines[j];
        }
      }
    }
    SplitJoin(lines, '\n');
  }

  /** The writer is not RFC 4180: a string value is put between quotes
      verbatim, so a quote inside it is not doubled, and lines end with a bare
      line feed. */
  lemma QuotesNotEscaped(s: string)
    ensures CsvText(Some([Row([("name", Str(s))])])) == "name\n\"" + s + "\""
  {
    var rows := [Row([("name", Str(s))])];
    var cell := "\"" + s + "\"";
    assert RowKeys(rows[0]) == ["name"];
    assert Render(Lookup(rows[0].fields, "name")) == cell;
    assert Cells(rows[0], ["name"]) == [cell];
    JoinOneOrTwo(cell, "", ',');
    JoinOneOrTwo("name", cell, '\n');
    JoinOneOrTwo("name", "", ',');
    assert RowLines(rows, ["name"]) == [cell];
    assert [Join(["name"], ',')] + RowLines(rows, ["name"]) == ["name", cell];
    assert CsvText(Some(rows)) == Join(["name", cell], '\n');
  }

  /** A comma inside a string value is not protected either: the data line
      splits at it, so the single value reads back as two cells. */
  lemma CommaInValueSplitsCell(a: string, b: string)
    requires ',' !in a && ',' !in b
    ensures var line := Join(Cells(Row([("name", Str(a + "," + b))]), ["name"]), ',');
            Split(line, ',') == ["\"" + a, b + "\""]
  {
    var cell := "\"" + (a + "," + b) + "\"";
    assert Cells(Row([("name", Str(a + "," + b))]), ["name"]) == [cell];
    assert cell == ("\"" + a) + [','] + (b + "\"");
    assert ',' !in "\"" + a && ',' !in b + "\"";
    SplitAfterFirstPart("\"" + a, b + "\"", ',');
    SplitWithoutSeparator(b + "\"", ',');
  }

  // ---------------------------------------------------------------------
  // exportData

  datatype DataType = UsersData | AnalyticsData | BeneficiariesData

  function ParseDataType(dataType: string): (t: Option<DataType>)
    ensures t.Some? <==> dataType == "users" || dataType == "analytics" || dataType == "beneficiaries"
  {
    if dataType == "users" then Some(UsersData)
    else if dataType == "analytics" then Some(AnalyticsData)
    else if dataType == "beneficiaries" then Some(BeneficiariesData)
    else None
  }

  /** What the query for a data type returns: a list of documents, or the latest analytics document (or null). */
  datatype Fetched = Many(rows: seq<Row>) | Single(doc: Option<Row>)

  /** The results of the three queries the export may run: the users matching
      the request's filters, the beneficiaries, and the latest analytics document. */
  datatype ExportSource = ExportSource(users: seq<Row>, beneficiaries: seq<Row>, latestAnalytics: Option<Row>)

  function Fetch(src: ExportSource, t: DataType): Fetched
  {
    match t
    case UsersData => Many(src.users)
    case AnalyticsData => Single(src.latestAnalytics)
    case BeneficiariesData => Many(src.beneficiaries)
  }

  /** The name a data type is requested by. */
  function DataTypeName(t: DataType): (name: string)
    ensures ParseDataType(name) == Some(t)
  {
    match t
    case UsersData => "users"
    case AnalyticsData => "analytics"
    case BeneficiariesData => "beneficiaries"
  }

  /** A recognised data type name is the name of the type it parses to. */
  lemma ParsedDataTypeName(dataType: string)
    requires ParseDataType(dataType).Some?
    ensures DataTypeName(ParseDataType(dataType).value) == dataType
  {
  }

  /** The date of an ISO 8601 timestamp: the text before its first 'T'. */
  function DatePart(isoTime: string): (date: string)
    ensures 'T' !in date && |date| <= |isoTime| && isoTime[..|date|] == date
  {
    Split(isoTime, 'T')[0]
  }

  /** The date part of a timestamp `<date>T<time>` is `<date>`. */
  lemma DatePartOfTimestamp(date: string, time: string)
    requires 'T' !in date
    ensures DatePart(date + "T" + time) == date
  {
    assert date + "T" + time == date + ['T'] + time;
    SplitAfterFirstPart(date, time, 'T');
  }

  /** The file name before the extension: `<dataType>_export_<YYYY-MM-DD>`. */
  function BaseName(t: DataType, isoTime: string): (name: string)
    ensures name == DataTypeName(t) + "_export_" + DatePart(isoTime)
  {
    match t
    case UsersData => "users_export_" + DatePart(isoTime)
    case AnalyticsData => "analytics_export_" + DatePart(isoTime)
    case BeneficiariesData => "beneficiaries_export_" + DatePart(isoTime)
  }

  datatype Format = Csv | Json | Excel

  /** The format, matched after lower-casing. */
  function ParseFormat(format: string): (f: Option<Format>)
    ensures f == Some(Csv) <==> ToLower(format) == "csv"
    ensures f == Some(Json) <==> ToLower(format) == "json"
    ensures f == Some(Excel) <==> ToLower(format) == "excel"
  {
    var f := ToLower(format);
    if f == "csv" then Some(Csv)
    else if f == "json" then Some(Json)
    else if f == "excel" then Some(Excel)
    else None
  }

  /** The Content-Type header: text/csv for CSV, application/json for JSON, the spreadsheet type for Excel. */
  function ContentType(f: Format): (mime: string)
    ensures mime == "text/csv" <==> f == Csv
    ensures mime == "application/json" <==> f == Json
  {
    match f
    case Csv => "text/csv"
    case Json => "application/json"
    case Excel => "application/vnd.openxmlformats-officedocument.spreadsheetml.sheet"
  }

  /** The file extension: it names its own format, except "xlsx", which is not a format name. */
  function Extension(f: Format): (ext: string)
    ensures f != Excel ==> ParseFormat(ext) == Some(f)
    ensures f == Excel ==> ParseFormat(ext).None?
  {
    assert ToLower("csv") == "csv" && ToLower("json") == "json" && ToLower("xlsx") == "xlsx";
    match f
    case Csv => "csv"
    case Json => "json"
    case Excel => "xlsx"
  }

  /** The response body: written text, or the fetched data sent as pretty-printed JSON. */
  datatype Body = Plain(text: string) | JsonDocument(data: Fetched)

  /** A file download: the Content-Type header, the attachment's file name and the body. */
  datatype Download = Download(contentType: string, filename: string, body: Body)

  const InvalidDataType: HttpError := HttpError(400, "Invalid data type")
  const UnsupportedFormat: HttpError := HttpError(400, "Unsupported format")

  /** The CSV writer applied to what the query returned. A list is written out;
      a missing analytics document is falsy and gives the empty text; a present
      one is not a list, so its element 0 is undefined, reading that element's
      keys throws, and the handler's catch answers 500. */
  function CsvOf(data: Fetched): (r: Result<string, HttpError>)
    ensures data.Many? ==> r == Success(CsvText(Some(data.rows)))
    ensures data.Single? ==> (r.Success? <==> data.doc.None?)
    ensures r.Failure? ==> r.error == ServerError
  {
    match data
    case Many(rows) => Success(CsvText(Some(rows)))
    case Single(None) => Success("")
    case Single(Some(_)) => Failure(ServerError)
  }

  /** The `exportData` handler. `format` is absent when the request body has
      none; lower-casing an absent format throws, which the catch answers 500. */
  function ExportData(caller: RequestUser, format: Option<string>, dataType: string, isoTime: string, src: ExportSource)
    : (r: Result<Download, HttpError>)
    ensures caller.role != AdminRole ==> r == Failure(AccessDenied)
    ensures caller.role == AdminRole && ParseDataType(dataType).None? ==> r == Failure(InvalidDataType)
    ensures caller.role == AdminRole && ParseDataType(dataType).Some? && format.None? ==> r == Failure(ServerError)
    ensures caller.role == AdminRole && ParseDataType(dataType).Some? && format.Some? && ParseFormat(format.value).None? ==>
              r == Failure(UnsupportedFormat)
    ensures r.Success? ==>
              caller.role == AdminRole && ParseDataType(dataType).Some? && format.Some? && ParseFormat(format.value).Some? &&
              var f := ParseFormat(format.value).value;
              r.value.contentType == ContentType(f) &&
              r.value.filename == dataType + "_export_" + DatePart(isoTime) + "." + Extension(f)
    ensures caller.role == AdminRole && ParseDataType(dataType).Some? && format.Some? &&
            ParseFormat(format.value) == Some(Json) ==>
              r.Success? && r.value.body == JsonDocument(Fetch(src, ParseDataType(dataType).value))
    ensures caller.role == AdminRole && ParseDataType(dataType).Some? && format.Some? &&
            (ParseFormat(format.value) == Some(Csv) || ParseFormat(format.value) == Some(Excel)) ==>
              var text := CsvOf(Fetch(src, ParseDataType(dataType).value));
                  (r.Success? <==> text.Success?) &&
                  (r.Success? ==> r.value.body == Plain(text.value)) &&
                  (r.Failure? ==> r.error == ServerError)
  {
    if caller.role != AdminRole then Failure(AccessDenied)
    else match ParseDataType(dataType)
      case None => Failure(InvalidDataType)
      case Some(t) =>
        ParsedDataTypeName(dataType);
        var data := Fetch(src, t);
        if format.None? then Failure(ServerError)
        else match ParseFormat(format.value)
          case None => Failure(UnsupportedFormat)
          case Some(f) =>
            var body: Result<Body, HttpError> :=
              if f == Json then Success(JsonDocument(data))
              else match CsvOf(data)
                case Success(text) => Success(Plain(text))
                case Failure(e) => Failure(e);
            match body
            case Failure(e) => Failure(e)
            case Success(b) => Success(Download(ContentType(f), BaseName(t, isoTime) + "." + Extension(f), b))
  }

  /** The format is case-insensitive: two spellings that lower-case alike give the same response. */
  lemma FormatCaseInsensitive(caller: RequestUser, f1: string, f2: string, dataType: string, isoTime: string, src: ExportSource)
    requires ToLower(f1) == ToLower(f2)
    ensures ExportData(caller, Some(f1), dataType, isoTime, src) == ExportData(caller, Some(f2), dataType, isoTime, src)
  {
  }

  /** "CSV" and "Excel" are accepted like "csv" and "excel". */
  lemma UpperCaseFormats()
    ensures ParseFormat("CSV") == Some(Csv) && ParseFormat("Excel") == Some(Excel) && ParseFormat("JSON") == Some(Json)
  {
    assert ToLower("CSV") == "csv";
    assert ToLower("Excel") == "excel";
    assert ToLower("JSON") == "json";
  }

  /** The spreadsheet download carries the same text as the CSV one. */
  lemma ExcelCarriesCsvText(caller: RequestUser, dataType: string, isoTime: string, src: ExportSource)
    ensures var c := ExportData(caller, Some("csv"), dataType, isoTime, src);
            var x := ExportData(caller, Some("excel"), dataType, isoTime, src);
            c.Success? == x.Success? && (c.Success? ==> c.value.body == x.value.body)
  {
    assert ToLower("csv") == "csv";
    assert ToLower("excel") == "excel";
  }

  /** Exporting an existing analytics document as CSV fails with 500. */
  lemma AnalyticsCsvExportFails(caller: RequestUser, isoTime: string, src: ExportSource)
    requires caller.role == AdminRole && src.latestAnalytics.Some?
    ensures ExportData(caller, Some("csv"), "analytics", isoTime, src) == Failure(ServerError)
  {
    assert ToLower("csv") == "csv";
  }

  // ---------------------------------------------------------------------
  // Counting helpers of the reports

  /** Writing `b + 1` under `key` reads back as `b + 1` there and leaves the reading of every other key alone. */
  lemma CountStepRead(counter: seq<Slot<nat>>, key: string, k: string, a: nat, b: nat)
    requires Find(counter, k).GetOr(0) == a
    ensures Find(Put(counter, key, b + 1), k).GetOr(0) == if k == key then b + 1 else a
  {
    FindPutOr(counter, key, b + 1, k, 0);
  }

  /** Incrementing the count of `key` adds one to its reading and leaves every other reading alone. */
  lemma CountStepIncrement(counter: seq<Slot<nat>>, key: string, k: string, a: nat, b: nat)
    requires Find(counter, k).GetOr(0) == a
    requires Find(counter, key).GetOr(0) == b
    ensures Find(Put(counter, key, Find(counter, key).GetOr(0) + 1), k).GetOr(0) == if k == key then b + 1 else a
  {
    CountStepRead(counter, key, k, a, b);
  }

  /** Appending `key` adds one occurrence of `key` and no occurrence of any other value. */
  lemma OccurrencesStep(keys: seq<string>, key: string, k: string, a: nat, b: nat)
    requires a == Occurrences(keys, k)
    requires b == Occurrences(keys, key)
    ensures Occurrences(keys + [key], k) == if k == key then b + 1 else a
  {
    OccurrencesAppend(keys, key, k);
  }

  /** Incrementing the count of the next key keeps every count exact. */
  lemma CountStepAt(counter: seq<Slot<nat>>, keys: seq<string>, key: string, k: string)
    requires Find(counter, k).GetOr(0) == Occurrences(keys, k)
    requires Find(counter, key).GetOr(0) == Occurrences(keys, key)
    ensures Find(Put(counter, key, Find(counter, key).GetOr(0) + 1), k).GetOr(0) == Occurrences(keys + [key], k)
  {
    CountStepIncrement(counter, key, k, Occurrences(keys, k), Occurrences(keys, key));
    OccurrencesStep(keys, key, k, Occurrences(keys, k), Occurrences(keys, key));
  }

  /** Incrementing the count of a key adds one to the total. */
  lemma CountStepTotal(counter: seq<Slot<nat>>, key: string)
    ensures Total(Put(counter, key, Find(counter, key).GetOr(0) + 1)) == Total(counter) + 1
  {
    var v: nat := Find(counter, key).GetOr(0) + 1;
    SumByPut(counter, key, v, Identity);
    assert Identity(v) == v;
    match Find(counter, key)
    case None =>
    case Some(w) => assert Identity(w) == w == v - 1;
  }

  /** The counter after counting `keys`: one slot per key, in first-met order,
      each holding its number of occurrences, the counts summing to the number of keys. */
  ghost predicate Counts(keys: seq<string>, counter: seq<Slot<nat>>)
  {
    Keys(counter) == FirstMet(keys) && CountsEach(keys, counter) && Total(counter) == |keys|
  }

  /** Every key reads as its number of occurrences, 0 when absent. */
  ghost predicate CountsEach(keys: seq<string>, counter: seq<Slot<nat>>)
  {
    forall k :: Find(counter, k).GetOr(0) == Occurrences(keys, k)
  }

  /** Counting one more key: `counter[key] = (counter[key] || 0) + 1`. */
  lemma CountStep(counter: seq<Slot<nat>>, keys: seq<string>, key: string)
    requires Counts(keys, counter)
    ensures Counts(keys + [key], Put(counter, key, Find(counter, key).GetOr(0) + 1))
  {
    CountStepOrder(counter, keys, key);
    CountStepEvery(counter, keys, key);
    CountStepTotal(counter, key);
  }

  /** Incrementing the count of the next key keeps the keys in first-met order. */
  lemma CountStepOrder(counter: seq<Slot<nat>>, keys: seq<string>, key: string)
    requires Keys(counter) == FirstMet(keys)
    ensures Keys(Put(counter, key, Find(counter, key).GetOr(0) + 1)) == FirstMet(keys + [key])
  {
    var v := Find(counter, key).GetOr(0) + 1;
    KeysPutOrder(counter, key, v);
    FirstMetSnoc(keys, key);
    if key in Keys(counter) {
      assert Keys(Put(counter, key, v)) == Keys(counter);
    } else {
      assert Keys(Put(counter, key, v)) == Keys(counter) + [key];
    }
  }

  /** Incrementing the count of the next key keeps every count exact. */
  lemma CountStepEvery(counter: seq<Slot<nat>>, keys: seq<string>, key: string)
    requires CountsEach(keys, counter)
    ensures CountsEach(keys + [key], Put(counter, key, Find(counter, key).GetOr(0) + 1))
  {
    forall k ensures Find(Put(counter, key, Find(counter, key).GetOr(0) + 1), k).GetOr(0) == Occurrences(keys + [key], k) {
      CountStepAt(counter, keys, key, k);
    }
  }

  /** `calculateGeographicSpread`: counts the users per location key, in the order the keys are first met. */
  method GeographicSpread(users: seq<UserDoc>) returns (locations: seq<Slot<nat>>)
    ensures DistinctKeys(locations)
    ensures Keys(locations) == FirstMet(LocationKeys(users))
    ensures forall k :: k in Keys(locations) <==> k in LocationKeys(users)
    ensures forall k :: Find(locations, k).GetOr(0) == Occurrences(LocationKeys(users), k)
    ensures Total(locations) == |users|
  {
    locations := [];
    for i := 0 to |users|
      invariant Counts(LocationKeys(users[..i]), locations)
    {
      var location := LocationKey(users[i]);
      var counted := LocationKeys(users[..i]);
      assert LocationKeys(users[..i + 1]) == counted + [location];
      CountStep(locations, counted, location);
      locations := Put(locations, location, Find(locations, location).GetOr(0) + 1);
    }
    assert users[..|users|] == users;
    FirstMetKeysDistinct(locations, LocationKeys(users));
  }

  /** The counts never grow along the sequence. */
  predicate NonIncreasing(s: seq<Slot<nat>>)
  {
    forall i, j :: 0 <= i < j < |s| ==> s[i].val >= s[j].val
  }

  /** Inserts `e` before the first entry whose count is not larger. */
  function InsertByCount(e: Slot<nat>, s: seq<Slot<nat>>): (r: seq<Slot<nat>>)
    ensures multiset(r) == multiset(s) + multiset{e}
  {
    if s == [] || s[0].val <= e.val then [e] + s
    else
      assert s == [s[0]] + s[1..];
      [s[0]] + InsertByCount(e, s[1..])
  }

  lemma {:induction false} InsertKeepsOrder(e: Slot<nat>, s: seq<Slot<nat>>)
    requires NonIncreasing(s)
    ensures NonIncreasing(InsertByCount(e, s))
  {
    if s != [] && s[0].val > e.val {
      var rest := InsertByCount(e, s[1..]);
      InsertKeepsOrder(e, s[1..]);
      forall k | 0 <= k < |rest| ensures rest[k].val <= s[0].val {
        assert rest[k] in multiset(rest);
        if rest[k] != e {
          assert rest[k] in multiset(s[1..]);
        }
      }
    }
  }

  /** The stable sort by descending count that `identifyPriorityAreas` applies to the distribution. */
  function SortByCount(s: seq<Slot<nat>>): (r: seq<Slot<nat>>)
    ensures multiset(r) == multiset(s)
    ensures NonIncreasing(r)
  {
    if s == [] then []
    else
      assert s == [s[0]] + s[1..];
      InsertKeepsOrder(s[0], SortByCount(s[1..]));
      InsertByCount(s[0], SortByCount(s[1..]))
  }

  datatype PriorityArea = PriorityArea(area: string, count: nat)

  /** No factor name is an array index, so `Object.entries` lists the distribution in factor order. */
  lemma DistributionEntries(users: seq<UserDoc>)
    ensures Entries(Distribution(users)) == Distribution(users)
  {
    var d := Distribution(users);
    forall i | 0 <= i < |d| ensures !IsArrayIndex(d[i].key) {
      assert d[i].key == Keys(d)[i] == VulnerabilityFactors[i];
      assert !('0' <= VulnerabilityFactors[i][0] <= '9');
    }
    EntriesWithoutIndices(d);
  }

  /** The distribution names each factor once. */
  lemma DistributionDistinct(users: seq<UserDoc>)
    ensures DistinctKeys(Distribution(users))
  {
    var d := Distribution(users);
    FactorsDistinct();
    forall i, j | 0 <= i < j < |d| ensures d[i].key != d[j].key {
      assert d[i].key == Keys(d)[i] && d[j].key == Keys(d)[j];
    }
  }

  /** Each slot of a listing of the distribution is a factor with its count. */
  lemma ListedFactorsCounted(users: seq<UserDoc>, listing: seq<Slot<nat>>)
    requires multiset(listing) == multiset(Distribution(users))
    ensures forall i :: 0 <= i < |listing| ==>
              listing[i].key in VulnerabilityFactors && listing[i].val == FactorCount(users, listing[i].key)
  {
    var d := Distribution(users);
    forall i | 0 <= i < |listing|
      ensures listing[i].key in VulnerabilityFactors && listing[i].val == FactorCount(users, listing[i].key)
    {
      assert listing[i] in multiset(d);
      var p :| 0 <= p < |d| && d[p] == listing[i];
      assert Keys(d)[p] == d[p].key;
    }
  }

  /** A listing of the distribution holds every factor with its count. */
  lemma ListingHasEveryFactor(users: seq<UserDoc>, listing: seq<Slot<nat>>)
    requires multiset(listing) == multiset(Distribution(users))
    ensures forall f :: f in VulnerabilityFactors ==> Slot(f, FactorCount(users, f)) in listing
  {
    var d := Distribution(users);
    forall f | f in VulnerabilityFactors
      ensures Slot(f, FactorCount(users, f)) in listing
    {
      var p :| 0 <= p < |VulnerabilityFactors| && VulnerabilityFactors[p] == f;
      assert Keys(d)[p] == d[p].key;
      assert d[p] in multiset(listing);
    }
  }

  /** The sorted distribution holds every factor once, with its count, and nothing else. */
  lemma SortedDistribution(users: seq<UserDoc>)
    ensures var sorted := SortByCount(Entries(Distribution(users)));
            DistinctKeys(sorted) &&
            |sorted| == |VulnerabilityFactors| &&
            (forall i :: 0 <= i < |sorted| ==> sorted[i].key in VulnerabilityFactors && sorted[i].val == FactorCount(users, sorted[i].key)) &&
            (forall f :: f in VulnerabilityFactors ==> Slot(f, FactorCount(users, f)) in sorted)
  {
    var d := Distribution(users);
    var sorted := SortByCount(Entries(d));
    assert |sorted| == |multiset(sorted)| == |multiset(d)| == |d|;
    DistributionDistinct(users);
    PermutedDict(d, sorted);
    ListedFactorsCounted(users, sorted);
    ListingHasEveryFactor(users, sorted);
  }

  /** The entries of the distribution sorted by descending count, stably: every factor once, with its count. */
  function RankedFactors(users: seq<UserDoc>): (sorted: seq<Slot<nat>>)
    ensures DistinctKeys(sorted)
    ensures |sorted| == |VulnerabilityFactors|
    ensures forall i :: 0 <= i < |sorted| ==>
              sorted[i].key in VulnerabilityFactors && sorted[i].val == FactorCount(users, sorted[i].key)
    ensures forall f :: f in VulnerabilityFactors ==> Slot(f, FactorCount(users, f)) in sorted
    ensures NonIncreasing(sorted)
  {
    SortedDistribution(users);
    SortByCount(Entries(Distribution(users)))
  }

  /** A factor missing from the first three entries of the sorted distribution is listed by no more users than the third. */
  lemma OutsideTopThree(users: seq<UserDoc>, f: string)
    requires f in VulnerabilityFactors
    ensures var sorted := RankedFactors(users);
            |sorted| >= 3 &&
            (f != sorted[0].key && f != sorted[1].key && f != sorted[2].key ==> FactorCount(users, f) <= sorted[2].val)
  {
    var sorted := RankedFactors(users);
    var p :| 0 <= p < |sorted| && sorted[p] == Slot(f, FactorCount(users, f));
    if f != sorted[0].key && f != sorted[1].key && f != sorted[2].key {
      assert p >= 3;
    }
  }

  /** Every factor is among the first three entries of the ranking or listed by no more users than the third. */
  lemma TopThreeCover(users: seq<UserDoc>)
    ensures var sorted := RankedFactors(users);
            forall f :: f in VulnerabilityFactors ==>
              f == sorted[0].key || f == sorted[1].key || f == sorted[2].key || FactorCount(users, f) <= sorted[2].val
  {
    forall f | f in VulnerabilityFactors
      ensures var sorted := RankedFactors(users);
              f == sorted[0].key || f == sorted[1].key || f == sorted[2].key || FactorCount(users, f) <= sorted[2].val
    {
      OutsideTopThree(users, f);
    }
  }

  /** The first three entries of a ranking, as priority areas. */
  function TopThree(sorted: seq<Slot<nat>>): (r: seq<PriorityArea>)
    requires |sorted| >= 3
    ensures |r| == 3 && forall i :: 0 <= i < 3 ==> r[i] == PriorityArea(sorted[i].key, sorted[i].val)
  {
    [PriorityArea(sorted[0].key, sorted[0].val), PriorityArea(sorted[1].key, sorted[1].val),
     PriorityArea(sorted[2].key, sorted[2].val)]
  }

  /** The first three entries of the ranking are three different known factors with their true counts, most first, and cover every factor counted more than the third. */
  lemma PriorityAreasOfRanking(users: seq<UserDoc>)
    ensures var r := TopThree(RankedFactors(users));
            r[0].area != r[1].area && r[0].area != r[2].area && r[1].area != r[2].area &&
            (forall i :: 0 <= i < |r| ==>
               r[i].area in VulnerabilityFactors && r[i].count == FactorCount(users, r[i].area) <= |users|) &&
            (forall i, j :: 0 <= i < j < |r| ==> r[i].count >= r[j].count) &&
            (forall f :: f in VulnerabilityFactors ==>
               f == r[0].area || f == r[1].area || f == r[2].area || FactorCount(users, f) <= r[2].count)
  {
    TopThreeCover(users);
  }

  /** `identifyPriorityAreas`: the three factors listed by the most users, most first. */
  function IdentifyPriorityAreas(users: seq<UserDoc>): (r: seq<PriorityArea>)
    ensures |r| == 3
    ensures r[0].area != r[1].area && r[0].area != r[2].area && r[1].area != r[2].area
    ensures forall i :: 0 <= i < |r| ==>
              r[i].area in VulnerabilityFactors && r[i].count == FactorCount(users, r[i].area) <= |users|
    ensures forall i, j :: 0 <= i < j < |r| ==> r[i].count >= r[j].count
    ensures forall f :: f in VulnerabilityFactors ==>
              f == r[0].area || f == r[1].area || f == r[2].area || FactorCount(users, f) <= r[2].count
  {
    PriorityAreasOfRanking(users);
    TopThree(RankedFactors(users))
  }

  // ---------------------------------------------------------------------
  // generateReport

  /** `calculateImpactScore`; `score` is the approved share before it is
      rounded to a whole percentage, not a number when there are no users. */
  datatype ImpactScore = ImpactScore(total: nat, approved: nat, highTrust: nat, score: Quotient)

  /** `calculateFundingAllocation`: the amounts set aside for the four programme areas. */
  datatype FundingAllocation = FundingAllocation(digitalInclusion: nat, creativeArts: nat, financialLiteracy: nat,
                                                 emergencySupport: nat)

  /** The allocation for `n` beneficiaries: 40% of them at 1000, 30% at 1500, 20% at 800 and 10% at 2000 each. */
  function FundingAllocationOf(n: nat): (a: FundingAllocation)
    ensures a.digitalInclusion + a.creativeArts + a.financialLiteracy + a.emergencySupport == 1210 * n
    ensures n == 0 <==> a == FundingAllocation(0, 0, 0, 0)
    ensures a.digitalInclusion * 10 == n * 4 * 1000 && a.creativeArts * 10 == n * 3 * 1500 &&
            a.financialLiteracy * 10 == n * 2 * 800 && a.emergencySupport * 10 == n * 1 * 2000
  {
    FundingAllocation(400 * n, 450 * n, 160 * n, 200 * n)
  }

  /** One entry of `generateInterventionPriorities`. */
  datatype Intervention = Intervention(priority: nat, intervention: string)

  /** The interventions the vulnerability report lists, the same for every population. */
  const InterventionPriorities: seq<Intervention> := [
    Intervention(1, "Enhanced verification for high-risk users"),
    Intervention(2, "Digital literacy programs"),
    Intervention(3, "Financial inclusion initiatives")
  ]

  /** A quotient computed without a zero guard: `numerator / denominator`,
      or not a number when the denominator is 0. */
  datatype Quotient = NotANumber | Quotient(numerator: int, denominator: nat)

  function QuotientOf(numerator: int, denominator: nat): (q: Quotient)
    ensures q.NotANumber? <==> denominator == 0
    ensures q.Quotient? ==> q.numerator == numerator && q.denominator == denominator
  {
    if denominator == 0 then NotANumber else Quotient(numerator, denominator)
  }

  /** `calculateSuccessMetrics`: the approved share of the users, their mean
      score with a missing or zero score read as 50, and the share with a
      verified email. */
  datatype SuccessMetrics = SuccessMetrics(approvalRate: Quotient, averageTrustScore: Quotient,
                                           verificationRate: Quotient)

  /** None of the three has a zero guard: with no users all three are not a
      number; otherwise both shares are of all the users and never exceed them. */
  function SuccessMetricsOf(users: seq<UserDoc>): (m: SuccessMetrics)
    ensures users == [] <==> m.approvalRate.NotANumber?
    ensures users == [] <==> m.averageTrustScore.NotANumber?
    ensures users == [] <==> m.verificationRate.NotANumber?
    ensures m.approvalRate.Quotient? ==>
              m.approvalRate.denominator == |users| && 0 <= m.approvalRate.numerator <= |users|
    ensures m.verificationRate.Quotient? ==>
              m.verificationRate.denominator == |users| && 0 <= m.verificationRate.numerator <= |users|
    ensures m.averageTrustScore.Quotient? ==> m.averageTrustScore.denominator == |users|
  {
    SuccessMetrics(QuotientOf(Occurrences(ApprovalStatuses(users), Approved), |users|),
                   QuotientOf(ScoreSum(users), |users|),
                   QuotientOf(EmailVerifiedCount(users), |users|))
  }

  /** With every stored score within the schema's bounds 0..100, the
      reported mean lies within 1..100. */
  lemma MeanScoreWithinRange(users: seq<UserDoc>)
    requires forall i :: 0 <= i < |users| ==> 0 <= users[i].trustScore <= 100
    ensures var q := SuccessMetricsOf(users).averageTrustScore;
            q.Quotient? ==> q.denominator <= q.numerator <= 100 * q.denominator
  {
    ScoreSumBounds(users);
  }

  /** The integer parts of the four reports. */
  datatype Report =
    | ImpactReport(totalBeneficiaries: nat, approvedBeneficiaries: nat, vulnerabilityDistribution: seq<Slot<nat>>,
                   geographicSpread: seq<Slot<nat>>, impactScore: ImpactScore, averageTrustScore: Quotient)
    | VulnerabilityReport(vulnerabilityFactors: seq<Slot<nat>>, riskAssessment: RiskTotals,
                          interventionPriorities: seq<Intervention>, successMetrics: SuccessMetrics)
    | FundingReport(priorityAreas: seq<PriorityArea>, fundingAllocation: FundingAllocation)
    | OperationalReport(totalUsers: nat, activeUsers: nat)

  const ReportTypes: seq<string> := ["impact_assessment", "vulnerability_analysis", "funding_recommendations", "operational_metrics"]
  const InvalidReportType: HttpError := HttpError(400, "Invalid report type")

  /** The `generateReport` handler. `beneficiaries` is what the beneficiary
      query with the request's filters returned, `users` what the query with
      the filters alone returned. */
  method GenerateReport(caller: RequestUser, reportType: string, beneficiaries: seq<UserDoc>, users: seq<UserDoc>)
    returns (r: Result<Report, HttpError>)
    ensures caller.role != AdminRole ==> r == Failure(AccessDenied)
    ensures caller.role == AdminRole ==> (r.Success? <==> reportType in ReportTypes)
    ensures caller.role == AdminRole && r.Failure? ==> r.error == InvalidReportType
    ensures r.Success? && reportType == "impact_assessment" ==>
              r.value.ImpactReport? &&
              r.value.totalBeneficiaries == |beneficiaries| &&
              r.value.approvedBeneficiaries == Occurrences(ApprovalStatuses(beneficiaries), Approved) &&
              r.value.vulnerabilityDistribution == Distribution(beneficiaries) &&
              Total(r.value.geographicSpread) == |beneficiaries| &&
              DistinctKeys(r.value.geographicSpread) &&
              Keys(r.value.geographicSpread) == FirstMet(LocationKeys(beneficiaries)) &&
              (forall k :: k in Keys(r.value.geographicSpread) <==> k in LocationKeys(beneficiaries)) &&
              (forall k :: Find(r.value.geographicSpread, k).GetOr(0) == Occurrences(LocationKeys(beneficiaries), k)) &&
              r.value.impactScore == ImpactScore(|beneficiaries|, Occurrences(ApprovalStatuses(beneficiaries), Approved),
                                                 HighTrustCount(beneficiaries),
                                                 QuotientOf(Occurrences(ApprovalStatuses(beneficiaries), Approved), |beneficiaries|)) &&
              r.value.averageTrustScore == QuotientOf(ScoreSum(beneficiaries), |beneficiaries|)
    ensures r.Success? && reportType == "vulnerability_analysis" ==>
              r.value == VulnerabilityReport(Distribution(beneficiaries), RiskTotalsOf(beneficiaries),
                                             InterventionPriorities, SuccessMetricsOf(beneficiaries))
    ensures r.Success? && reportType == "funding_recommendations" ==>
              r.value == FundingReport(IdentifyPriorityAreas(beneficiaries), FundingAllocationOf(|beneficiaries|))
    ensures r.Success? && reportType == "operational_metrics" ==>
              r.value == OperationalReport(|users|, ActiveCount(users))
  {
    if caller.role != AdminRole {
      return Failure(AccessDenied);
    }
    if reportType == "impact_assessment" {
      var distribution := VulnerabilityDistribution(beneficiaries);
      var spread := GeographicSpread(beneficiaries);
      var approved := Occurrences(ApprovalStatuses(beneficiaries), Approved);
      r := Success(ImpactReport(|beneficiaries|, approved, distribution, spread,
                                ImpactScore(|beneficiaries|, approved, HighTrustCount(beneficiaries),
                                            QuotientOf(approved, |beneficiaries|)),
                                QuotientOf(ScoreSum(beneficiaries), |beneficiaries|)));
    } else if reportType == "vulnerability_analysis" {
      var factors := VulnerabilityDistribution(beneficiaries);
      r := Success(VulnerabilityReport(factors, RiskTotalsOf(beneficiaries), InterventionPriorities,
                                       SuccessMetricsOf(beneficiaries)));
    } else if reportType == "funding_recommendations" {
      r := Success(FundingReport(IdentifyPriorityAreas(beneficiaries), FundingAllocationOf(|beneficiaries|)));
    } else if reportType == "operational_metrics" {
      r := Success(OperationalReport(|users|, ActiveCount(users)));
    } else {
      r := Failure(InvalidReportType);
    }
  }

  // ---------------------------------------------------------------------
  // externalAPI

  /** An integration's descriptor. */
  datatype Integration = Integration(url: string, verb: string, description: string)

  /** The integrations table, by endpoint name. */
  const Integrations: seq<Slot<Integration>> := [
    Slot("funding_organizations", Integration("https://api.funding.org/v1/opportunities", "GET",
      "Funding opportunities for cultural inclusion programs")),
    Slot("government_data", Integration("https://api.gov.ke/v1/demographics", "GET",
      "Government demographic data for validation")),
    Slot("ngo_network", Integration("https://api.ngo-network.org/v1/partners", "GET",
      "NGO partner network for collaboration")),
    Slot("financial_institutions", Integration("https://api.financial.org/v1/microfinance", "POST",
      "Microfinance opportunities for beneficiaries"))]

  const IntegrationNotFound: HttpError := HttpError(404, "Integration not found")

  /** `externalAPI` as written: an endpoint passes the lookup when the table
      holds it or when it names an inherited member; only the former has a
      descriptor to send back. */
  function ExternalAPIAsWritten(caller: RequestUser, endpoint: string): (r: Result<Option<Integration>, HttpError>)
    ensures caller.role != AdminRole ==> r == Failure(AccessDenied)
    ensures caller.role == AdminRole ==>
              (r.Success? <==> endpoint in Keys(Integrations) || endpoint in InheritedNames)
    ensures r.Success? ==> r.value == Find(Integrations, endpoint)
    ensures r.Failure? && caller.role == AdminRole ==> r.error == IntegrationNotFound
  {
    FindPresent(Integrations, endpoint);
    if caller.role != AdminRole then Failure(AccessDenied)
    else if Find(Integrations, endpoint).None? && endpoint !in InheritedNames then Failure(IntegrationNotFound)
    else Success(Find(Integrations, endpoint))
  }

  /** `externalAPI` as intended: only the four listed endpoints are found. */
  function ExternalAPI(caller: RequestUser, endpoint: string): (r: Result<Integration, HttpError>)
    ensures caller.role != AdminRole ==> r == Failure(AccessDenied)
    ensures caller.role == AdminRole ==> (r.Success? <==> endpoint in Keys(Integrations))
    ensures r.Success? ==> Find(Integrations, endpoint) == Some(r.value)
    ensures r.Failure? && caller.role == AdminRole ==> r.error == IntegrationNotFound
  {
    FindPresent(Integrations, endpoint);
    if caller.role != AdminRole then Failure(AccessDenied)
    else match Find(Integrations, endpoint)
      case None => Failure(IntegrationNotFound)
      case Some(integration) => Success(integration)
  }

  /** "toString" is not an integration, yet the handler as written answers it with success instead of 404. */
  lemma InheritedNameReachesIntegration(caller: RequestUser)
    requires caller.role == AdminRole
    ensures ExternalAPIAsWritten(caller, "toString") == Success(None)
    ensures ExternalAPI(caller, "toString") == Failure(IntegrationNotFound)
  {
    assert "toString" in InheritedNames;
    assert "toString" !in Keys(Integrations);
  }

  /** On every name that is not inherited, the handler as written and the intended one agree. */
  lemma AsWrittenAgreesElsewhere(caller: RequestUser, endpoint: string)
    requires endpoint !in InheritedNames
    ensures ExternalAPIAsWritten(caller, endpoint).Success? <==> ExternalAPI(caller, endpoint).Success?
    ensures ExternalAPI(caller, endpoint).Success? ==>
              ExternalAPIAsWritten(caller, endpoint) == Success(Some(ExternalAPI(caller, endpoint).value))
    ensures ExternalAPI(caller, endpoint).Failure? ==>
              ExternalAPIAsWritten(caller, endpoint) == Failure(ExternalAPI(caller, endpoint).error)
  {
  }

  // ---------------------------------------------------------------------
  // mobileSync and validateData

  /** The integer parts of the three sync results. `offlineRecords` below is the
      length of the request's offline data, absent when the request has none;
      `userId` is the id the request body names, absent when it names none. */
  datatype SyncResult =
    | Uploaded(processedRecords: nat, conflicts: nat, newRecords: nat)
    | Downloaded(userId: Option<string>)
    | Resolved(resolvedConflicts: nat, mergedRecords: nat)

  const AuthenticationRequired: HttpError := HttpError(401, "Authentication required")
  const InvalidSyncType: HttpError := HttpError(400, "Invalid sync type")

  /** The `mobileSync` handler: any signed-in user may sync, whatever the role.
      Reading the length of absent offline data throws, and so does looking up
      a body id that `isObjectId` (the store's id cast) refuses; the catch
      answers 500 to both. An absent id is looked up as no id and finds no profile. */
  function MobileSync(caller: Option<RequestUser>, userId: Option<string>, isObjectId: string -> bool,
                      offlineRecords: Option<nat>, syncType: string)
    : (r: Result<SyncResult, HttpError>)
    ensures caller.None? ==> r == Failure(AuthenticationRequired)
    ensures caller.Some? && syncType != "upload" && syncType != "download" && syncType != "conflict_resolution" ==>
              r == Failure(InvalidSyncType)
    ensures caller.Some? && syncType == "download" ==>
              (r.Success? <==> userId.None? || isObjectId(userId.value)) &&
              (r.Success? ==> r.value == Downloaded(userId)) && (r.Failure? ==> r.error == ServerError)
    ensures caller.Some? && (syncType == "upload" || syncType == "conflict_resolution") ==>
              (r.Success? <==> offlineRecords.Some?) && (r.Failure? ==> r.error == ServerError)
    ensures r.Success? && r.value.Uploaded? ==>
              r.value.processedRecords == r.value.newRecords == offlineRecords.value && r.value.conflicts == 0
    ensures r.Success? && r.value.Resolved? ==>
              r.value.mergedRecords == offlineRecords.value && r.value.resolvedConflicts == 0
  {
    if caller.None? then Failure(AuthenticationRequired)
    else if syncType == "upload" then
      (match offlineRecords
       case None => Failure(ServerError)
       case Some(n) => Success(Uploaded(n, 0, n)))
    else if syncType == "download" then
      (match userId
       case Some(id) => if isObjectId(id) then Success(Downloaded(userId)) else Failure(ServerError)
       case None => Success(Downloaded(None)))
    else if syncType == "conflict_resolution" then
      (match offlineRecords
       case None => Failure(ServerError)
       case Some(n) => Success(Resolved(0, n)))
    else Failure(InvalidSyncType)
  }

  /** Every request that passed the gate carries a user, so behind the gate the sync handler never answers 401. */
  lemma GatedSyncAuthenticated(header: Option<string>, verify: string -> Option<UserId>, store: map<UserId, UserDoc>,
                               userId: Option<string>, isObjectId: string -> bool, offlineRecords: Option<nat>,
                               syncType: string)
    ensures var g := Authenticate(header, verify, store);
            g.Pass? ==> MobileSync(Some(g.user), userId, isObjectId, offlineRecords, syncType) != Failure(AuthenticationRequired)
  {
  }

  /** The totals of `performDataValidation`: all records, and a fixed five of them counted as invalid. */
  datatype ValidationSummary = ValidationSummary(totalRecords: nat, validRecords: int, invalidRecords: nat)

  /** The `validateData` handler over all stored users. */
  function ValidateData(caller: RequestUser, users: seq<UserDoc>): (r: Result<ValidationSummary, HttpError>)
    ensures caller.role != AdminRole ==> r == Failure(AccessDenied)
    ensures caller.role == AdminRole ==> r.Success? && r.value.totalRecords == |users|
    ensures r.Success? ==> r.value.validRecords + r.value.invalidRecords == r.value.totalRecords
    ensures r.Success? ==> (r.value.validRecords < 0 <==> |users| < 5)
  {
    if caller.role != AdminRole then Failure(AccessDenied)
    else Success(ValidationSummary(|users|, |users| - 5, 5))
  }

  /** Every admin-only handler of the controller refuses a non-admin with the same 403 before looking at its input. */
  lemma AdminOnlyHandlers(caller: RequestUser, format: Option<string>, dataType: string, isoTime: string, src: ExportSource,
                          endpoint: string, users: seq<UserDoc>)
    requires caller.role != AdminRole
    ensures AdminOnly(caller) == Some(AccessDenied)
    ensures ExportData(caller, format, dataType, isoTime, src) == Failure(AccessDenied)
    ensures ExternalAPI(caller, endpoint) == Failure(AccessDenied)
    ensures ValidateData(caller, users) == Failure(AccessDenied)
  {
  }
}

=== FILE: migrate_roles.dfy ===
/** The role migration script (backend/scripts/migrateRoles.js): documents
    still carrying a legacy role are selected, their role is renamed and their
    approval fields are set to agree with the new role, and each is saved.
    The store is an array of document values; the database connection and the
    log lines are not modelled, and the logged `migratedCount` is returned.
    Whether the database accepts each save is a parameter: a rejected save
    throws out of the loop into the script's catch block. */
module MigrateRoles {
  import opened Wrappers
  import opened UserModel

  /** The legacy roles the script's query selects. */
  predicate IsLegacy(role: string)
    ensures IsLegacy(role) ==> role != AdminRole && role != OfficerRole && role != BeneficiaryRole
  {
    role == "data_entry" || role == "admin_user" || role == "user"
  }

  /** The `roleMapping` table; every selected role has an entry. */
  function RoleMapping(role: string): (r: Option<string>)
    ensures r.Some? <==> IsLegacy(role)
    ensures r.Some? ==> r.value == AdminRole || r.value == OfficerRole || r.value == BeneficiaryRole
  {
    if role == "data_entry" then Some(OfficerRole)
    else if role == "admin_user" then Some(AdminRole)
    else if role == "user" then Some(BeneficiaryRole)
    else None
  }

  /** What the script leaves in the store for one document: a legacy document gets its new role,
      approval fields that agree with it, and the save time; any other document is left alone. */
  function MigrateDoc(d: UserDoc, now: int): (r: UserDoc)
    ensures !IsLegacy(d.role) ==> r == d
    ensures IsLegacy(d.role) ==> r.role == RoleMapping(d.role).value
    ensures IsLegacy(d.role) ==> ApprovalConsistent(r) && r.updatedAt == now
    ensures IsLegacy(d.role) ==> (r.role == AdminRole || r.role == OfficerRole) == r.isApproved
    ensures IsLegacy(d.role) ==> (r.role == BeneficiaryRole) == (r.approvalStatus == Pending)
    ensures r.(role := d.role, isApproved := d.isApproved, approvalStatus := d.approvalStatus, updatedAt := d.updatedAt) == d
  {
    match RoleMapping(d.role)
    case None => d
    case Some(newRole) =>
      var approved := newRole != BeneficiaryRole;
      d.(role := newRole, isApproved := approved, approvalStatus := if approved then Approved else Pending, updatedAt := now)
  }

  lemma MappingTable()
    ensures RoleMapping("data_entry") == Some(OfficerRole)
    ensures RoleMapping("admin_user") == Some(AdminRole)
    ensures RoleMapping("user") == Some(BeneficiaryRole)
  {
  }

  /** The whole store after the script has run. */
  function MigrateAll(docs: seq<UserDoc>, now: int): (r: seq<UserDoc>)
    ensures |r| == |docs|
  {
    seq(|docs|, i requires 0 <= i < |docs| => MigrateDoc(docs[i], now))
  }

  /** The number of documents with a legacy role. */
  function CountLegacy(docs: seq<UserDoc>): (n: nat)
    ensures n <= |docs|
  {
    if docs == [] then 0
    else CountLegacy(docs[..|docs| - 1]) + (if IsLegacy(docs[|docs| - 1].role) then 1 else 0)
  }

  /** The positions, in store order, of the documents the query returns. */
  function LegacyIndices(docs: seq<UserDoc>): (r: seq<nat>)
    ensures |r| == CountLegacy(docs)
    ensures forall j :: 0 <= j < |r| ==> r[j] < |docs| && IsLegacy(docs[r[j]].role)
    ensures forall j, k :: 0 <= j < k < |r| ==> r[j] < r[k]
    ensures forall i :: 0 <= i < |docs| && IsLegacy(docs[i].role) ==> i in r
  {
    if docs == [] then []
    else
      var n := |docs| - 1;
      var front := LegacyIndices(docs[..n]);
      assert forall j :: 0 <= j < |front| ==> front[j] < n && docs[front[j]] == docs[..n][front[j]];
      assert forall i :: 0 <= i < n ==> docs[i] == docs[..n][i];
      front + (if IsLegacy(docs[n].role) then [n] else [])
  }

  /** After the migration no legacy role is left. */
  lemma {:induction false} NoLegacyLeft(docs: seq<UserDoc>, now: int)
    ensures CountLegacy(MigrateAll(docs, now)) == 0
  {
    if docs != [] {
      var n := |docs| - 1;
      assert MigrateAll(docs, now)[..n] == MigrateAll(docs[..n], now);
      NoLegacyLeft(docs[..n], now);
    }
  }

  /** A store without legacy roles is left exactly as it was. */
  lemma NothingToMigrate(docs: seq<UserDoc>, now: int)
    requires CountLegacy(docs) == 0
    ensures MigrateAll(docs, now) == docs
  {
    var sel := LegacyIndices(docs);
    assert forall i :: 0 <= i < |docs| ==> !IsLegacy(docs[i].role);
  }

  /** Running the script again, at any later time, changes nothing. */
  lemma MigrationIdempotent(docs: seq<UserDoc>, now: int, later: int)
    ensures MigrateAll(MigrateAll(docs, now), later) == MigrateAll(docs, now)
  {
    NoLegacyLeft(docs, now);
    NothingToMigrate(MigrateAll(docs, now), later);
  }

  /** The store once the documents at the `chosen` positions have been migrated. */
  function MigrateAt(docs: seq<UserDoc>, now: int, chosen: seq<nat>): (r: seq<UserDoc>)
    ensures |r| == |docs|
  {
    seq(|docs|, i requires 0 <= i < |docs| => if i in chosen then MigrateDoc(docs[i], now) else docs[i])
  }

  /** Migrating one more position updates that one document. */
  lemma MigrateAtSnoc(docs: seq<UserDoc>, now: int, chosen: seq<nat>, i: nat)
    requires i < |docs|
    ensures MigrateAt(docs, now, chosen + [i]) == MigrateAt(docs, now, chosen)[i := MigrateDoc(docs[i], now)]
  {
    var after := MigrateAt(docs, now, chosen + [i]);
    var updated := MigrateAt(docs, now, chosen)[i := MigrateDoc(docs[i], now)];
    forall k | 0 <= k < |docs| ensures after[k] == updated[k] {
      assert k in chosen + [i] <==> k in chosen || k == i;
    }
  }

  /** The store once the first `m` selected documents have been migrated and
      saved, every other document as it was. */
  function MigrateFirst(docs: seq<UserDoc>, now: int, m: nat): (r: seq<UserDoc>)
    requires m <= CountLegacy(docs)
    ensures |r| == |docs|
  {
    MigrateAt(docs, now, LegacyIndices(docs)[..m])
  }

  /** After `m` saves, the first `m` selected documents carry their migration,
      the selected documents after them and every unselected document are unchanged. */
  lemma MigratedPrefix(docs: seq<UserDoc>, now: int, m: nat)
    requires m <= CountLegacy(docs)
    ensures var r := MigrateFirst(docs, now, m);
            var selected := LegacyIndices(docs);
            (forall j :: 0 <= j < m ==> r[selected[j]] == MigrateDoc(docs[selected[j]], now)) &&
            (forall j :: m <= j < |selected| ==> r[selected[j]] == docs[selected[j]]) &&
            (forall i :: 0 <= i < |docs| && !IsLegacy(docs[i].role) ==> r[i] == docs[i])
  {
    var selected := LegacyIndices(docs);
    assert forall j :: 0 <= j < m ==> selected[j] in selected[..m] by {
      forall j | 0 <= j < m ensures selected[j] in selected[..m] {
        assert selected[..m][j] == selected[j];
      }
    }
    forall j | m <= j < |selected| ensures selected[j] !in selected[..m] {
      forall q | 0 <= q < m ensures selected[..m][q] != selected[j] {
        assert selected[q] < selected[j];
      }
    }
  }

  /** Before any save the store is as the query found it. */
  lemma MigrateFirstNone(docs: seq<UserDoc>, now: int)
    ensures MigrateFirst(docs, now, 0) == docs
  {
    var selected := LegacyIndices(docs);
    assert selected[..0] == [];
  }

  /** One more element of a prefix. */
  lemma PrefixSnoc<T>(s: seq<T>, m: nat)
    requires m < |s|
    ensures s[..m + 1] == s[..m] + [s[m]]
  {
  }

  /** Saving the next selected document updates that one document and nothing else. */
  lemma MigrateFirstStep(docs: seq<UserDoc>, now: int, m: nat)
    requires m < CountLegacy(docs)
    ensures var i := LegacyIndices(docs)[m];
            i < |docs| && IsLegacy(docs[i].role) && MigrateFirst(docs, now, m)[i] == docs[i] &&
            MigrateFirst(docs, now, m + 1) == MigrateFirst(docs, now, m)[i := MigrateDoc(docs[i], now)]
  {
    var selected := LegacyIndices(docs);
    var i := selected[m];
    PrefixSnoc(selected, m);
    MigrateAtSnoc(docs, now, selected[..m], i);
    assert i !in selected[..m] by {
      forall q | 0 <= q < m ensures selected[..m][q] != i {
        assert selected[q] < i;
      }
    }
  }

  /** When every selected document was saved, the store is the fully migrated one. */
  lemma MigrateFirstAll(docs: seq<UserDoc>, now: int)
    ensures MigrateFirst(docs, now, CountLegacy(docs)) == MigrateAll(docs, now)
  {
    var selected := LegacyIndices(docs);
    assert selected[..|selected|] == selected;
  }

  /** The body of the script's loop for one selected document: the new role, approval fields
      that agree with it, and the pre-save hook's timestamp. */
  method Reassign(user: UserDoc, newRole: string, now: int) returns (saved: UserDoc)
    requires RoleMapping(user.role) == Some(newRole)
    ensures saved == MigrateDoc(user, now)
  {
    saved := user.(role := newRole);
    if newRole == AdminRole {
      saved := saved.(isApproved := true, approvalStatus := Approved);
    } else if newRole == OfficerRole {
      saved := saved.(isApproved := true, approvalStatus := Approved);
    } else {
      // beneficiary: left pending for an administrator
      saved := saved.(isApproved := false, approvalStatus := Pending);
    }
    saved := Touched(saved, now);
  }

  /** The script's main loop over the selected documents. `rejectedSave` is
      the position, in the query's order, of the first document whose save the
      database rejects, if any: that save throws, the catch block ends the
      script, and the documents from that one on keep their legacy role.
      `completed` says whether the loop ran to its end. */
  method Migrate(store: array<UserDoc>, now: int, rejectedSave: Option<nat>) returns (migratedCount: nat, completed: bool)
    modifies store
    ensures completed <==> rejectedSave.None? || rejectedSave.value >= CountLegacy(old(store[..]))
    ensures migratedCount == if completed then CountLegacy(old(store[..])) else rejectedSave.value
    ensures store[..] == MigrateFirst(old(store[..]), now, migratedCount)
    ensures completed ==> store[..] == MigrateAll(old(store[..]), now)
  {
    ghost var docs := store[..];
    var oldRoleUsers := LegacyIndices(store[..]);
    MigrateFirstNone(docs, now);
    if |oldRoleUsers| == 0 {
      MigrateFirstAll(docs, now);
      return 0, true;
    }
    migratedCount := 0;
    for j := 0 to |oldRoleUsers|
      invariant migratedCount == j
      invariant rejectedSave.Some? ==> j <= rejectedSave.value
      invariant store[..] == MigrateFirst(docs, now, j)
    {
      var i := oldRoleUsers[j];
      MigrateFirstStep(docs, now, j);
      ghost var before := store[..];
      var newRole := RoleMapping(store[i].role);
      if newRole.Some? {
        var user := Reassign(store[i], newRole.value, now);
        if rejectedSave == Some(j) {
          // the save throws: the store keeps this document as it was
          return migratedCount, false;
        }
        store[i] := user;
        assert store[..] == before[i := user] == MigrateFirst(docs, now, j + 1);
        migratedCount := migratedCount + 1;
      } else {
        // every selected role has an entry in the mapping
        assert false;
      }
    }
    MigrateFirstAll(docs, now);
    completed := true;
  }
}

=== FILE: population.dfy ===
/** Counting over lists of user documents, shared by the analytics and the
    integration controllers: the filter-and-count expressions, the
    projections they filter on, and the two fallbacks the controllers apply
    to missing fields ('Unknown' for a location, 50 for a score). */
module Population {
  import opened Wrappers
  import opened UserModel
  import opened Dict

  /** How many elements equal `x`. */
  function Occurrences<T(==)>(s: seq<T>, x: T): (n: nat)
    ensures n <= |s|
  {
    if s == [] then 0
    else Occurrences(s[..|s| - 1], x) + (if s[|s| - 1] == x then 1 else 0)
  }

  /** How many elements differ from `x`. */
  function CountOther<T(==)>(s: seq<T>, x: T): (n: nat)
    ensures n <= |s|
  {
    if s == [] then 0
    else CountOther(s[..|s| - 1], x) + (if s[|s| - 1] != x then 1 else 0)
  }

  lemma OccurrencesAppend<T>(s: seq<T>, y: T, x: T)
    ensures Occurrences(s + [y], x) == Occurrences(s, x) + (if y == x then 1 else 0)
  {
    assert (s + [y])[..|s|] == s;
  }

  /** Every element either equals `x` or is counted among the others. */
  lemma {:induction false} OthersComplement<T>(s: seq<T>, x: T)
    ensures CountOther(s, x) + Occurrences(s, x) == |s|
  {
    if s != [] {
      OthersComplement(s[..|s| - 1], x);
    }
  }

  /** Elements equal to `a` and elements equal to `b` are among those different from `x`. */
  lemma {:induction false} TwoAmongOthers<T>(s: seq<T>, x: T, a: T, b: T)
    requires a != x && b != x && a != b
    ensures Occurrences(s, a) + Occurrences(s, b) <= CountOther(s, x)
  {
    if s != [] {
      TwoAmongOthers(s[..|s| - 1], x, a, b);
    }
  }

  /** Three distinct values together occur at most as often as the sequence is long. */
  lemma {:induction false} ThreeAtMost<T>(s: seq<T>, a: T, b: T, c: T)
    requires a != b && b != c && a != c
    ensures Occurrences(s, a) + Occurrences(s, b) + Occurrences(s, c) <= |s|
  {
    if s != [] {
      ThreeAtMost(s[..|s| - 1], a, b, c);
    }
  }

  /** When every element is one of three distinct values, their counts add up to the length. */
  lemma {:induction false} PartitionOfThree<T>(s: seq<T>, a: T, b: T, c: T)
    requires a != b && b != c && a != c
    requires forall i :: 0 <= i < |s| ==> s[i] == a || s[i] == b || s[i] == c
    ensures Occurrences(s, a) + Occurrences(s, b) + Occurrences(s, c) == |s|
  {
    if s != [] {
      var n := |s| - 1;
      assert forall i :: 0 <= i < n ==> s[..n][i] == s[i];
      PartitionOfThree(s[..n], a, b, c);
    }
  }

  /** When every element is one of four distinct values, their counts add up to the length. */
  lemma {:induction false} PartitionOfFour<T>(s: seq<T>, a: T, b: T, c: T, d: T)
    requires a != b && a != c && a != d && b != c && b != d && c != d
    requires forall i :: 0 <= i < |s| ==> s[i] == a || s[i] == b || s[i] == c || s[i] == d
    ensures Occurrences(s, a) + Occurrences(s, b) + Occurrences(s, c) + Occurrences(s, d) == |s|
  {
    if s != [] {
      var n := |s| - 1;
      assert forall i :: 0 <= i < n ==> s[..n][i] == s[i];
      PartitionOfFour(s[..n], a, b, c, d);
    }
  }

  // ---------------------------------------------------------------------
  // Projections

  function Roles(users: seq<UserDoc>): (r: seq<string>)
    ensures |r| == |users| && forall i :: 0 <= i < |users| ==> r[i] == users[i].role
  {
    seq(|users|, i requires 0 <= i < |users| => users[i].role)
  }

  function ApprovalStatuses(users: seq<UserDoc>): (r: seq<ApprovalStatus>)
    ensures |r| == |users| && forall i :: 0 <= i < |users| ==> r[i] == users[i].approvalStatus
  {
    seq(|users|, i requires 0 <= i < |users| => users[i].approvalStatus)
  }

  function AppealStatuses(users: seq<UserDoc>): (r: seq<AppealStatus>)
    ensures |r| == |users| && forall i :: 0 <= i < |users| ==> r[i] == users[i].appealStatus
  {
    seq(|users|, i requires 0 <= i < |users| => users[i].appealStatus)
  }

  function RiskLevels(users: seq<UserDoc>): (r: seq<RiskLevel>)
    ensures |r| == |users| && forall i :: 0 <= i < |users| ==> r[i] == users[i].riskLevel
  {
    seq(|users|, i requires 0 <= i < |users| => users[i].riskLevel)
  }

  /** The location a user is grouped under: a missing or empty location is grouped under 'Unknown'. */
  function LocationKey(u: UserDoc): (k: string)
    ensures k != ""
    ensures (u.location.None? || u.location.value == "") ==> k == "Unknown"
    ensures u.location.Some? && u.location.value != "" ==> k == u.location.value
  {
    match u.location
    case None => "Unknown"
    case Some(l) => if l == "" then "Unknown" else l
  }

  function LocationKeys(users: seq<UserDoc>): (r: seq<string>)
    ensures |r| == |users| && forall i :: 0 <= i < |users| ==> r[i] == LocationKey(users[i])
  {
    seq(|users|, i requires 0 <= i < |users| => LocationKey(users[i]))
  }

  /** The score the controllers collect for a user: a zero score reads as 50, as a missing one would. */
  function ScoreOr50(u: UserDoc): (s: int)
    ensures s != 0
    ensures u.trustScore != 0 ==> s == u.trustScore
  {
    if u.trustScore == 0 then 50 else u.trustScore
  }

  /** The users whose role is beneficiary, in the same order. */
  function Beneficiaries(users: seq<UserDoc>): (r: seq<UserDoc>)
    ensures |r| == Occurrences(Roles(users), BeneficiaryRole)
    ensures forall i :: 0 <= i < |r| ==> r[i].role == BeneficiaryRole && r[i] in users
  {
    if users == [] then []
    else
      var n := |users| - 1;
      assert Roles(users) == Roles(users[..n]) + [users[n].role];
      OccurrencesAppend(Roles(users[..n]), users[n].role, BeneficiaryRole);
      Beneficiaries(users[..n]) + (if users[n].role == BeneficiaryRole then [users[n]] else [])
  }

  /** The users whose approval status is approved, in the same order. */
  function ApprovedUsers(users: seq<UserDoc>): (r: seq<UserDoc>)
    ensures |r| == Occurrences(ApprovalStatuses(users), Approved)
    ensures forall i :: 0 <= i < |r| ==> r[i].approvalStatus == Approved && r[i] in users
  {
    if users == [] then []
    else
      var n := |users| - 1;
      assert ApprovalStatuses(users) == ApprovalStatuses(users[..n]) + [users[n].approvalStatus];
      OccurrencesAppend(ApprovalStatuses(users[..n]), users[n].approvalStatus, Approved);
      ApprovedUsers(users[..n]) + (if users[n].approvalStatus == Approved then [users[n]] else [])
  }

  /** The positions of the beneficiaries among the users, in increasing order. */
  function BeneficiaryPositions(users: seq<UserDoc>): (p: seq<nat>)
    ensures forall j :: 0 <= j < |p| ==> p[j] < |users|
    ensures forall j, k :: 0 <= j < k < |p| ==> p[j] < p[k]
    ensures forall i :: 0 <= i < |users| ==> (users[i].role == BeneficiaryRole <==> i in p)
  {
    if users == [] then []
    else
      var n := |users| - 1;
      var front := users[..n];
      var p0 := BeneficiaryPositions(front);
      var last: seq<nat> := if users[n].role == BeneficiaryRole then [n] else [];
      assert forall i :: 0 <= i < n ==> users[i] == front[i];
      assert forall i :: i in p0 + last <==> i in p0 || i in last;
      p0 + last
  }

  /** `Beneficiaries` is the order-preserving filter: its elements are the users
      at the beneficiaries' positions, in order. */
  lemma {:induction false} BeneficiariesIsFilter(users: seq<UserDoc>)
    ensures var r := Beneficiaries(users);
            var p := BeneficiaryPositions(users);
            |p| == |r| && forall j :: 0 <= j < |p| ==> r[j] == users[p[j]]
  {
    if users != [] {
      var n := |users| - 1;
      var front := users[..n];
      BeneficiariesIsFilter(front);
      var r0 := Beneficiaries(front);
      var p0 := BeneficiaryPositions(front);
      var r := Beneficiaries(users);
      var p := BeneficiaryPositions(users);
      assert r == r0 + (if users[n].role == BeneficiaryRole then [users[n]] else []);
      assert p == p0 + (if users[n].role == BeneficiaryRole then [n] else []);
      forall j | 0 <= j < |p| ensures r[j] == users[p[j]] {
        if j < |p0| {
          assert p[j] == p0[j] && r[j] == r0[j] == front[p0[j]];
        }
      }
    }
  }

  // ---------------------------------------------------------------------
  // Vulnerability factors

  /** The nine factors both controllers count, in their listed order. */
  const VulnerabilityFactors: seq<string> := [
    "Refugee/Displaced", "LGBTQ+", "Person with Disability",
    "Low Income", "Creative/Artist", "Rural Community",
    "Youth (18-25)", "Single Parent", "Unemployed"]

  /** How many users list `factor` among their vulnerability factors (a user without the list counts as not listing it). */
  function FactorCount(users: seq<UserDoc>, factor: string): (n: nat)
    ensures n <= |users|
  {
    if users == [] then 0
    else FactorCount(users[..|users| - 1], factor) + (if factor in users[|users| - 1].vulnerabilityFactors then 1 else 0)
  }

  /** The dictionary `calculateVulnerabilityDistribution` builds: one slot per factor, in factor order. */
  function Distribution(users: seq<UserDoc>): (d: seq<Slot<nat>>)
    ensures Keys(d) == VulnerabilityFactors
    ensures forall i :: 0 <= i < |d| ==> d[i].val == FactorCount(users, d[i].key) <= |users|
  {
    seq(|VulnerabilityFactors|, i requires 0 <= i < |VulnerabilityFactors| =>
      Slot(VulnerabilityFactors[i], FactorCount(users, VulnerabilityFactors[i])))
  }

  lemma FactorsDistinct()
    ensures forall i, j :: 0 <= i < j < |VulnerabilityFactors| ==> VulnerabilityFactors[i] != VulnerabilityFactors[j]
  {
  }

  /** `calculateVulnerabilityDistribution`: one slot per factor, in factor order, counting the users that list it. */
  method VulnerabilityDistribution(users: seq<UserDoc>) returns (distribution: seq<Slot<nat>>)
    ensures distribution == Distribution(users)
  {
    distribution := [];
    FactorsDistinct();
    for i := 0 to |VulnerabilityFactors|
      invariant distribution == Distribution(users)[..i]
    {
      var factor := VulnerabilityFactors[i];
      assert Keys(distribution) == VulnerabilityFactors[..i];
      PutNewKey(distribution, factor, FactorCount(users, factor));
      distribution := Put(distribution, factor, FactorCount(users, factor));
    }
  }

  /** Users whose score, with a missing or zero score read as 50, is at least 80. */
  function HighTrustCount(users: seq<UserDoc>): (n: nat)
    ensures n <= |users|
  {
    if users == [] then 0
    else HighTrustCount(users[..|users| - 1]) + (if ScoreOr50(users[|users| - 1]) >= 80 then 1 else 0)
  }

  /** Users whose `isApproved` flag is set. */
  function ActiveCount(users: seq<UserDoc>): (n: nat)
    ensures n <= |users|
  {
    if users == [] then 0
    else ActiveCount(users[..|users| - 1]) + (if users[|users| - 1].isApproved then 1 else 0)
  }

  /** The sum of the users' scores, each missing or zero score read as 50. */
  function ScoreSum(users: seq<UserDoc>): int
  {
    if users == [] then 0 else ScoreSum(users[..|users| - 1]) + ScoreOr50(users[|users| - 1])
  }

  /** With every score within the schema's bounds 0..100, the scores collected (a zero read as 50) add up to between one and a hundred per user, so their mean lies within 1..100. */
  lemma {:induction false} ScoreSumBounds(users: seq<UserDoc>)
    requires forall i :: 0 <= i < |users| ==> 0 <= users[i].trustScore <= 100
    ensures |users| <= ScoreSum(users) <= 100 * |users|
  {
    if users != [] {
      ScoreSumBounds(users[..|users| - 1]);
    }
  }

  /** Users with a verified email or phone. */
  function ContactVerifiedCount(users: seq<UserDoc>): (n: nat)
    ensures n <= |users|
  {
    if users == [] then 0
    else
      var v := users[|users| - 1].verificationData;
      ContactVerifiedCount(users[..|users| - 1]) + (if v.emailVerified || v.phoneVerified then 1 else 0)
  }

  /** Every user has a verified email or phone exactly when all of them are counted. */
  lemma {:induction false} AllContactVerified(users: seq<UserDoc>)
    ensures ContactVerifiedCount(users) == |users| <==>
            forall i :: 0 <= i < |users| ==> users[i].verificationData.emailVerified || users[i].verificationData.phoneVerified
  {
    if users != [] {
      var n := |users| - 1;
      AllContactVerified(users[..n]);
      assert forall i :: 0 <= i < n ==> users[..n][i] == users[i];
    }
  }

  /** Users with a verified email. */
  function EmailVerifiedCount(users: seq<UserDoc>): (n: nat)
    ensures n <= |users|
    ensures n <= ContactVerifiedCount(users)
  {
    if users == [] then 0
    else EmailVerifiedCount(users[..|users| - 1]) + (if users[|users| - 1].verificationData.emailVerified then 1 else 0)
  }

  /** Users with a verified email, phone or identity document. */
  function AnyVerifiedCount(users: seq<UserDoc>): (n: nat)
    ensures n <= |users|
    ensures n >= ContactVerifiedCount(users)
  {
    if users == [] then 0
    else
      var v := users[|users| - 1].verificationData;
      AnyVerifiedCount(users[..|users| - 1]) + (if v.emailVerified || v.phoneVerified || v.idDocumentVerified then 1 else 0)
  }

  // ---------------------------------------------------------------------
  // Risk levels

  /** The low, medium and high counts of `calculateRiskAssessment` and `calculateRiskAnalysis`. */
  datatype RiskTotals = RiskTotals(low: nat, medium: nat, high: nat)

  function RiskTotalsOf(users: seq<UserDoc>): (t: RiskTotals)
    ensures t.low + t.medium + t.high == |users|
    ensures t.low == Occurrences(RiskLevels(users), Low) && t.high == Occurrences(RiskLevels(users), High)
  {
    var levels := RiskLevels(users);
    PartitionOfThree(levels, Low, Medium, High);
    RiskTotals(Occurrences(levels, Low), Occurrences(levels, Medium), Occurrences(levels, High))
  }
}

=== FILE: text.dfy ===
/** String helpers standing for the JavaScript built-ins the core relies on:
    `Array.prototype.join`, `String.prototype.split` and
    `String.prototype.replace` with a string pattern,
    `String.prototype.toLowerCase` and number-to-string conversion. */
module Text {
  import opened Wrappers

  /** The summed length of the parts. */
  function TotalLength(parts: seq<string>): nat
  {
    if parts == [] then 0 else |parts[0]| + TotalLength(parts[1..])
  }

  /** `parts.join(sep)` for a one-character separator: the parts in order,
      one separator between each two, none before the first or after the last. */
  function Join(parts: seq<string>, sep: char): (r: string)
    ensures parts == [] ==> r == ""
    ensures |parts| >= 1 ==> |r| == TotalLength(parts) + |parts| - 1
    ensures |parts| >= 1 ==> r[..|parts[0]|] == parts[0]
    ensures |parts| >= 2 ==> r[|parts[0]|] == sep
  {
    if |parts| == 0 then ""
    else if |parts| == 1 then parts[0]
    else parts[0] + [sep] + Join(parts[1..], sep)
  }

  /** Joining one part gives that part; joining two puts the separator between them. */
  lemma JoinOneOrTwo(a: string, b: string, sep: char)
    ensures Join([a], sep) == a
    ensures Join([a, b], sep) == a + [sep] + b
  {
    assert [a, b][1..] == [b];
  }

  /** `s.split(sep)` for a one-character separator: cuts `s` at every
      occurrence of `sep`; there is always at least one part. */
  function Split(s: string, sep: char): (parts: seq<string>)
    ensures |parts| >= 1
    ensures sep !in parts[0] && |parts[0]| <= |s| && s[..|parts[0]|] == parts[0]
  {
    if s == [] then [""]
    else
      var rest := Split(s[1..], sep);
      if s[0] == sep then [""] + rest
      else [[s[0]] + rest[0]] + rest[1..]
  }

  lemma {:induction false} SplitWithoutSeparator(p: string, sep: char)
    requires sep !in p
    ensures Split(p, sep) == [p]
  {
    if p != [] {
      assert p[0] != sep && sep !in p[1..];
      SplitWithoutSeparator(p[1..], sep);
      assert [p[0]] + p[1..] == p;
    }
  }

  lemma {:induction false} SplitAfterFirstPart(p: string, t: string, sep: char)
    requires sep !in p
    ensures Split(p + [sep] + t, sep) == [p] + Split(t, sep)
  {
    if p == [] {
      assert p + [sep] + t == [sep] + t;
    } else {
      var s := p + [sep] + t;
      assert s[0] == p[0] != sep;
      assert s[1..] == p[1..] + [sep] + t;
      SplitAfterFirstPart(p[1..], t, sep);
      assert [p[0]] + p[1..] == p;
    }
  }

  /** Joining parts that do not contain the separator can be undone by splitting. */
  lemma {:induction false} SplitJoin(parts: seq<string>, sep: char)
    requires |parts| >= 1
    requires forall i :: 0 <= i < |parts| ==> sep !in parts[i]
    ensures Split(Join(parts, sep), sep) == parts
  {
    if |parts| == 1 {
      SplitWithoutSeparator(parts[0], sep);
    } else {
      SplitJoin(parts[1..], sep);
      SplitAfterFirstPart(parts[0], Join(parts[1..], sep), sep);
    }
  }

  /** A character absent from every part and different from the separator is absent from the join. */
  lemma {:induction false} JoinAvoids(parts: seq<string>, sep: char, c: char)
    requires c != sep
    requires forall i :: 0 <= i < |parts| ==> c !in parts[i]
    ensures c !in Join(parts, sep)
  {
    if |parts| > 1 {
      JoinAvoids(parts[1..], sep, c);
    }
  }

  /** Lower-cases the ASCII letters A-Z; every other character is kept. */
  function ToLower(s: string): (r: string)
    ensures |r| == |s|
    ensures forall i :: 0 <= i < |s| ==> r[i] == LowerChar(s[i])
  {
    if s == [] then [] else [LowerChar(s[0])] + ToLower(s[1..])
  }

  function LowerChar(c: char): char
  {
    if 'A' <= c <= 'Z' then (c as int + 32) as char else c
  }

  lemma ToLowerIdempotent(s: string)
    ensures ToLower(ToLower(s)) == ToLower(s)
  {
  }

  /** `s` contains `pat` starting at position `i`. */
  predicate OccursAt(s: string, pat: string, i: nat)
  {
    i + |pat| <= |s| && s[i..i + |pat|] == pat
  }

  /** The first position at or after `from` where `pat` occurs in `s`. */
  function FirstOccurrence(s: string, pat: string, from: nat): (r: Option<nat>)
    requires from <= |s|
    decreases |s| - from
    ensures r.Some? ==> from <= r.value && OccursAt(s, pat, r.value)
    ensures r.Some? ==> forall j :: from <= j < r.value ==> !OccursAt(s, pat, j)
    ensures r.None? ==> forall j :: from <= j <= |s| ==> !OccursAt(s, pat, j)
  {
    if OccursAt(s, pat, from) then Some(from)
    else if from == |s| then None
    else FirstOccurrence(s, pat, from + 1)
  }

  /** String replacement with a string pattern: only the first occurrence of `pat` is replaced. */
  function ReplaceFirst(s: string, pat: string, replacement: string): (r: string)
    ensures FirstOccurrence(s, pat, 0).None? ==> r == s
    ensures FirstOccurrence(s, pat, 0).Some? ==>
              var i := FirstOccurrence(s, pat, 0).value;
              |r| == |s| - |pat| + |replacement| && r[..i] == s[..i] && r[i + |replacement|..] == s[i + |pat|..]
    ensures OccursAt(s, pat, 0) ==> r == replacement + s[|pat|..]
  {
    match FirstOccurrence(s, pat, 0)
    case None => s
    case Some(i) => s[..i] + replacement + s[i + |pat|..]
  }

  /** Every character is a decimal digit. */
  predicate IsDigits(s: string)
  {
    forall i :: 0 <= i < |s| ==> '0' <= s[i] <= '9'
  }

  function DigitChar(d: nat): char
    requires d < 10
  {
    ('0' as int + d) as char
  }

  /** The number a string of decimal digits denotes, most significant digit first. */
  function DigitsValue(s: string): nat
    requires IsDigits(s)
  {
    if s == [] then 0 else DigitsValue(s[..|s| - 1]) * 10 + (s[|s| - 1] as int - '0' as int)
  }

  /** The decimal digits of `n`, as `String(n)` prints a non-negative integer:
      they denote `n`, and there is no leading zero. */
  function NatToString(n: nat): (r: string)
    ensures |r| >= 1 && IsDigits(r)
    ensures DigitsValue(r) == n
    ensures r[0] == '0' ==> r == "0"
  {
    if n < 10 then
      assert [DigitChar(n)][..0] == [];
      [DigitChar(n)]
    else
      var front := NatToString(n / 10);
      assert (front + [DigitChar(n % 10)])[..|front|] == front;
      front + [DigitChar(n % 10)]
  }

  /** `String(n)` for an integer-valued number: a minus sign before the digits of a negative number. */
  function IntToString(n: int): (r: string)
    ensures n >= 0 ==> IsDigits(r) && DigitsValue(r) == n
    ensures n < 0 ==> |r| >= 2 && r[0] == '-' && IsDigits(r[1..]) && DigitsValue(r[1..]) == -n
  {
    if n < 0 then
      assert ("-" + NatToString(-n))[1..] == NatToString(-n);
      "-" + NatToString(-n)
    else NatToString(n)
  }
}

=== FILE: user_model.dfy ===
/** The user document of the identity store (backend/models/User.js): the
    schema's enumerations and defaults, the trust score computed from
    verification evidence and role, the risk tier derived from the stored
    score, and the document object whose methods update it in place. */
module UserModel {
  import opened Wrappers

  const AdminRole: string := "admin"
  const OfficerRole: string := "officer"
  const BeneficiaryRole: string := "beneficiary"

  /** The `approvalStatus` enumeration. */
  datatype ApprovalStatus = Pending | Approved | Rejected | UnderReview

  /** The `appealStatus` enumeration ('none', 'pending', 'approved', 'rejected'). */
  datatype AppealStatus = AppealNone | AppealPending | AppealApproved | AppealRejected

  /** The `riskLevel` enumeration. */
  datatype RiskLevel = Low | Medium | High

  /** A reference or an uploaded document; only its `verified` flag is scored. */
  datatype Attestation = Attestation(verified: bool)

  /** The `verificationData` sub-document. */
  datatype Verification = Verification(
    idDocumentVerified: bool,
    phoneVerified: bool,
    emailVerified: bool,
    locationVerified: bool,
    references: seq<Attestation>,
    documents: seq<Attestation>)

  /** `verificationData` with every schema default: no flag set, no entries. */
  const NoEvidence: Verification := Verification(false, false, false, false, [], [])

  /** The stored fields of a user document that the core reads or writes.
      `role` is a string: documents written before the current enumeration
      still carry the legacy names the migration script rewrites. */
  datatype UserDoc = UserDoc(
    role: string,
    isApproved: bool,
    approvalStatus: ApprovalStatus,
    appealStatus: AppealStatus,
    trustScore: int,
    riskLevel: RiskLevel,
    verificationData: Verification,
    location: Option<string>,
    vulnerabilityFactors: seq<string>,
    createdAt: int,
    updatedAt: int)

  // ---------------------------------------------------------------------
  // Trust score

  /** How many of the entries are marked verified. */
  function VerifiedCount(entries: seq<Attestation>): (n: nat)
    ensures n <= |entries|
  {
    if entries == [] then 0
    else (if entries[0].verified then 1 else 0) + VerifiedCount(entries[1..])
  }

  /** Points earned by verification evidence before the role adjustment:
      nothing without evidence, and at most 40 for the four flags plus 5 per
      reference and 3 per document. */
  function EvidencePoints(v: Verification): (p: nat)
    ensures v == NoEvidence ==> p == 0
    ensures p <= 40 + 5 * |v.references| + 3 * |v.documents|
  {
    (if v.emailVerified then 10 else 0)
    + (if v.phoneVerified then 10 else 0)
    + (if v.locationVerified then 5 else 0)
    + (if v.idDocumentVerified then 15 else 0)
    + VerifiedCount(v.references) * 5
    + VerifiedCount(v.documents) * 3
  }

  /** The role-based adjustment: officers +10, admins +20, any other role 0. */
  function RoleBonus(role: string): (b: nat)
    ensures b <= 20
    ensures b == 0 <==> role != OfficerRole && role != AdminRole
  {
    if role == OfficerRole then 10 else if role == AdminRole then 20 else 0
  }

  /** The accumulated `score` before the final clamp: never below the base 50,
      and exactly 50 only without evidence points or role bonus. */
  function RawScore(role: string, v: Verification): (score: int)
    ensures score >= 50
    ensures score == 50 <==> EvidencePoints(v) == 0 && RoleBonus(role) == 0
  {
    50 + EvidencePoints(v) + RoleBonus(role)
  }

  function Min(a: int, b: int): int { if a <= b then a else b }
  function Max(a: int, b: int): int { if a >= b then a else b }

  /** `calculateTrustScore`: the raw score clamped to the range 0..100.
      The result is never below the base 50, so only the upper bound can bite. */
  function TrustScore(role: string, v: Verification): (score: int)
    ensures 50 <= score <= 100
  {
    Min(100, Max(0, RawScore(role, v)))
  }

  /** The lower clamp never applies: the score is the raw score capped at 100. */
  lemma TrustScoreIsCappedRawScore(role: string, v: Verification)
    ensures RawScore(role, v) >= 50
    ensures TrustScore(role, v) == if RawScore(role, v) <= 100 then RawScore(role, v) else 100
  {
  }

  /** With no verified evidence the score is 50, 60 or 70 by role; a role outside the enumeration scores like a beneficiary. */
  lemma BaselineScores(role: string)
    ensures TrustScore(BeneficiaryRole, NoEvidence) == 50
    ensures TrustScore(OfficerRole, NoEvidence) == 60
    ensures TrustScore(AdminRole, NoEvidence) == 70
    ensures role != OfficerRole && role != AdminRole ==> TrustScore(role, NoEvidence) == 50
  {
  }

  /** A beneficiary with email, phone and identity document verified scores 85 and is low risk. */
  lemma EmailPhoneIdBeneficiaryScores85()
    ensures TrustScore(BeneficiaryRole, Verification(true, true, true, false, [], [])) == 85
    ensures RiskTier(TrustScore(BeneficiaryRole, Verification(true, true, true, false, [], []))) == Low
  {
  }

  lemma {:induction false} VerifiedCountConcat(s: seq<Attestation>, t: seq<Attestation>)
    ensures VerifiedCount(s + t) == VerifiedCount(s) + VerifiedCount(t)
  {
    if s == [] {
      assert s + t == t;
    } else {
      assert (s + t)[1..] == s[1..] + t;
      VerifiedCountConcat(s[1..], t);
    }
  }

  lemma {:induction false} UnverifiedCountZero(s: seq<Attestation>)
    requires forall i :: 0 <= i < |s| ==> !s[i].verified
    ensures VerifiedCount(s) == 0
  {
    if s != [] {
      UnverifiedCountZero(s[1..]);
    }
  }

  /** Setting one verification flag raises the raw score by that flag's bonus:
      email 10, phone 10, location 5, identity document 15. */
  lemma SettingAFlag(role: string, v: Verification)
    ensures !v.emailVerified ==> RawScore(role, v.(emailVerified := true)) == RawScore(role, v) + 10
    ensures !v.phoneVerified ==> RawScore(role, v.(phoneVerified := true)) == RawScore(role, v) + 10
    ensures !v.locationVerified ==> RawScore(role, v.(locationVerified := true)) == RawScore(role, v) + 5
    ensures !v.idDocumentVerified ==> RawScore(role, v.(idDocumentVerified := true)) == RawScore(role, v) + 15
  {
  }

  /** Each added reference is worth 5 points if verified and nothing otherwise. */
  lemma AddingReference(role: string, v: Verification, r: Attestation)
    ensures RawScore(role, v.(references := v.references + [r]))
         == RawScore(role, v) + (if r.verified then 5 else 0)
  {
    VerifiedCountConcat(v.references, [r]);
    assert VerifiedCount([r]) == (if r.verified then 1 else 0);
  }

  /** Each added document is worth 3 points if verified and nothing otherwise. */
  lemma AddingDocument(role: string, v: Verification, d: Attestation)
    ensures RawScore(role, v.(documents := v.documents + [d]))
         == RawScore(role, v) + (if d.verified then 3 else 0)
  {
    VerifiedCountConcat(v.documents, [d]);
    assert VerifiedCount([d]) == (if d.verified then 1 else 0);
  }

  /** Unverified references and documents, however many, leave the score unchanged. */
  lemma UnverifiedEntriesAddNothing(role: string, v: Verification, refs: seq<Attestation>, docs: seq<Attestation>)
    requires forall i :: 0 <= i < |refs| ==> !refs[i].verified
    requires forall i :: 0 <= i < |docs| ==> !docs[i].verified
    ensures TrustScore(role, v.(references := v.references + refs, documents := v.documents + docs))
         == TrustScore(role, v)
  {
    var extended := v.(references := v.references + refs, documents := v.documents + docs);
    VerifiedCountConcat(v.references, refs);
    VerifiedCountConcat(v.documents, docs);
    UnverifiedCountZero(refs);
    UnverifiedCountZero(docs);
    assert EvidencePoints(extended) == EvidencePoints(v);
  }

  // ---------------------------------------------------------------------
  // Documents as the schema declares them

  /** `verificationData` as the schema declares it. The element of
      `documents` has a key named `type` whose value is a schema type, so
      the whole element is read as that type: `documents` is an array of
      strings, and a stored document carries no `verified` flag. */
  datatype StoredVerification = StoredVerification(
    idDocumentVerified: bool,
    phoneVerified: bool,
    emailVerified: bool,
    locationVerified: bool,
    references: seq<Attestation>,
    documents: seq<string>)

  /** The `verified` property of a string: undefined, which is falsy. */
  predicate StringVerified(doc: string)
  {
    false
  }

  /** How many stored documents pass the `doc.verified` filter. */
  function StoredVerifiedCount(documents: seq<string>): (n: nat)
    ensures n <= |documents|
  {
    if documents == [] then 0
    else (if StringVerified(documents[0]) then 1 else 0) + StoredVerifiedCount(documents[1..])
  }

  lemma {:induction false} StoredDocumentsNeverVerified(documents: seq<string>)
    ensures StoredVerifiedCount(documents) == 0
  {
    if documents != [] {
      StoredDocumentsNeverVerified(documents[1..]);
    }
  }

  /** Every scored field of the stored data except the documents, in the corrected form. */
  function WithoutDocuments(v: StoredVerification): Verification
  {
    Verification(v.idDocumentVerified, v.phoneVerified, v.emailVerified, v.locationVerified, v.references, [])
  }

  /** `calculateTrustScore` over the data as the schema stores it: every
      term as in `RawScore`, and 3 points per stored document that passes
      the `verified` filter. */
  function RawScoreAsWritten(role: string, v: StoredVerification): (score: int)
    ensures score >= 50
  {
    RawScore(role, WithoutDocuments(v)) + StoredVerifiedCount(v.documents) * 3
  }

  function TrustScoreAsWritten(role: string, v: StoredVerification): (score: int)
    ensures 50 <= score <= 100
  {
    Min(100, Max(0, RawScoreAsWritten(role, v)))
  }

  /** As written, the documents never count: the score is the corrected
      score of the same data with no documents at all. */
  lemma AsWrittenIgnoresDocuments(role: string, v: StoredVerification)
    ensures RawScoreAsWritten(role, v) == RawScore(role, WithoutDocuments(v))
    ensures TrustScoreAsWritten(role, v) == TrustScore(role, WithoutDocuments(v))
  {
    StoredDocumentsNeverVerified(v.documents);
  }

  /** As written, uploading a document never changes the score. */
  lemma StoredDocumentAddsNothing(role: string, v: StoredVerification, d: string)
    ensures TrustScoreAsWritten(role, v.(documents := v.documents + [d])) == TrustScoreAsWritten(role, v)
  {
    AsWrittenIgnoresDocuments(role, v);
    AsWrittenIgnoresDocuments(role, v.(documents := v.documents + [d]));
  }

  /** A beneficiary with one verified document and nothing else: the
      corrected schema scores it 53, the schema as written 50. */
  lemma VerifiedDocumentUnscored()
    ensures TrustScore(BeneficiaryRole, NoEvidence.(documents := [Attestation(true)])) == 53
    ensures TrustScoreAsWritten(BeneficiaryRole, StoredVerification(false, false, false, false, [], ["passport.pdf"])) == 50
  {
    AddingDocument(BeneficiaryRole, NoEvidence, Attestation(true));
    BaselineScores(BeneficiaryRole);
    AsWrittenIgnoresDocuments(BeneficiaryRole, StoredVerification(false, false, false, false, [], ["passport.pdf"]));
  }

  // ---------------------------------------------------------------------
  // Risk tier

  /** The threshold table of `updateRiskLevel`. */
  function RiskTier(score: int): (level: RiskLevel)
    ensures level == Low <==> 80 <= score
    ensures level == Medium <==> 50 <= score < 80
    ensures level == High <==> score < 50
  {
    if score >= 80 then Low else if score >= 50 then Medium else High
  }

  /** Orders the tiers from least (0) to most (2) risky. */
  function RiskRank(level: RiskLevel): nat
  {
    match level
    case Low => 0
    case Medium => 1
    case High => 2
  }

  /** A higher score never yields a riskier tier. */
  lemma RiskTierAntitone(a: int, b: int)
    requires a <= b
    ensures RiskRank(RiskTier(b)) <= RiskRank(RiskTier(a))
  {
  }

  /** A computed trust score is never in the high-risk band. */
  lemma ComputedScoreNeverHighRisk(role: string, v: Verification)
    ensures RiskTier(TrustScore(role, v)) != High
  {
  }

  // ---------------------------------------------------------------------
  // Record invariants and schema defaults

  /** `isApproved` agrees with `approvalStatus`. */
  predicate ApprovalConsistent(d: UserDoc)
  {
    d.isApproved == (d.approvalStatus == Approved)
  }

  /** `riskLevel` is the tier of the stored `trustScore`. */
  predicate RiskConsistent(d: UserDoc)
  {
    d.riskLevel == RiskTier(d.trustScore)
  }

  /** A freshly constructed document: the schema defaults for every field the caller does not give. */
  function NewDoc(requestedRole: Option<string>, verificationData: Verification, location: Option<string>,
                  vulnerabilityFactors: seq<string>, now: int): (d: UserDoc)
    ensures ApprovalConsistent(d) && !d.isApproved && d.approvalStatus == Pending
    ensures RiskConsistent(d) && 0 <= d.trustScore <= 100
    ensures d.trustScore == 50 && d.riskLevel == Medium
    ensures d.appealStatus == AppealNone
    ensures requestedRole.None? ==> d.role == BeneficiaryRole
    ensures requestedRole.Some? ==> d.role == requestedRole.value
    ensures d.verificationData == verificationData && d.location == location
    ensures d.vulnerabilityFactors == vulnerabilityFactors
    ensures d.createdAt == now && d.updatedAt == now
  {
    UserDoc(requestedRole.GetOr(BeneficiaryRole), false, Pending, AppealNone, 50, Medium,
            verificationData, location, vulnerabilityFactors, now, now)
  }

  /** The default score 50 equals the computed score exactly when the raw score is 50,
      that is, for a role other than officer or admin without verified evidence. */
  lemma DefaultScoreMatchesComputedIff(requestedRole: Option<string>, v: Verification, location: Option<string>,
                                       factors: seq<string>, now: int)
    ensures var d := NewDoc(requestedRole, v, location, factors, now);
            d.trustScore == TrustScore(d.role, v) <==> RawScore(d.role, v) == 50
  {
  }

  /** The pre-save hook applied to a document value: `updatedAt` becomes the save time and nothing else changes. */
  function Touched(d: UserDoc, now: int): (r: UserDoc)
    ensures r.updatedAt == now
    ensures r.(updatedAt := d.updatedAt) == d
  {
    d.(updatedAt := now)
  }

  /** A user document as a Mongoose object: its methods update its fields in place. */
  class User {
    var role: string
    var isApproved: bool
    var approvalStatus: ApprovalStatus
    var appealStatus: AppealStatus
    var trustScore: int
    var riskLevel: RiskLevel
    var verificationData: Verification
    var location: Option<string>
    var vulnerabilityFactors: seq<string>
    var createdAt: int
    var updatedAt: int

    /** The document's current field values. */
    function Doc(): UserDoc
      reads this
    {
      UserDoc(role, isApproved, approvalStatus, appealStatus, trustScore, riskLevel,
              verificationData, location, vulnerabilityFactors, createdAt, updatedAt)
    }

    /** Constructing a document: the given fields plus the schema defaults; both timestamps default to now. */
    constructor (requestedRole: Option<string>, verificationData: Verification, location: Option<string>,
                 vulnerabilityFactors: seq<string>, now: int)
      ensures Doc() == NewDoc(requestedRole, verificationData, location, vulnerabilityFactors, now)
    {
      this.role := requestedRole.GetOr(BeneficiaryRole);
      this.isApproved := false;
      this.approvalStatus := Pending;
      this.appealStatus := AppealNone;
      this.trustScore := 50;
      this.riskLevel := Medium;
      this.verificationData := verificationData;
      this.location := location;
      this.vulnerabilityFactors := vulnerabilityFactors;
      this.createdAt := now;
      this.updatedAt := now;
    }

    /** `calculateTrustScore`: reads the document and returns a score; being a function it writes nothing. */
    function CalculateTrustScore(): (score: int)
      reads this
      ensures 50 <= score <= 100
      ensures score == TrustScore(role, verificationData)
    {
      TrustScore(role, verificationData)
    }

    /** `updateRiskLevel`: sets `riskLevel` from the stored `trustScore` and nothing else. */
    method UpdateRiskLevel()
      modifies this`riskLevel
      ensures RiskConsistent(Doc())
      ensures Doc() == old(Doc()).(riskLevel := RiskTier(trustScore))
    {
      var score := trustScore;
      if score >= 80 {
        riskLevel := Low;
      } else if score >= 50 {
        riskLevel := Medium;
      } else {
        riskLevel := High;
      }
    }

    /** The pre-save hook: stamps `updatedAt` with the save time (persistence itself is not modelled). */
    method Save(now: int)
      modifies this`updatedAt
      ensures Doc() == Touched(old(Doc()), now)
    {
      updatedAt := now;
    }
  }
}

=== FILE: wrappers.dfy ===
/** Option and Result, the failure-carrying values used across the model. */
module Wrappers {

  /** An optional value: JavaScript's `undefined`/`null` versus a present value. */
  datatype Option<+T> = None | Some(value: T) {
    function GetOr(default: T): T {
      match this
      case Some(v) => v
      case None => default
    }
  }

  /** The outcome of a request handler: a value or an error response. */
  datatype Result<+T, +E> = Success(value: T) | Failure(error: E)
}
